=== FILE: README.md ===
# nginx configuration generator and environment manager, modelled in Dafny

The repository is a small Django project with two duties.

- **App registry and nginx sync.** An `AppConfigModel` registry stores, for each deployed application, its URL path, upstream host and port, static root, activity flag, SSL flag and configuration path. Saving a record derives a default configuration path. After any save, a post-save handler renders one nginx file per active application (through a Jinja template) and then a combined file for all active applications. A post-delete handler removes the record's file and rebuilds the combined file. `regenerate_all_configs` rebuilds everything. A stand-alone script (`gen_nginx_conf.py`) renders a variant of the template from the values of a `.env` file.
- **Environment management.** An `EnvironmentVariable` table has a list view (search, ordering, pages of ten), an edit view that pushes a variable into the process environment or into `/etc/environment` plus an `/etc/profile.d` script, and a delete view that filters the variable's line out of `/etc/environment`. `EnvManager` (env_manager.py) reads and writes a `.env` file. `gen_test.py` uses it to switch a deployment to its test variant once.

The model is pure.

- The database is a sequence of rows in primary-key order.
- A disk is a map from path to content, with a set of paths whose writes raise.
- The operating system seen by the environment views is a `System` value: files as lists of lines, the process environment, the paths reported writable, and the paths whose writes raise `PermissionError`.
- An nginx configuration is a tree of `Node`s (directives, blocks, comments) that `Nginx.Flatten` prints. Properties are stated on the tree and, where it matters, on the printed text.

Modules:

| file | module | models |
|---|---|---|
| wrappers.dfy | Wrappers | `Option` and `Result` |
| text.dfy | Text | `str.strip`, `startswith`, `int()` / `str()` on integers, `isidentifier`, ASCII `lower`, `os.path.join` |
| nginx.dfy | Nginx | the configuration tree, its printing, and queries on it |
| app_render.dfy | AppRender | the record, `save`'s default path, `generate_nginx_config`, `get_absolute_url` |
| sync.dfy | Sync | registry constraints, post-save / post-delete handlers, the combined file, `regenerate_all_configs` |
| script_render.dfy | ScriptRender | `gen_nginx_conf.py` |
| urls.dfy | Urls | `prefixed_path` |
| env_file.dfy | EnvFile | `readlines` / `writelines`, the `/etc/environment` rewrite and delete filter, the profile script |
| env_forms.dfy | EnvForms | `EnvironmentVariableForm` key and scope validation |
| env_models.dfy | EnvModels | the variable table, `load_from_system`, `apply_to_system`, `_set_global_env` |
| env_list.dfy | EnvList | search, ordering and pagination of the list view |
| env_views.dfy | EnvViews | the list, edit and delete views |
| env_switch.dfy | EnvSwitch | `EnvManager` on a `.env` file, `backup_and_switch_to_test`, `gen_test.py` |

Behaviour of the code that a reader might not expect:

- `regenerate_all_configs` has no error handling, so the first failing write ends the run (`Sync.RegenerateStopsAtFailure`).
- When removing a deleted record's file fails, the combined file is not rebuilt, because the same `try` catches the error (`Sync.PostDeleteRemoveFails`).
- Deleting the last active record leaves the previous combined file in place (`Sync.PostDeleteLastActiveLeavesStale`).
- The template's `listen 443 ssl` server always prints `server_name`, even for an empty host. Only the port-80 line is guarded (`AppRender.RenderedServers`).
- In session scope `apply_to_system` returns `False` when `os.environ` rejects the key or value. A key that passes the form never triggers this (`EnvModels.SessionAlwaysApplies`).
- A refused global edit can leave `/etc/environment` already rewritten (`EnvViews.RefusedEditMayRewriteFile`).
- `load_from_system` never removes rows whose variables have left the environment (`EnvModels.LoadFromSystemRows`).

## Model

| member | source | states |
|---|---|---|
| AppRender.WithDefaultPath | app/models.py:171-179 | after `save` the path is never empty; a set path is kept as it is; an empty one becomes a path ending in `{host}_{port}_{path}.conf` under the configured directory; no other field changes |
| AppRender.WithDefaultPathIdempotent | app/models.py:173-178 | saving a saved record derives nothing new |
| AppRender.DefaultPathUnderDefaultDir | app/models.py:150-179 | with the default setting the path is `/etc/nginx/conf.d/` plus the file name; a record left at the field default keeps the path `test` |
| AppRender.AbsoluteUrl | app/models.py:221-223 | the URL is `https` exactly when SSL is enabled and `http` otherwise, and ends with the path stripped of slashes plus `/` |
| AppRender.AbsoluteUrlIgnoresSlashes | app/models.py:223 | any number of slashes around the stored path give the same URL |
| AppRender.ActiveApps | app/models.py:194-203 | the template sees exactly the active records of the list it is given |
| AppRender.ActiveAppsAppend | app/models.py:202 | the activity filter distributes over concatenation, so it keeps the given order |
| AppRender.ActiveAppsIdempotent | app/models.py:202 | filtering a filtered list changes nothing |
| AppRender.RenderedLocations | app/models.py:39-65 | the rendering has three locations per active app, in list order: the proxy to `http://host:port/`, the static alias with a one-day expiry, and the media alias with a seven-day expiry; the dot-file deny rule comes last and is present even with no app |
| AppRender.RenderedSelf | app/models.py:185-187 | without an app list a record renders only itself, and no route at all when it is inactive |
| AppRender.RenderedServers | app/models.py:14-37 | the redirect and the `listen 443 ssl` server appear exactly when SSL is on and both certificate paths are set; the body limit is always present; port 80 names the host exactly when it is non-empty; the TLS server always carries `server_name` |
| AppRender.RenderedTextHasBodyLimit | app/models.py:36-37 | the printed configuration always contains the `client_max_body_size 30M;` line |
| AppRender.Render | app/models.py:181-207 | the text is the printing of the configuration tree; what the tree holds is stated by `AppRender.RenderedLocations`, `AppRender.RenderedServers` and `AppRender.RenderedSelf` |
| AppRender.RenderIgnoresRecordBeyondHostAndSsl | app/models.py:189-193 | given an app list, only the host and SSL flag of the rendering record affect the text |
| Sync.Conflicts | app/models.py:212-216 | a record clashes on path, on port, or on the host/port/path triple exactly when another row shares that value |
| Sync.NextId | app/models.py:72 | the next primary key exceeds every existing one |
| Sync.Create | app/models.py:171-179 | an insert appends the saved record under a fresh larger key and keeps every row; it is refused exactly when some row already has the path or the port |
| Sync.IndexOf | app/models.py:72 | the position found holds the key; no position means no row has it |
| Sync.Update | app/models.py:171-179 | an update replaces the row with the key by the saved record and keeps every other row in place; it is refused exactly when no row has the key (`NotFound`) or another row already has the path or the port (`Duplicate`, naming at least one constraint) |
| Sync.Remove | app/models.py:296-297 | a delete removes exactly the row with the key and keeps the others; it fails exactly when no row has the key |
| Sync.Write | app/models.py:270-271 | a write sets the file's content, or leaves the disk unchanged when the path fails |
| Sync.CreateAndSync | app/models.py:228-229 | the registry is the result of the insert; a refused insert touches no file; a stored one is followed by the post-save handler over the new registry |
| Sync.UpdateAndSync | app/models.py:228-229 | the registry is the result of the update; a refused update touches no file; a stored one is followed by the post-save handler over the new registry |
| Sync.DeleteAndSync | app/models.py:296-297 | deleting an unknown key is `NotFound` and touches no file; otherwise the registry loses the row and the post-delete handler runs over what remains |
| Sync.CreateAndSyncWritesRecord | app/models.py:228-287 | an active record created with a writable path of its own is listed among the active apps, its file holds its rendering, and the combined file is rebuilt from every active app |
| Sync.UpdateAndSyncWritesRecord | app/models.py:228-287 | the same for an update: the stored record's file holds its new rendering and the combined file is rebuilt |
| Sync.DeleteAndSyncForgetsRecord | app/models.py:296-311 | deleting a record whose file can be removed, while another app stays active, drops its row and its file and rebuilds the combined file with no route to its path |
| Sync.PostSaveWritesRow | app/models.py:241-287 | the post-save handler gives each active row with a writable path of its own its own rendering, and writes the combined file |
| Sync.ActiveKeysIncrease | app/models.py:241 | filtering the active rows keeps them in primary-key order |
| Sync.SameKeySameRow | app/models.py:72 | in a well-formed registry the primary key determines the row |
| Sync.PostSave | app/models.py:228-292 | the post-save handler never removes a file, and with no active app it writes nothing |
| Sync.PostDelete | app/models.py:296-311 | the post-delete handler touches only the deleted record's file and the combined file; a removable file is gone afterwards; a failing removal leaves every file as it was |
| Sync.GlobalConfig | app/models.py:314-342 | the combined-file step touches no other path and removes nothing; with no active app or a failing path it changes nothing |
| Sync.RegenerateAll | app/models.py:159-169 | regeneration reports a failure exactly when some active app has an empty or failing path, and the path it reports is empty or failing; with no active app nothing changes; otherwise the combined file holds the rendering from the first active app, even when a later app write fails, provided its path works and no app shares it |
| Sync.RegenerateWritesCombined | app/models.py:160-169 | the combined file, written first, survives the loop over the app files whenever no app writes its path |
| Sync.PostSaveNoActive | app/models.py:241-246 | with no active app the post-save handler writes nothing, not even the combined file |
| Sync.PostSaveAppFile | app/models.py:249-279 | each active app with a non-empty path of its own that can be written ends up with its own rendering |
| Sync.PostSaveGlobalFile | app/models.py:314-337 | when some app is active and the combined path can be written, the combined file is all active apps rendered with the first one's host and SSL flag |
| Sync.PostSaveFrame | app/models.py:249-287 | the handler touches no path other than the active apps' paths and the combined file, and removes nothing |
| Sync.PostSaveIsolation | app/models.py:261-287 | a failing write affects only its own path: every other path ends as it would with no failure |
| Sync.PostSaveIdempotent | app/models.py:228-287 | running the handler twice with no registry change leaves what running it once did |
| Sync.CreateListsOnce | app/models.py:241 | a created active record appears exactly once among the active records |
| Sync.PostDeleteRemovesFile | app/models.py:303-304 | a deleted record's removable file is gone afterwards |
| Sync.PostDeleteRemoveFails | app/models.py:301-311 | a failing removal leaves every file as it was, the combined one included |
| Sync.PostDeleteLastActiveLeavesStale | app/models.py:319-321 | deleting the last active record leaves the previous combined file in place |
| Sync.DeleteForgetsRoute | app/models.py:296-311 | after a delete, the combined file is the remaining active apps, and none of its locations proxies the deleted path |
| Sync.PostDeleteGlobalFile | app/models.py:307-308 | a delete whose removal succeeds rebuilds the combined file from the remaining active apps |
| Sync.WriteAllOrStopOutcome | app/models.py:165-168 | the regenerate loop stops exactly when some active app has an empty or failing path, and the path it reports is empty or failing |
| Sync.RegenerateIdempotent | app/models.py:159-169 | regenerating twice with no registry change leaves the same files and outcome as once |
| Sync.RegenerateWritesEveryApp | app/models.py:164-168 | with no failing path, regeneration succeeds and each active app with its own path holds its own rendering |
| Sync.RegenerateStopsAtFailure | app/models.py:165-168 | after the first failing app, no later app's file is touched |
| ScriptRender.Render | gen_nginx_conf.py:94 | the text is the printing of the template's tree; what the tree holds is stated by `ScriptRender.RenderedLocations` and `ScriptRender.RenderedTls` |
| ScriptRender.GenerateConfig | gen_nginx_conf.py:96-104 | with no (or an empty) output file the text is returned and nothing is written; otherwise exactly that file gets the text and nothing is returned; a failing path is an error |
| ScriptRender.WrittenIsReturned | gen_nginx_conf.py:96-104 | the file written holds exactly the text the returning mode gives, and no other file changes |
| ScriptRender.ExampleData | gen_nginx_conf.py:116-132 | the data fails exactly when a key it reads is missing, naming a missing key; otherwise it has one app named and routed at the base URL stripped of slashes, with the file's server name, port and certificate paths, and SSL requested |
| ScriptRender.ExampleStaticRootUnderScript | gen_nginx_conf.py:128 | whatever slashes `STATIC_ROOT` starts with, the static root lies under the script's directory |
| ScriptRender.RunScript | gen_nginx_conf.py:108-134 | the script writes the rendered example to `/etc/nginx/conf.d/nginx_with_ssl.conf`, and succeeds exactly when the keys are present and the write does not fail |
| ScriptRender.DayLiterals | gen_nginx_conf.py:54-68 | the `expires` values 1d and 7d equal the `max-age` of their cache headers (86400 and 604800 seconds) |
| ScriptRender.RenderedLocations | gen_nginx_conf.py:42-75 | every app is rendered in order as a loopback proxy on its port and path, plus static and media locations whose cache headers agree with their expiry; the secret-file rule comes last |
| ScriptRender.RenderIgnoresHosts | gen_nginx_conf.py:44-51 | the apps' hosts never affect the output |
| ScriptRender.RenderedTls | gen_nginx_conf.py:14-40 | the redirect, the TLS server and its protocol list appear exactly when SSL is requested and both certificate paths are set; the body limit is always present |
| ScriptRender.ExampleTls | gen_nginx_conf.py:118-131 | the script's own run emits the TLS server exactly when the `.env` file names both a certificate and a key |
| Urls.PrefixedRoute | helloDjango/urls.py:25-29 | the registered route ends with the route; it equals the route exactly when `BASE_URL` is only slashes; otherwise one `/` separates the stripped base from the route |
| Urls.StripEmptyIffSlashes | helloDjango/urls.py:27-28 | a base strips to nothing exactly when it is made only of slashes |
| Urls.PrefixIgnoresSlashes | helloDjango/urls.py:27 | slashes around `BASE_URL` do not change where routes are mounted |
| Urls.SpellingsAgree | helloDjango/urls.py:27 | `/x/`, `x` and `//x` mount routes at the same place |
| Urls.InteriorSlashesKept | helloDjango/urls.py:27-28 | inner slashes of the base are kept, and one slash joins base and route |
| Urls.RouteRecoverable | helloDjango/urls.py:28 | the route can be read back from the mounted string given the base |
| EnvFile.KeyOf | environment/models.py:91-101 | blank and comment lines have no key; a key is unpadded, holds no `=`, and comes from a line that holds `=` |
| EnvFile.UpdateEnvLines | environment/models.py:88-108 | a line read as the variable's becomes `KEY="VALUE"`, every other line is kept in place, and the line is appended exactly when no line matched |
| EnvFile.UpdateKeepsSkipped | environment/models.py:91-95 | blank and comment lines pass through the update unchanged |
| EnvFile.EnvLineKey | environment/models.py:97-101 | the line written for a valid key is read back as that key's line |
| EnvFile.UpdateIdempotent | environment/models.py:88-108 | on the list of lines, setting a variable twice leaves the lines as setting it once |
| EnvFile.ReadLines | environment/models.py:84-85 | `readlines` cuts the text after each newline: writing the lines back gives the text, and every line is whole exactly when the text is empty or ends in a newline |
| EnvFile.ReadJoin | environment/models.py:84-112 | lines that are all whole, written and read back, are the same lines |
| EnvFile.UpdateKeepsWholeLines | environment/models.py:97-108 | for a key and value without newlines the rewrite keeps every line whole |
| EnvFile.UpdateFile | environment/models.py:82-112 | on an empty file the result is the single new line; on a file ending in a newline with a valid key and a newline-free value, the written text reads back as the rewritten lines |
| EnvFile.UpdateFileIdempotent | environment/models.py:82-112 | on a file ending in a newline, setting a variable twice writes the same text as setting it once |
| EnvFile.UpdateFileAppends | environment/models.py:106-112 | a variable no line is read as is appended to the text as it stands, with no newline inserted |
| EnvFile.UnterminatedLastLineFuses | environment/models.py:84-112 | on the text `A=1`, setting `K` glues `K="v"` onto the last line; the result reads back as one line of `A`, so a second set of `K` appends again |
| EnvFile.ProfileScript | environment/models.py:125-132 | the script is one line starting with `export `; behind it stands the environment-file line, read as the key's for a valid key and whole when key and value hold no newline |
| EnvFile.UpdateMatches | environment/models.py:100-108 | after the update some line is the variable's |
| EnvFile.RemoveKey | environment/views.py:99-102 | the delete filter keeps exactly the lines that do not start with `KEY=` |
| EnvFile.RemoveKeyAppend | environment/views.py:100-102 | the filter distributes over concatenation, so it keeps line order |
| EnvFile.RemoveKeyIdempotent | environment/views.py:99-102 | filtering twice is filtering once |
| EnvFile.RemovesWrittenLine | environment/views.py:101 | the delete filter removes the line the update writes for the key |
| EnvFile.DeleteAfterUpdate | environment/views.py:99-102 | deleting right after setting leaves no written line for the key |
| EnvFile.KeepsOtherKeysLine | environment/views.py:101 | another valid key's line survives, even when one key is a prefix of the other |
| EnvFile.KeepsLooseLines | environment/views.py:101 | an indented line, a line with a space before `=`, and an `export` line all survive the delete filter |
| EnvFile.SpacedLineOnlyRewritten | environment/models.py:97-101 | a line `KEY = v` is taken as the variable's line by the update but kept by the delete filter |
| EnvFile.ProfilePathInDir | environment/models.py:127 | the profile script lies in the profile directory and is named `custom_KEY.sh` |
| EnvFile.ProfilePathInjective | environment/models.py:127 | distinct keys get distinct profile scripts |
| EnvForms.CleanKey | environment/forms.py:23-27 | a key is accepted, unchanged, exactly when it is an identifier |
| EnvForms.CleanKeyRejects | environment/forms.py:25-26 | an empty key, a leading digit, `=`, a space or `-` is refused |
| EnvForms.AcceptedKeyRoundTrips | environment/forms.py:23-27 | an accepted key's written line is read back as its own; the delete filter removes it and keeps any other accepted key's line |
| EnvForms.CleanScope | environment/forms.py:5-12 | a scope is accepted exactly when it is one of the two choices, and is read back as that choice |
| EnvForms.ScopeRoundTrip | environment/forms.py:5-12 | every scope is offered and read back as itself; the initial choice is global |
| EnvModels.Row | environment/models.py:7 | a row is found exactly when the key is in the table, and it carries that key |
| EnvModels.Upsert | environment/models.py:25-31 | keys stay unique; an existing row gets the new value and keeps its description; a new row gets the system label; other rows are unchanged |
| EnvModels.LoadFromSystem | environment/models.py:21-31 | loading keeps keys unique |
| EnvModels.LoadFromSystemRows | environment/models.py:23-31 | each variable not starting with `_` gets a row holding its environment value; every other row is untouched, including rows whose variable has left the environment |
| EnvModels.AcceptedKeyFitsEnviron | environment/models.py:45 | every key the form accepts, with a NUL-free value, can be put into the process environment |
| EnvModels.SetGlobalEnv | environment/models.py:52-71 | the result is true exactly when no attempted write is refused with `PermissionError`; the process environment is not touched; no file other than `/etc/environment`, its backup and the key's profile script changes, appears or disappears; a file not reported writable is left as it was |
| EnvModels.ProfileOutsideEnvironment | environment/models.py:56-63 | the profile script's path is neither `/etc/environment` nor its backup |
| EnvModels.ApplyToSystem | environment/models.py:33-50 | an unknown scope returns nothing and changes nothing; success means the process environment holds the value; otherwise the process environment is unchanged; only session and global scope touch files, and then no file other than `/etc/environment`, its backup and the key's profile script |
| EnvModels.SessionAlwaysApplies | environment/models.py:43-46 | in session scope a valid variable is applied and only the process environment changes |
| EnvModels.GlobalAppliesIffAllowed | environment/models.py:36-42 | in global scope a valid variable is applied exactly when every attempted write is allowed |
| EnvModels.GlobalWritesFiles | environment/models.py:73-132 | a successful global application leaves `/etc/environment` rewritten (old lines in the backup) and the profile script holding the `export` line, for whichever targets were writable |
| EnvModels.GlobalRefusedAfterRewrite | environment/models.py:56-70 | when only the profile script is refused, the call fails but `/etc/environment` has already been rewritten |
| EnvList.Search | environment/views.py:25-28 | the search keeps exactly the rows whose key contains the query, ignoring ASCII case, each with its multiplicity |
| EnvList.EmptyQueryKeepsAll | environment/views.py:25-30 | the empty query keeps every row, so skipping the filter changes nothing |
| EnvList.SearchIgnoresCase | environment/views.py:27 | the case of the query does not matter |
| EnvList.KeyLeTotal | environment/views.py:28 | the key order is total |
| EnvList.Insert | environment/views.py:28 | inserting into an ordered list gives an ordered list with one more copy of the row |
| EnvList.SortByKey | environment/views.py:28-30 | the result is sorted by key and is a permutation of the input rows |
| EnvList.SortSortedIsIdentity | environment/views.py:28-30 | ordering an ordered list changes nothing |
| EnvList.SortIdempotent | environment/views.py:28-30 | ordering twice is ordering once |
| EnvList.Matching | environment/views.py:24-30 | the listed rows are ordered and are a permutation of the search result, so exactly the matching rows with their multiplicity; for the empty query, a permutation of the whole table |
| EnvList.NumPages | environment/views.py:33 | the page count is at least one and is the least number of ten-row pages holding every row |
| EnvList.PageNumber | environment/views.py:34-41 | the page shown is in range; absent or non-integer input gives page 1; an integer out of range gives the last page |
| EnvList.PageItems | environment/views.py:33-37 | a page holds at most ten consecutive rows starting at its first index; every page but the last is full; a non-empty list has no empty page |
| EnvList.PageOfSorted | environment/views.py:33-37 | a page of an ordered list is ordered and holds only rows of the list |
| EnvList.ItemOnItsPage | environment/views.py:33 | row `i` is on page `i/10+1` at position `i%10` |
| EnvList.PageByNumber | environment/views.py:34-37 | asking for a page by its own number shows that page |
| EnvViews.AppendRow | environment/views.py:68 | saving a new row adds exactly its key, holds the row, and leaves other rows alone |
| EnvViews.ReplaceRow | environment/views.py:59-68 | saving an edited row replaces the edited key by the new one, holds the new row, and leaves other rows alone |
| EnvViews.RemoveRow | environment/views.py:86-90 | deleting a row removes exactly its key and leaves other rows alone |
| EnvViews.RemoveAppended | environment/views.py:58-90 | creating a row and deleting it gives back the table |
| EnvViews.List | environment/views.py:13-47 | a non-empty `refresh` reloads and redirects; otherwise the table is unchanged and the page shown is in range, holds at most ten rows, is ordered, and holds only matching rows of the table |
| EnvViews.EveryMatchListed | environment/views.py:22-41 | every matching row is shown on some page, reached by asking for that page |
| EnvViews.Edit | environment/views.py:51-72 | a missing row is not found; an invalid form changes nothing; otherwise the system is what applying left, and the row is saved exactly when the apply succeeded or the scope is the session; a saved row holds the stripped form fields; keys stay unique |
| EnvViews.EditSavedIff | environment/views.py:65-72 | a valid form is saved exactly when the scope is the session or every global write is allowed |
| EnvViews.EditKeepsOtherRows | environment/views.py:59-68 | a saved edit keeps every other row, and a renamed key frees the old one |
| EnvViews.RefusedEditMayRewriteFile | environment/views.py:65-72 | a refused global create leaves the table unchanged while `/etc/environment` already holds the new line |
| EnvViews.Delete | environment/views.py:84-104 | a row is deleted exactly when its key exists, and other rows are kept; when `/etc/environment` can be rewritten it becomes the delete filter of its lines, which keeps exactly the lines not starting with `KEY=`; every other file keeps its content, and nothing else in the system changes |
| EnvViews.CreateThenDelete | environment/views.py:58-104 | creating a variable in global scope and deleting it gives back the table and leaves no line it wrote |
| EnvSwitch.ReadAll | env_manager.py:51-61 | a present file reads as its variables, and an absent file as none |
| EnvSwitch.Exists | env_manager.py:136-143 | a key exists exactly when `get` with no default finds it |
| EnvSwitch.Get | env_manager.py:63-75 | `get` returns the stored value of a present key and the default for an absent one |
| EnvSwitch.Set | env_manager.py:77-90 | `set` adds the key, reads back as the value, and leaves every other key reading as before |
| EnvSwitch.Delete | env_manager.py:107-119 | `delete` removes only the key; every other key reads as before |
| EnvSwitch.SetThenGet | env_manager.py:63-90 | after `set` the key exists and reads back as the value; other keys do not move |
| EnvSwitch.DeleteThenGet | env_manager.py:107-143 | after `delete` the key is gone and `get` returns the default; other keys do not move |
| EnvSwitch.DeleteUndoesSet | env_manager.py:77-119 | deleting a key just set restores a file that lacked it |
| EnvSwitch.Derive | env_manager.py:196-201 | the switch adds `STATIC_URL`, moves the port up by 100, suffixes the container, the database and the base URL, and keeps every other key |
| EnvSwitch.TestConfig | env_manager.py:190-201 | the derivation fails exactly when a key it reads is missing or `PORT` is not an integer; on success the new `PORT` is the decimal text of the old port plus 100 |
| EnvSwitch.SwitchedPort | env_manager.py:198 | a derived test table can itself be switched, and its `PORT` reads back as the old port plus 100 |
| EnvSwitch.BackupPath | env_manager.py:205-206 | the backup path differs from the file and starts with its path |
| EnvSwitch.Replace | env_manager.py:204-213 | the file holds the new content, the old content moves to the backup, every other file is kept, no other file appears, and with no previous file the backup path is untouched |
| EnvSwitch.SetEach | env_manager.py:212-213 | setting every variable on a fresh file, in any order, leaves exactly the configuration |
| EnvSwitch.BackupAndSwitch | env_manager.py:187-219 | a failing derivation touches no file; otherwise the file holds the test configuration, the previous file is in the backup, every other file is kept and no other file appears; with no previous file the backup path is untouched |
| EnvSwitch.SwitchTwice | env_manager.py:198-199 | the switch is not idempotent: a second one adds another 100 to the port and another `test/` |
| EnvSwitch.GenTest | gen_test.py:5-14 | the script stops, touching nothing, exactly when some value contains `test/`; otherwise it makes the single switch: a crash carries the derivation's error and touches nothing; a switch writes the test configuration, keeps the previous file in the backup and every other file as it was, creates no file beyond the env file and (when there was a previous file) its backup, and leaves the guard holding, so a second run stops |
| EnvSwitch.SwitchedIsTest | gen_test.py:7-8 | after one switch the script's guard fires |
| Text.Strip | environment/models.py:91-99 | `strip` never lengthens the text and leaves no character of the set at either end |
| Text.ParseInt | env_manager.py:198 | `int()` on a string; `Text.ParseIntStrips` and `Text.ParseIntOfIntToString` state what it reads |
| Text.IsIdentifier | environment/forms.py:25 | the ASCII form of `str.isidentifier`; `Text.IdentifierChars` and `Text.IdentifierTrimmed` state its consequences |
| Text.IdentifierChars | environment/forms.py:25 | an identifier holds no `=`, space, `-` or newline and does not start with `#` |
| Text.ParseIntOfIntToString | env_manager.py:198 | `int(str(n))` is `n` |
| Text.ParseIntStrips | env_manager.py:198 | `int()` ignores whitespace around the numeral: it reads the stripped text |

## Left out

- Database, ORM and Django machinery: transactions, timestamps, `verbose_name`s, field lengths other than the variable key's, admin registration (app/admin.py), login and permission decorators, CSRF, messages, templates and HTTP responses are not modelled. The views are modelled on their POST paths and the list on its query parameters. The GET paths only render a form or a confirmation page.
- Rows of the environment table are addressed by their unique key instead of the primary key in the URL.
- The delete view redirects to the unqualified name `list` rather than `environment:list`. Routing and reversal are not modelled (environment/urls.py is not part of this model), so the model ends that view at the deletion.
- Jinja whitespace and the fixed comment labels of both templates are not reproduced. The configuration is modelled as a tree, and text properties are stated on its printing.
- The deny rules' regular expressions are carried as literal arguments. Their matching semantics are not modelled.
- Directory creation (`os.makedirs`), `os.path.getsize`, logging and `print` have no effect on the modelled state.
- `os.chmod` after each environment-file or profile-script write is not modelled. A `PermissionError` from it would turn a completed write into a `False` result.
- In `_update_env_file`, non-permission errors restore the backup and are caught by `apply_to_system` as `False`. Only permission refusals are modelled.
- `_reload_environment` only prints.
- `os.environ.items()` is a parameter of `load_from_system`, in iteration order.
- EnvSwitch.ReadAll: the `.env` file is the map `dotenv_values` returns. Quoting rules, keys without a value (`None`) and the text format of `set_key` / `unset_key` are not modelled. A read error that returns `{}` is not modelled.
- EnvSwitch.BackupAndSwitch: `set` is assumed to succeed and to create the file. A `set` failure, which the source reports only through its return value, is not modelled. The backup timestamp is a parameter in place of the clock. A failing `os.rename` is not modelled.
- `EnvManager.create_env_file`, `set_many`, `delete_many`, `reload`, `get_file_path` and `file_exists` are not modelled. They are thin wrappers that no modelled operation calls.
- npm_api_test.py is not part of this model. It is a separate client script with no behaviour in the core.
- EnvFile.UpdateIdempotent: the file is modelled as the list `readlines` returns. `EnvFile.UpdateFile` connects it to the text. Idempotence on the text holds only for a file that ends in a newline and a value without one. A file whose last line lacks its newline fuses the appended line onto it (`EnvFile.UnterminatedLastLineFuses`). A value holding a newline is written as several lines.
- `EnvFile.ReadLines` assumes a text without carriage returns. Python's text mode also turns `\r` and `\r\n` into `\n`.
- The environment views keep `/etc/environment` as its list of lines, not as text.
- `Text.ParseInt` reads ASCII digits with an optional sign. Python's `int()` also accepts underscores between digits and non-ASCII digits.
- `Text.IsIdentifier` uses the ASCII rule. Python's `str.isidentifier` also accepts non-ASCII letters.
- `Text.Lower` folds ASCII letters only. The database's `icontains` may also fold other letters, depending on the backend.
- `EnvList.SortByKey` orders by code point. The database's collation decides `order_by('key')`, and it may order differently.
- Sync.Write: a failing path is modelled as failing at `open`. A failure after `open` has truncated the file, such as a full disk, would leave it empty or partial; that is not modelled.
- `Sync.Create` and `Sync.Update` refuse a clash on path or port with another row. `Sync.Conflicts` also reports the host/port/path triple constraint, but a triple clash is always a path clash too.
- `AppRender.Render` and `ScriptRender.Render` carry no contract of their own. Their properties are stated on the tree they print.

=== FILE: app_render.dfy ===
/** The application registry record (`AppConfigModel`) and everything about it
    that does not touch the database or the disk: the default configuration
    path `save` fills in, the nginx configuration `generate_nginx_config`
    renders, and `get_absolute_url`. */
module AppRender {
  import opened Wrappers
  import opened Text
  import opened Nginx

  datatype Environment = Development | Staging | Production | Testing

  /** One registry row. `id` is the primary key; the free-text `description`
      and `notes` and the two timestamps play no part in any behaviour here. */
  datatype AppConfig = AppConfig(
    id: nat,
    name: string,
    path: string,
    host: string,
    port: nat,
    staticRoot: string,
    isActive: bool,
    sslEnabled: bool,
    configPath: string,
    environment: Option<Environment>)

  /** The Django settings the renderer and the sync engine read. */
  datatype Settings = Settings(
    sslCertificate: string,
    sslCertificateKey: string,
    configDir: string,
    globalConfigPath: string)

  /** The values used when a setting is not configured. */
  const DefaultSettings := Settings(
    "/etc/ssl/certs/cert.pem",
    "/etc/ssl/private/key.pem",
    "/etc/nginx/conf.d/",
    "/etc/nginx/conf.d/global_apps.conf")

  /** A record built from the field defaults, as a bare `AppConfigModel(name=...)`. */
  function NewApp(id: nat, name: string): AppConfig {
    AppConfig(id, name, "app1", "localhost", 8000, "/var/www/app/static", true, false, "test", None)
  }

  // ---- save: the default configuration path ----

  /** `{host}_{port}_{path}.conf`. */
  function ConfigFileName(a: AppConfig): string {
    a.host + "_" + NatToString(a.port) + "_" + a.path + ".conf"
  }

  /** What `save` does before writing the row: an empty `config_path` is
      replaced by the file name joined to the configuration directory. */
  function WithDefaultPath(a: AppConfig, configDir: string): (r: AppConfig)
    ensures r.configPath != ""
    ensures a.configPath != "" ==> r == a
    ensures a.configPath == "" ==> r == a.(configPath := r.configPath)
    ensures a.configPath == "" ==> EndsWith(r.configPath, ConfigFileName(a))
    ensures a.configPath == "" && !Absolute(ConfigFileName(a)) ==> StartsWith(r.configPath, configDir)
  {
    if a.configPath == "" then a.(configPath := PathJoin(configDir, ConfigFileName(a))) else a
  }

  /** Saving twice derives nothing new. */
  lemma WithDefaultPathIdempotent(a: AppConfig, configDir: string)
    ensures WithDefaultPath(WithDefaultPath(a, configDir), configDir) == WithDefaultPath(a, configDir)
  {
  }

  /** With the default directory the derived path is that directory plus the file
      name, and a record left at the field default keeps the path `test`. */
  lemma DefaultPathUnderDefaultDir(a: AppConfig)
    requires a.configPath == "" && !Absolute(a.host)
    ensures WithDefaultPath(a, DefaultSettings.configDir).configPath == "/etc/nginx/conf.d/" + ConfigFileName(a)
    ensures WithDefaultPath(NewApp(a.id, a.name), DefaultSettings.configDir).configPath == "test"
  {
    var f := ConfigFileName(a);
    assert f == a.host + ("_" + NatToString(a.port) + "_" + a.path + ".conf");
    if a.host == [] {
      assert f[0] == '_';
    } else {
      assert f[0] == a.host[0];
    }
  }

  // ---- get_absolute_url ----

  /** `{http|https}://{host}:{port}/{path stripped of '/'}/`. */
  function AbsoluteUrl(a: AppConfig): (r: string)
    ensures StartsWith(r, "https://") <==> a.sslEnabled
    ensures StartsWith(r, "http://") <==> !a.sslEnabled
    ensures EndsWith(r, Strip(a.path, {'/'}) + "/")
  {
    var tail := Strip(a.path, {'/'}) + "/";
    var head := a.host + ":" + NatToString(a.port) + "/";
    var scheme := if a.sslEnabled then "https://" else "http://";
    UrlShape(scheme, head, tail);
    scheme + (head + tail)
  }

  /** A URL built from a scheme, the authority and the path starts with the
      one scheme and ends with the path. */
  lemma UrlShape(scheme: string, head: string, tail: string)
    requires scheme == "https://" || scheme == "http://"
    ensures var r := scheme + (head + tail);
      && EndsWith(r, tail)
      && (StartsWith(r, "https://") <==> scheme == "https://")
      && (StartsWith(r, "http://") <==> scheme == "http://")
  {
    var r := scheme + (head + tail);
    assert r == (scheme + head) + tail;
    assert r[|r| - |tail|..] == tail;
    assert r[..|scheme|] == scheme;
    assert r[4] == scheme[4];
  }

  /** Slashes around the stored path do not change the URL. */
  lemma AbsoluteUrlIgnoresSlashes(a: AppConfig, before: nat, after: nat)
    ensures AbsoluteUrl(a.(path := Slashes(before) + a.path + Slashes(after))) == AbsoluteUrl(a)
  {
    StripIgnoresPadding(Slashes(before), a.path, Slashes(after), {'/'});
  }

  function Slashes(n: nat): (r: string)
    ensures |r| == n && AllIn(r, {'/'})
  {
    if n == 0 then "" else "/" + Slashes(n - 1)
  }

  // ---- generate_nginx_config ----

  /** The part of a record the template sees (`config_data["apps"]` entries). */
  datatype AppView = AppView(name: string, path: string, host: string, port: nat, staticRoot: string)

  /** Everything the template is rendered from. */
  datatype TemplateData = TemplateData(
    serverName: string,
    sslEnabled: bool,
    sslCertificate: string,
    sslCertificateKey: string,
    apps: seq<AppView>)

  function View(a: AppConfig): AppView {
    AppView(a.name, a.path, a.host, a.port, a.staticRoot)
  }

  function Views(apps: seq<AppConfig>): (r: seq<AppView>)
    ensures |r| == |apps|
    ensures forall i :: 0 <= i < |apps| ==> r[i] == View(apps[i])
  {
    seq(|apps|, i requires 0 <= i < |apps| => View(apps[i]))
  }

  /** `[app for app in apps if app.is_active]`. */
  function ActiveApps(apps: seq<AppConfig>): (r: seq<AppConfig>)
    ensures |r| <= |apps|
    ensures forall a :: a in r ==> a in apps && a.isActive
    ensures forall a :: a in apps && a.isActive ==> a in r
  {
    if apps == [] then []
    else (if apps[0].isActive then [apps[0]] else []) + ActiveApps(apps[1..])
  }

  /** Filtering commutes with concatenation, so it keeps the order it is given. */
  lemma {:induction false} ActiveAppsAppend(a: seq<AppConfig>, b: seq<AppConfig>)
    ensures ActiveApps(a + b) == ActiveApps(a) + ActiveApps(b)
    decreases a
  {
    if a == [] {
      assert a + b == b;
    } else {
      assert (a + b)[0] == a[0] && (a + b)[1..] == a[1..] + b;
      ActiveAppsAppend(a[1..], b);
    }
  }

  /** Filtering an already filtered list changes nothing. */
  lemma {:induction false} ActiveAppsIdempotent(apps: seq<AppConfig>)
    ensures ActiveApps(ActiveApps(apps)) == ActiveApps(apps)
    decreases apps
  {
    if apps != [] {
      var head := if apps[0].isActive then [apps[0]] else [];
      ActiveAppsAppend(head, ActiveApps(apps[1..]));
      ActiveAppsIdempotent(apps[1..]);
    }
  }

  /** The template's context: server name and SSL flag come from the record
      the method is called on, the certificate paths from the settings, and the
      app list from `apps` (or `[self]` when it is not given), inactive ones dropped. */
  function ConfigData(self: AppConfig, settings: Settings, apps: Option<seq<AppConfig>>): TemplateData {
    var given := if apps.None? then [self] else apps.value;
    TemplateData(self.host, self.sslEnabled, settings.sslCertificate, settings.sslCertificateKey,
                 Views(ActiveApps(given)))
  }

  /** The template's `ssl_enabled and ssl_certificate and ssl_certificate_key`. */
  predicate TlsOn(d: TemplateData) {
    d.sslEnabled && d.sslCertificate != "" && d.sslCertificateKey != ""
  }

  const Redirect := Directive("return", ["301", "https://$server_name$request_uri"])
  const ListenTls := Directive("listen", ["443", "ssl"])
  const BodyLimit := Directive("client_max_body_size", ["30M"])
  const HiddenFiles := Block("location", ["~", "/\\."], [Directive("deny", ["all"])])

  function ProxyLocation(a: AppView): Node {
    Block("location", ["/" + a.path + "/"], [
      Directive("proxy_pass", ["http://" + a.host + ":" + NatToString(a.port) + "/"]),
      Directive("proxy_set_header", ["Host", "$host"]),
      Directive("proxy_set_header", ["X-Real-IP", "$remote_addr"]),
      Directive("proxy_set_header", ["X-Forwarded-For", "$proxy_add_x_forwarded_for"]),
      Directive("proxy_set_header", ["X-Forwarded-Proto", "$scheme"])])
  }

  function StaticLocation(a: AppView): Node {
    Block("location", ["/" + a.path + "/static/"], [
      Directive("alias", [a.staticRoot + "/"]),
      Directive("expires", ["1d"])])
  }

  function MediaLocation(a: AppView): Node {
    Block("location", ["/" + a.path + "/media/"], [
      Directive("alias", [a.staticRoot + "/media/"]),
      Directive("expires", ["7d"])])
  }

  /** The body of the `{% for app in apps %}` loop for one app; the comment
      carries the app's name (the template's fixed label is not reproduced). */
  function AppNodes(a: AppView): seq<Node> {
    [Comment(a.name), ProxyLocation(a), StaticLocation(a), MediaLocation(a)]
  }

  function AppsNodes(apps: seq<AppView>): seq<Node> {
    if apps == [] then [] else AppNodes(apps[0]) + AppsNodes(apps[1..])
  }

  function ServerNameLine(d: TemplateData): seq<Node> {
    if d.serverName != "" then [Directive("server_name", [d.serverName])] else []
  }

  /** The start of the port-80 server: `listen 80` and, for a non-empty host, its name. */
  function PlainHead(d: TemplateData): seq<Node> {
    [Directive("listen", ["80"])] + ServerNameLine(d)
  }

  /** The start of the TLS server. */
  function TlsHead(d: TemplateData): seq<Node> {
    [ListenTls,
     Directive("server_name", [d.serverName]),
     Directive("ssl_certificate", [d.sslCertificate]),
     Directive("ssl_certificate_key", [d.sslCertificateKey]),
     Directive("ssl_protocols", ["TLSv1.2", "TLSv1.3"])]
  }

  /** What follows the server heading in whichever server block carries the routes. */
  function RoutingBody(d: TemplateData): seq<Node> {
    [BodyLimit] + AppsNodes(d.apps) + [HiddenFiles]
  }

  /** `NGINX_TEMPLATE` of app/models.py. With TLS on, the port-80 server only
      redirects and the routes move into the `listen 443 ssl` server. */
  function Template(d: TemplateData): seq<Node> {
    [Comment(d.serverName + ".conf")] +
    if TlsOn(d) then
      [Block("server", [], PlainHead(d) + [Redirect]), Block("server", [], TlsHead(d) + RoutingBody(d))]
    else
      [Block("server", [], PlainHead(d) + RoutingBody(d))]
  }

  /** `generate_nginx_config(apps)` as a tree. */
  function RenderNodes(self: AppConfig, settings: Settings, apps: Option<seq<AppConfig>>): seq<Node> {
    Template(ConfigData(self, settings, apps))
  }

  /** `generate_nginx_config(apps)` as text. */
  function Render(self: AppConfig, settings: Settings, apps: Option<seq<AppConfig>>): string {
    Flatten(RenderNodes(self, settings, apps))
  }

  // ---- what the rendered configuration says ----

  /** Locations `p`, `s`, `m` route `a`: the app path proxied to
      `http://{host}:{port}/`, its static files aliased with a one-day expiry
      and its media files with a seven-day expiry. Only the first proxies. */
  predicate ServesApp(p: Node, s: Node, m: Node, a: AppView) {
    && p.Block? && p.args == ["/" + a.path + "/"]
    && Lookup(p.body, "proxy_pass") == Some(["http://" + a.host + ":" + NatToString(a.port) + "/"])
    && s.Block? && s.args == ["/" + a.path + "/static/"]
    && Lookup(s.body, "alias") == Some([a.staticRoot + "/"])
    && Lookup(s.body, "expires") == Some(["1d"])
    && Lookup(s.body, "proxy_pass") == None
    && m.Block? && m.args == ["/" + a.path + "/media/"]
    && Lookup(m.body, "alias") == Some([a.staticRoot + "/media/"])
    && Lookup(m.body, "expires") == Some(["7d"])
    && Lookup(m.body, "proxy_pass") == None
  }

  /** The rule denying every path with a component starting with a dot. */
  predicate DeniesDotFiles(loc: Node) {
    loc.Block? && loc.args == ["~", "/\\."] && Lookup(loc.body, "deny") == Some(["all"])
    && Lookup(loc.body, "proxy_pass") == None
  }

  lemma AppLocationsServe(a: AppView)
    ensures ServesApp(ProxyLocation(a), StaticLocation(a), MediaLocation(a), a)
  {
  }

  /** The locations of the loop body, flattened over the app list. */
  function AppsLocations(apps: seq<AppView>): seq<Node> {
    if apps == [] then [] else [ProxyLocation(apps[0]), StaticLocation(apps[0]), MediaLocation(apps[0])] + AppsLocations(apps[1..])
  }

  lemma {:induction false} AppsLocationsIndex(apps: seq<AppView>)
    ensures |AppsLocations(apps)| == 3 * |apps|
    ensures forall i :: 0 <= i < |apps| ==>
      && AppsLocations(apps)[3 * i] == ProxyLocation(apps[i])
      && AppsLocations(apps)[3 * i + 1] == StaticLocation(apps[i])
      && AppsLocations(apps)[3 * i + 2] == MediaLocation(apps[i])
    decreases apps
  {
    if apps != [] {
      AppsLocationsIndex(apps[1..]);
      var head := [ProxyLocation(apps[0]), StaticLocation(apps[0]), MediaLocation(apps[0])];
      assert AppsLocations(apps) == head + AppsLocations(apps[1..]);
      LocationThreesCons(apps, AppsLocations(apps[1..]));
    }
  }

  /** Putting an app's three locations in front of the tail's threes gives the whole list's threes. */
  lemma LocationThreesCons(apps: seq<AppView>, rest: seq<Node>)
    requires apps != []
    requires |rest| == 3 * (|apps| - 1)
    requires forall j :: 0 <= j < |apps| - 1 ==>
      && rest[3 * j] == ProxyLocation(apps[1..][j])
      && rest[3 * j + 1] == StaticLocation(apps[1..][j])
      && rest[3 * j + 2] == MediaLocation(apps[1..][j])
    ensures var locs := [ProxyLocation(apps[0]), StaticLocation(apps[0]), MediaLocation(apps[0])] + rest;
      forall i :: 0 <= i < |apps| ==>
        && locs[3 * i] == ProxyLocation(apps[i])
        && locs[3 * i + 1] == StaticLocation(apps[i])
        && locs[3 * i + 2] == MediaLocation(apps[i])
  {
    var locs := [ProxyLocation(apps[0]), StaticLocation(apps[0]), MediaLocation(apps[0])] + rest;
    forall i | 1 <= i < |apps|
      ensures locs[3 * i] == ProxyLocation(apps[i])
      ensures locs[3 * i + 1] == StaticLocation(apps[i])
      ensures locs[3 * i + 2] == MediaLocation(apps[i])
    {
      var j := i - 1;
      assert apps[1..][j] == apps[i];
      assert locs[3 * i] == rest[3 * j];
      assert locs[3 * i + 1] == rest[3 * j + 1];
      assert locs[3 * i + 2] == rest[3 * j + 2];
    }
  }

  lemma AppNodesLocations(a: AppView)
    ensures LocationsIn(AppNodes(a)) == [ProxyLocation(a), StaticLocation(a), MediaLocation(a)]
  {
    assert AppNodes(a) == [Comment(a.name)] + [ProxyLocation(a)] + [StaticLocation(a)] + [MediaLocation(a)];
    LocationsAppend([Comment(a.name)] + [ProxyLocation(a)] + [StaticLocation(a)], [MediaLocation(a)]);
    LocationsAppend([Comment(a.name)] + [ProxyLocation(a)], [StaticLocation(a)]);
    LocationsAppend([Comment(a.name)], [ProxyLocation(a)]);
    LocationsOfComment(a.name);
    LocationsOfLocation(ProxyLocation(a));
    LocationsOfLocation(StaticLocation(a));
    LocationsOfLocation(MediaLocation(a));
  }

  lemma {:induction false} AppsNodesLocations(apps: seq<AppView>)
    ensures LocationsIn(AppsNodes(apps)) == AppsLocations(apps)
    decreases apps
  {
    if apps != [] {
      LocationsAppend(AppNodes(apps[0]), AppsNodes(apps[1..]));
      AppNodesLocations(apps[0]);
      AppsNodesLocations(apps[1..]);
    }
  }

  lemma RoutingBodyLocations(d: TemplateData)
    ensures LocationsIn(RoutingBody(d)) == AppsLocations(d.apps) + [HiddenFiles]
  {
    LocationsAppend([BodyLimit] + AppsNodes(d.apps), [HiddenFiles]);
    LocationsAppend([BodyLimit], AppsNodes(d.apps));
    LocationsOfFlat([BodyLimit]);
    LocationsOfLocation(HiddenFiles);
    AppsNodesLocations(d.apps);
  }

  lemma HeadsHaveNoLocations(d: TemplateData)
    ensures LocationsIn(PlainHead(d)) == [] && LocationsIn(TlsHead(d)) == []
    ensures LocationsIn(PlainHead(d) + [Redirect]) == []
  {
    LocationsOfFlat(PlainHead(d));
    LocationsOfFlat(TlsHead(d));
    LocationsOfFlat(PlainHead(d) + [Redirect]);
  }

  lemma TemplateLocations(d: TemplateData)
    ensures LocationsIn(Template(d)) == AppsLocations(d.apps) + [HiddenFiles]
  {
    RoutingBodyLocations(d);
    HeadsHaveNoLocations(d);
    var title := [Comment(d.serverName + ".conf")];
    LocationsOfComment(d.serverName + ".conf");
    if TlsOn(d) {
      var redirect := Block("server", [], PlainHead(d) + [Redirect]);
      var tls := Block("server", [], TlsHead(d) + RoutingBody(d));
      LocationsAppend(title, [redirect] + [tls]);
      LocationsAppend([redirect], [tls]);
      LocationsOfBlock("server", [], PlainHead(d) + [Redirect]);
      LocationsOfBlock("server", [], TlsHead(d) + RoutingBody(d));
      LocationsAppend(TlsHead(d), RoutingBody(d));
    } else {
      var plain := Block("server", [], PlainHead(d) + RoutingBody(d));
      LocationsAppend(title, [plain]);
      LocationsOfBlock("server", [], PlainHead(d) + RoutingBody(d));
      LocationsAppend(PlainHead(d), RoutingBody(d));
    }
  }

  lemma TemplateServesApps(d: TemplateData)
    ensures var locs := LocationsIn(Template(d));
      && |locs| == 3 * |d.apps| + 1
      && (forall i :: 0 <= i < |d.apps| ==> ServesApp(locs[3 * i], locs[3 * i + 1], locs[3 * i + 2], d.apps[i]))
      && DeniesDotFiles(locs[3 * |d.apps|])
  {
    TemplateLocations(d);
    AppsLocationsServe(d.apps);
    ServingThreesAppend(AppsLocations(d.apps), [HiddenFiles], d.apps);
    HiddenFilesDenied();
  }

  lemma HiddenFilesDenied()
    ensures DeniesDotFiles(HiddenFiles)
  {
  }

  /** Appending after a list of serving threes keeps every three in place. */
  lemma ServingThreesAppend(pre: seq<Node>, post: seq<Node>, apps: seq<AppView>)
    requires |pre| == 3 * |apps|
    requires forall i :: 0 <= i < |apps| ==> ServesApp(pre[3 * i], pre[3 * i + 1], pre[3 * i + 2], apps[i])
    ensures forall i :: 0 <= i < |apps| ==>
      ServesApp((pre + post)[3 * i], (pre + post)[3 * i + 1], (pre + post)[3 * i + 2], apps[i])
    ensures (pre + post)[3 * |apps|..] == post
  {
    forall i | 0 <= i < |apps|
      ensures ServesApp((pre + post)[3 * i], (pre + post)[3 * i + 1], (pre + post)[3 * i + 2], apps[i])
    {
      assert (pre + post)[3 * i] == pre[3 * i];
      assert (pre + post)[3 * i + 1] == pre[3 * i + 1];
      assert (pre + post)[3 * i + 2] == pre[3 * i + 2];
    }
  }

  /** The apps' locations come in threes, each three serving its app. */
  lemma AppsLocationsServe(apps: seq<AppView>)
    ensures |AppsLocations(apps)| == 3 * |apps|
    ensures forall i :: 0 <= i < |apps| ==>
      ServesApp(AppsLocations(apps)[3 * i], AppsLocations(apps)[3 * i + 1], AppsLocations(apps)[3 * i + 2], apps[i])
  {
    AppsLocationsIndex(apps);
    forall i | 0 <= i < |apps|
      ensures ServesApp(AppsLocations(apps)[3 * i], AppsLocations(apps)[3 * i + 1], AppsLocations(apps)[3 * i + 2], apps[i])
    {
      AppLocationsServe(apps[i]);
    }
  }

  /** Rendering includes exactly the active apps of the argument, in argument
      order, each as its three locations, followed by the dot-file rule, which
      is there even when no app is. */
  lemma RenderedLocations(self: AppConfig, settings: Settings, apps: seq<AppConfig>)
    ensures var locs := LocationsIn(RenderNodes(self, settings, Some(apps)));
      var act := ActiveApps(apps);
      && |locs| == 3 * |act| + 1
      && (forall i :: 0 <= i < |act| ==> ServesApp(locs[3 * i], locs[3 * i + 1], locs[3 * i + 2], View(act[i])))
      && DeniesDotFiles(locs[3 * |act|])
  {
    var d := ConfigData(self, settings, Some(apps));
    TemplateServesApps(d);
    assert d.apps == Views(ActiveApps(apps));
  }

  /** Without an app list the record renders only itself, and nothing at all
      (beyond the dot-file rule) when it is inactive. */
  lemma RenderedSelf(self: AppConfig, settings: Settings)
    ensures var locs := LocationsIn(RenderNodes(self, settings, None));
      && (self.isActive ==> |locs| == 4 && ServesApp(locs[0], locs[1], locs[2], View(self)))
      && (!self.isActive ==> |locs| == 1)
  {
    var d := ConfigData(self, settings, None);
    TemplateServesApps(d);
    assert ActiveApps([self]) == if self.isActive then [self] else [] by {
      assert [self][1..] == [];
    }
    if self.isActive {
      assert d.apps == [View(self)];
    } else {
      assert d.apps == [];
    }
  }

  /** The directives an app contributes are route directives only. */
  const RouteNames := {"proxy_pass", "proxy_set_header", "alias", "expires"}

  predicate RouteDirective(x: Node) {
    x.Directive? && x.name in RouteNames
  }

  lemma AppNodesDirectives(a: AppView)
    ensures forall x :: x in DirectivesIn(AppNodes(a)) ==> RouteDirective(x)
  {
    var c, p, s, m := Comment(a.name), ProxyLocation(a), StaticLocation(a), MediaLocation(a);
    assert AppNodes(a) == [c] + [p] + [s] + [m];
    DirectivesAppend([c] + [p] + [s], [m]);
    DirectivesAppend([c] + [p], [s]);
    DirectivesAppend([c], [p]);
    DirectivesOfComment(a.name);
    BlockDirectivesNamed(p, RouteNames);
    BlockDirectivesNamed(s, RouteNames);
    BlockDirectivesNamed(m, RouteNames);
  }

  lemma {:induction false} AppsDirectives(apps: seq<AppView>)
    ensures forall x :: x in DirectivesIn(AppsNodes(apps)) ==> RouteDirective(x)
    decreases apps
  {
    if apps != [] {
      DirectivesAppend(AppNodes(apps[0]), AppsNodes(apps[1..]));
      AppNodesDirectives(apps[0]);
      AppsDirectives(apps[1..]);
    }
  }

  lemma RoutingBodyDirectives(d: TemplateData)
    ensures DirectivesIn(RoutingBody(d)) == [BodyLimit] + DirectivesIn(AppsNodes(d.apps)) + [Directive("deny", ["all"])]
  {
    DirectivesAppend([BodyLimit] + AppsNodes(d.apps), [HiddenFiles]);
    DirectivesAppend([BodyLimit], AppsNodes(d.apps));
    DirectivesOfFlat([BodyLimit]);
    DirectivesOfBlock("location", HiddenFiles.args, HiddenFiles.body);
    DirectivesOfFlat(HiddenFiles.body);
  }

  lemma TemplateDirectives(d: TemplateData)
    ensures var ds := DirectivesIn(Template(d));
      && BodyLimit in ds
      && (Redirect in ds <==> TlsOn(d))
      && (ListenTls in ds <==> TlsOn(d))
  {
    AppsDirectives(d.apps);
    RoutingBodyDirectives(d);
    var routing := DirectivesIn(RoutingBody(d));
    assert Redirect !in routing && ListenTls !in routing && BodyLimit in routing;
    assert Redirect !in PlainHead(d) && ListenTls !in PlainHead(d);
    if TlsOn(d) {
      TlsTemplateDirectives(d);
      assert ListenTls == TlsHead(d)[0];
    } else {
      PlainTemplateDirectives(d);
    }
  }

  /** The directives of the two-server configuration, in order. */
  lemma TlsTemplateDirectives(d: TemplateData)
    requires TlsOn(d)
    ensures DirectivesIn(Template(d)) == PlainHead(d) + [Redirect] + (TlsHead(d) + DirectivesIn(RoutingBody(d)))
  {
    var title := d.serverName + ".conf";
    assert Template(d) == [Comment(title)]
      + ([Block("server", [], PlainHead(d) + [Redirect])] + [Block("server", [], TlsHead(d) + RoutingBody(d))]);
    DirectivesOfTwoServers(title, PlainHead(d) + [Redirect], TlsHead(d) + RoutingBody(d));
    DirectivesAppend(TlsHead(d), RoutingBody(d));
    DirectivesOfFlat(PlainHead(d) + [Redirect]);
    DirectivesOfFlat(TlsHead(d));
  }

  /** The directives of the single-server configuration, in order. */
  lemma PlainTemplateDirectives(d: TemplateData)
    requires !TlsOn(d)
    ensures DirectivesIn(Template(d)) == PlainHead(d) + DirectivesIn(RoutingBody(d))
  {
    var title := [Comment(d.serverName + ".conf")];
    var plain := Block("server", [], PlainHead(d) + RoutingBody(d));
    assert Template(d) == title + [plain];
    DirectivesAppend(title, [plain]);
    DirectivesOfComment(d.serverName + ".conf");
    DirectivesOfBlock("server", [], PlainHead(d) + RoutingBody(d));
    DirectivesAppend(PlainHead(d), RoutingBody(d));
    DirectivesOfFlat(PlainHead(d));
  }

  lemma TemplateServers(d: TemplateData)
    ensures var servers := Servers(Template(d));
      && |servers| == (if TlsOn(d) then 2 else 1)
      && (Directive("server_name", [d.serverName]) in servers[0].body <==> d.serverName != "")
      && (TlsOn(d) ==> Directive("server_name", [d.serverName]) in servers[1].body)
  {
    var t := Template(d);
    var title := Comment(d.serverName + ".conf");
    AppsNodesShape(d.apps);
    assert forall x :: x in RoutingBody(d) ==> x != Directive("server_name", [d.serverName]);
    if TlsOn(d) {
      var b1 := Block("server", [], PlainHead(d) + [Redirect]);
      var b2 := Block("server", [], TlsHead(d) + RoutingBody(d));
      assert t == [title, b1, b2];
      assert t[1..] == [b1, b2] && t[1..][1..] == [b2] && t[1..][1..][1..] == [];
      assert Servers([b2]) == [b2];
      assert Servers([b1, b2]) == [b1] + Servers([b2]);
      assert Servers(t) == [b1, b2];
      assert Directive("server_name", [d.serverName]) in TlsHead(d);
    } else {
      var b := Block("server", [], PlainHead(d) + RoutingBody(d));
      assert t == [title, b];
      assert t[1..] == [b] && t[1..][1..] == [];
      assert Servers(t) == [b];
    }
  }

  lemma {:induction false} AppsNodesShape(apps: seq<AppView>)
    ensures forall x :: x in AppsNodes(apps) ==> !x.Directive?
    decreases apps
  {
    if apps != [] {
      AppsNodesShape(apps[1..]);
    }
  }

  /** The HTTPS redirect and the `listen 443 ssl` server appear exactly when the
      record has SSL enabled and both certificate paths are set; the body-size
      limit is always there; the port-80 server names the host exactly when the
      host is non-empty, while the TLS server always carries a `server_name`. */
  lemma RenderedServers(self: AppConfig, settings: Settings, apps: Option<seq<AppConfig>>)
    ensures var nodes := RenderNodes(self, settings, apps);
      var tls := self.sslEnabled && settings.sslCertificate != "" && settings.sslCertificateKey != "";
      var servers := Servers(nodes);
      && (Redirect in DirectivesIn(nodes) <==> tls)
      && (ListenTls in DirectivesIn(nodes) <==> tls)
      && BodyLimit in DirectivesIn(nodes)
      && |servers| == (if tls then 2 else 1)
      && (Directive("server_name", [self.host]) in servers[0].body <==> self.host != "")
      && (tls ==> Directive("server_name", [self.host]) in servers[1].body)
  {
    var d := ConfigData(self, settings, apps);
    TemplateDirectives(d);
    TemplateServers(d);
  }

  /** The rendered text carries the body-size limit line whatever the inputs. */
  lemma RenderedTextHasBodyLimit(self: AppConfig, settings: Settings, apps: Option<seq<AppConfig>>)
    ensures exists k: nat :: Contains(Render(self, settings, apps), Indent(k) + "client_max_body_size 30M;\n")
  {
    var nodes := RenderNodes(self, settings, apps);
    TemplateDirectives(ConfigData(self, settings, apps));
    DirectiveInFile(nodes, BodyLimit);
    var line := DirectiveText(BodyLimit.name, BodyLimit.args);
    assert line == "client_max_body_size 30M;" by {
      assert Args(["30M"]) == " 30M" + Args([]);
    }
    var k: nat :| Contains(Flatten(nodes), Indent(k) + line + "\n");
    assert Indent(k) + line + "\n" == Indent(k) + "client_max_body_size 30M;\n";
  }

  /** Only the host and SSL flag of the record rendering matter, never its own
      path, port or activity, once an app list is given. */
  lemma RenderIgnoresRecordBeyondHostAndSsl(self: AppConfig, other: AppConfig, settings: Settings, apps: seq<AppConfig>)
    requires self.host == other.host && self.sslEnabled == other.sslEnabled
    ensures Render(self, settings, Some(apps)) == Render(other, settings, Some(apps))
  {
  }
}

=== FILE: env_file.dfy ===
/** The system environment file as a list of lines (each with its own line
    terminator, as `readlines` returns them): the rewrite `_update_env_file`
    applies when a variable is set globally, the filter the delete view
    applies, and the `/etc/profile.d` script. */
module EnvFile {
  import opened Wrappers
  import opened Text

  /** A line the rewrite copies without looking at it: blank once stripped, or a comment. */
  predicate Skipped(line: string) {
    var t := Trim(line);
    t == [] || t[0] == '#'
  }

  /** The key the rewrite reads off a line: the stripped text before the first
      `=` of the stripped line, itself stripped; none for skipped lines and
      lines without `=`. */
  function KeyOf(line: string): (k: Option<string>)
    ensures Skipped(line) ==> k.None?
    ensures k.Some? ==> '=' in Trim(line) && '=' !in k.value && Unpadded(k.value, Whitespace)
  {
    var t := Trim(line);
    if t == [] || t[0] == '#' || '=' !in t then None
    else
      StripKeepsOut(BeforeFirst(t, '='), Whitespace, '=');
      Some(Trim(BeforeFirst(t, '=')))
  }

  /** How a line that is neither blank nor a comment and holds `=` is read. */
  lemma KeyOfLine(t: string, q: string)
    requires Unpadded(t, Whitespace) && AllIn(q, Whitespace)
    requires t != [] && t[0] != '#' && '=' in t
    ensures KeyOf(t + q) == Some(Trim(BeforeFirst(t, '=')))
  {
    TrimTrailing(t, q);
  }

  /** The line written for a variable: `KEY="VALUE"` and a newline. */
  function EnvLine(key: string, value: string): string {
    key + "=\"" + value + "\"\n"
  }

  /** Some line of `lines` is read as `key`'s. */
  predicate Matched(lines: seq<string>, key: string) {
    exists i :: 0 <= i < |lines| && KeyOf(lines[i]) == Some(key)
  }

  /** One step of the loop of `_update_env_file`: a line read as `key`'s is
      replaced by the new line, any other line is kept as it is. */
  function RewriteLine(line: string, key: string, value: string): string {
    if KeyOf(line) == Some(key) then EnvLine(key, value) else line
  }

  /** The loop of `_update_env_file` over every line, in place. */
  function RewriteAll(lines: seq<string>, key: string, value: string): (r: seq<string>)
    ensures |r| == |lines|
    ensures forall i :: 0 <= i < |lines| ==> r[i] == RewriteLine(lines[i], key, value)
  {
    seq(|lines|, i requires 0 <= i < |lines| => RewriteLine(lines[i], key, value))
  }

  /** `_update_env_file` on the file's lines: every line rewritten in place,
      and the new line appended when no line was the variable's. */
  function UpdateEnvLines(lines: seq<string>, key: string, value: string): (r: seq<string>)
    ensures |r| == |lines| + 1 <==> !Matched(lines, key)
    ensures |r| == |lines| <==> Matched(lines, key)
    ensures forall i :: 0 <= i < |lines| && KeyOf(lines[i]) != Some(key) ==> r[i] == lines[i]
    ensures forall i :: 0 <= i < |lines| && KeyOf(lines[i]) == Some(key) ==> r[i] == EnvLine(key, value)
    ensures !Matched(lines, key) ==> r[|lines|] == EnvLine(key, value)
  {
    var rewritten := RewriteAll(lines, key, value);
    var tail := if Matched(lines, key) then [] else [EnvLine(key, value)];
    assert forall i :: 0 <= i < |lines| ==> (rewritten + tail)[i] == RewriteLine(lines[i], key, value);
    rewritten + tail
  }

  /** Blank and comment lines come through the update verbatim. */
  lemma UpdateKeepsSkipped(lines: seq<string>, key: string, value: string, i: nat)
    requires i < |lines| && Skipped(lines[i])
    ensures UpdateEnvLines(lines, key, value)[i] == lines[i]
  {
    assert KeyOf(lines[i]).None?;
  }

  /** `s.split('=', 1)[0]` of a key followed by text starting with `=` is the key. */
  lemma {:induction false} BeforeFirstOfKey(key: string, rest: string)
    requires '=' !in key && |rest| > 0 && rest[0] == '='
    ensures BeforeFirst(key + rest, '=') == key
    decreases |key|
  {
    if key == [] {
      assert key + rest == rest;
    } else {
      assert (key + rest)[1..] == key[1..] + rest;
      BeforeFirstOfKey(key[1..], rest);
    }
  }

  /** A key followed by whitespace holds no `=`. */
  lemma KeyThenGapNoEquals(key: string, gap: string)
    requires IsIdentifier(key) && AllIn(gap, Whitespace)
    ensures '=' !in key + gap
  {
    IdentifierChars(key);
    assert '=' !in Whitespace;
    AllInExcludes(gap, Whitespace, '=');
  }

  /** A key followed by whitespace, stripped, is the key. */
  lemma KeyThenGap(key: string, gap: string)
    requires IsIdentifier(key) && AllIn(gap, Whitespace)
    ensures Trim(key + gap) == key
  {
    IdentifierTrimmed(key);
    TrimTrailing(key, gap);
  }

  /** A line `KEY`, optional whitespace, then text starting with `=`, is read as `KEY`'s. */
  lemma KeyOfAssignment(key: string, gap: string, rest: string, q: string)
    requires IsIdentifier(key) && AllIn(gap, Whitespace) && AllIn(q, Whitespace)
    requires |rest| > 0 && rest[0] == '=' && rest[|rest| - 1] !in Whitespace
    ensures KeyOf(key + gap + rest + q) == Some(key)
  {
    var lead := key + gap;
    var core := lead + rest;
    assert key + gap + rest + q == core + q;
    AssignmentShape(key, gap, rest);
    KeyOfLine(core, q);
    KeyThenGapNoEquals(key, gap);
    BeforeFirstOfKey(lead, rest);
    KeyThenGap(key, gap);
  }

  /** A key, a gap and a right-hand side form a stripped line that holds `=`
      and is no comment. */
  lemma AssignmentShape(key: string, gap: string, rest: string)
    requires IsIdentifier(key) && |rest| > 0 && rest[0] == '=' && rest[|rest| - 1] !in Whitespace
    ensures var core := key + gap + rest;
      Unpadded(core, Whitespace) && core != [] && core[0] != '#' && '=' in core
  {
    var core := key + gap + rest;
    assert core[0] == key[0];
    assert key[0] !in Whitespace;
    assert core[|core| - 1] == rest[|rest| - 1];
    assert core[|key + gap|] == '=';
  }

  /** The line written for a valid key is read back as that key's line. */
  lemma EnvLineKey(key: string, value: string)
    requires IsIdentifier(key)
    ensures KeyOf(EnvLine(key, value)) == Some(key)
    ensures !Skipped(EnvLine(key, value))
  {
    var rest := "=\"" + value + "\"";
    assert EnvLine(key, value) == key + [] + rest + "\n";
    KeyOfAssignment(key, [], rest, "\n");
  }

  /** Setting the same variable twice leaves the file as setting it once. */
  lemma UpdateIdempotent(lines: seq<string>, key: string, value: string)
    requires IsIdentifier(key)
    ensures var once := UpdateEnvLines(lines, key, value);
      UpdateEnvLines(once, key, value) == once
  {
    var once := UpdateEnvLines(lines, key, value);
    UpdateMatches(lines, key, value);
    var twice := UpdateEnvLines(once, key, value);
    forall i | 0 <= i < |once| ensures twice[i] == once[i] {
      UpdatedLineSettled(lines, key, value, i);
    }
  }

  /** After the update some line is the variable's. */
  lemma UpdateMatches(lines: seq<string>, key: string, value: string)
    requires IsIdentifier(key)
    ensures Matched(UpdateEnvLines(lines, key, value), key)
  {
    var once := UpdateEnvLines(lines, key, value);
    EnvLineKey(key, value);
    if Matched(lines, key) {
      var i :| 0 <= i < |lines| && KeyOf(lines[i]) == Some(key);
      assert once[i] == EnvLine(key, value);
    } else {
      assert once[|lines|] == EnvLine(key, value);
    }
  }

  /** Each line after the update is left alone by a second rewrite. */
  lemma UpdatedLineSettled(lines: seq<string>, key: string, value: string, i: nat)
    requires IsIdentifier(key) && i < |UpdateEnvLines(lines, key, value)|
    ensures RewriteLine(UpdateEnvLines(lines, key, value)[i], key, value) == UpdateEnvLines(lines, key, value)[i]
  {
    var l := UpdateEnvLines(lines, key, value)[i];
    if i < |lines| && KeyOf(lines[i]) != Some(key) {
      assert l == lines[i];
    } else {
      assert l == EnvLine(key, value);
      EnvLineKey(key, value);
    }
  }

  // ---- the file as text: `readlines` and `writelines` ----

  /** A line with more text after it, as `readlines` cuts it: one newline, at its end. */
  predicate WholeLine(l: string) {
    l != [] && l[|l| - 1] == '\n' && '\n' !in l[..|l| - 1]
  }

  predicate WholeLines(lines: seq<string>) {
    forall i :: 0 <= i < |lines| ==> WholeLine(lines[i])
  }

  /** `writelines`: the lines one after another, nothing added between them. */
  function Join(lines: seq<string>): string
    decreases |lines|
  {
    if lines == [] then [] else lines[0] + Join(lines[1..])
  }

  /** The length of the first line of a text: through its first newline, or
      the whole text when it holds none. */
  function LineEnd(text: string): (k: nat)
    requires text != []
    ensures 0 < k <= |text|
    ensures '\n' !in text[..k - 1]
    ensures text[k - 1] == '\n' || k == |text|
    decreases |text|
  {
    if text[0] == '\n' || |text| == 1 then 1
    else
      var k := 1 + LineEnd(text[1..]);
      assert text[..k - 1] == [text[0]] + text[1..][..k - 2];
      k
  }

  /** `readlines()` on a text without carriage returns: the text cut after
      every newline, a last piece without one being a line too. Writing the
      lines back gives the text again, and every line is whole exactly when
      the text is empty or ends in a newline. */
  function ReadLines(text: string): (lines: seq<string>)
    ensures Join(lines) == text
    ensures forall i :: 0 <= i < |lines| ==> lines[i] != []
    ensures WholeLines(lines) <==> text == [] || text[|text| - 1] == '\n'
    decreases |text|
  {
    if text == [] then []
    else
      var k := LineEnd(text);
      var rest := ReadLines(text[k..]);
      ReadLinesStep(text, k, rest);
      [text[..k]] + rest
  }

  /** One step of `ReadLines`: the first line, then the lines of what follows it. */
  lemma ReadLinesStep(text: string, k: nat, rest: seq<string>)
    requires text != [] && k == LineEnd(text)
    requires Join(rest) == text[k..]
    requires forall i :: 0 <= i < |rest| ==> rest[i] != []
    requires var after := text[k..]; WholeLines(rest) <==> after == [] || after[|after| - 1] == '\n'
    ensures Join([text[..k]] + rest) == text
    ensures forall i :: 0 <= i < |rest| + 1 ==> ([text[..k]] + rest)[i] != []
    ensures WholeLines([text[..k]] + rest) <==> text[|text| - 1] == '\n'
  {
    var lines := [text[..k]] + rest;
    JoinCons(text[..k], rest);
    assert text[..k] + text[k..] == text;
    assert forall i :: 1 <= i < |lines| ==> lines[i] == rest[i - 1];
    FirstLineWhole(text, k);
    WholeLinesCons(text[..k], rest);
    if k < |text| {
      assert text[k..][|text[k..]| - 1] == text[|text| - 1];
    }
  }

  lemma JoinCons(l: string, rest: seq<string>)
    ensures Join([l] + rest) == l + Join(rest)
  {
    assert ([l] + rest)[0] == l && ([l] + rest)[1..] == rest;
  }

  /** The first line of a text is whole exactly when it ends in a newline. */
  lemma FirstLineWhole(text: string, k: nat)
    requires text != [] && k == LineEnd(text)
    ensures WholeLine(text[..k]) <==> text[k - 1] == '\n'
  {
    assert text[..k][..k - 1] == text[..k - 1];
  }

  lemma WholeLinesCons(l: string, rest: seq<string>)
    ensures WholeLines([l] + rest) <==> WholeLine(l) && WholeLines(rest)
  {
    var lines := [l] + rest;
    assert forall i :: 1 <= i < |lines| ==> lines[i] == rest[i - 1];
    if WholeLine(l) && WholeLines(rest) {
      forall i | 0 <= i < |lines| ensures WholeLine(lines[i]) {
        if i > 0 { assert WholeLine(rest[i - 1]); }
      }
    }
    if WholeLines(lines) {
      assert WholeLine(lines[0]);
      forall i | 0 <= i < |rest| ensures WholeLine(rest[i]) {
        assert lines[i + 1] == rest[i];
      }
    }
  }

  /** Reading back what was written gives the same lines, when every line is whole. */
  lemma {:induction false} ReadJoin(lines: seq<string>)
    requires WholeLines(lines)
    ensures ReadLines(Join(lines)) == lines
    decreases |lines|
  {
    if lines != [] {
      var l := lines[0];
      var rest := Join(lines[1..]);
      var text := l + rest;
      assert Join(lines) == text;
      FirstLineEnd(l, rest);
      assert text[..|l|] == l && text[|l|..] == rest;
      ReadJoin(lines[1..]);
      assert lines == [l] + lines[1..];
    }
  }

  /** A text that starts with a whole line has that line first. */
  lemma FirstLineEnd(l: string, rest: string)
    requires WholeLine(l)
    ensures LineEnd(l + rest) == |l|
  {
    var text := l + rest;
    var k := LineEnd(text);
    assert text[|l| - 1] == '\n';
    assert forall j :: 0 <= j < |l| - 1 ==> text[j] == l[..|l| - 1][j];
    assert forall j :: 0 <= j < k - 1 ==> text[j] == text[..k - 1][j];
  }

  /** The written line of a variable whose key and value hold no newline is whole. */
  lemma EnvLineWhole(key: string, value: string)
    requires '\n' !in key && '\n' !in value
    ensures WholeLine(EnvLine(key, value))
  {
    var l := EnvLine(key, value);
    assert l[..|l| - 1] == key + "=\"" + value + "\"";
  }

  /** The rewrite keeps every line whole, given a key and value without newlines. */
  lemma UpdateKeepsWholeLines(lines: seq<string>, key: string, value: string)
    requires WholeLines(lines) && '\n' !in key && '\n' !in value
    ensures WholeLines(UpdateEnvLines(lines, key, value))
  {
    EnvLineWhole(key, value);
    var r := UpdateEnvLines(lines, key, value);
    forall i | 0 <= i < |r| ensures WholeLine(r[i]) {
      if i < |lines| && KeyOf(lines[i]) != Some(key) {
        assert r[i] == lines[i];
      }
    }
  }

  /** `_update_env_file` on the text of the file: read its lines, rewrite them, write them back. */
  function UpdateFile(text: string, key: string, value: string): (r: string)
    ensures ReadLines(text) == [] ==> r == EnvLine(key, value)
    ensures IsIdentifier(key) && '\n' !in value && (text == [] || text[|text| - 1] == '\n') ==>
      ReadLines(r) == UpdateEnvLines(ReadLines(text), key, value)
  {
    UpdateReadsBack(ReadLines(text), key, value);
    var lines := UpdateEnvLines(ReadLines(text), key, value);
    assert ReadLines(text) == [] ==> Join(lines) == EnvLine(key, value) + Join([]);
    Join(lines)
  }

  /** The rewritten lines of whole lines, written and read back, are the same lines. */
  lemma UpdateReadsBack(lines: seq<string>, key: string, value: string)
    ensures IsIdentifier(key) && '\n' !in value && WholeLines(lines) ==>
      ReadLines(Join(UpdateEnvLines(lines, key, value))) == UpdateEnvLines(lines, key, value)
  {
    if IsIdentifier(key) && '\n' !in value && WholeLines(lines) {
      IdentifierChars(key);
      UpdateKeepsWholeLines(lines, key, value);
      ReadJoin(UpdateEnvLines(lines, key, value));
    }
  }

  /** On a file that ends in a newline, setting the same variable twice
      writes the same text as setting it once. */
  lemma UpdateFileIdempotent(text: string, key: string, value: string)
    requires IsIdentifier(key) && '\n' !in value
    requires text == [] || text[|text| - 1] == '\n'
    ensures var once := UpdateFile(text, key, value);
      UpdateFile(once, key, value) == once
  {
    var lines := ReadLines(text);
    var once := UpdateEnvLines(lines, key, value);
    IdentifierChars(key);
    UpdateKeepsWholeLines(lines, key, value);
    ReadJoin(once);
    UpdateIdempotent(lines, key, value);
  }

  /** A file whose last line lacks its newline gets the new line glued onto
      it: `A=1` becomes `A=1K="v"` and a newline, which reads back as one line
      of `A`, so setting `K` again appends a second line. */
  lemma UnterminatedLastLineFuses()
    ensures UpdateFile("A=1", "K", "v") == "A=1K=\"v\"\n"
    ensures ReadLines("A=1K=\"v\"\n") == ["A=1K=\"v\"\n"]
    ensures UpdateFile("A=1K=\"v\"\n", "K", "v") != "A=1K=\"v\"\n"
  {
    var first := "A=1";
    var l := EnvLine("K", "v");
    var fused := "A=1K=\"v\"\n";
    assert first + l == fused;
    FusedFirstWrite(first, l);
    FusedSecondWrite(fused);
  }

  /** The first write: `A=1` is one line of `A`, so `K`'s line is appended to it. */
  lemma FusedFirstWrite(first: string, l: string)
    requires first == "A=1" && l == EnvLine("K", "v")
    ensures UpdateFile(first, "K", "v") == first + l
  {
    assert first[..|first| - 1] == "A=";
    SingleLine(first);
    KeyOfFirst(first);
    assert !Matched([first], "K");
    UpdateFileAppends(first, "K", "v");
  }

  lemma KeyOfFirst(first: string)
    requires first == "A=1"
    ensures KeyOf(first) == Some("A")
  {
    assert first == "A" + [] + "=1" + [];
    KeyOfAssignment("A", [], "=1", []);
  }

  /** A variable no line is read as is appended to the text as it stands,
      whether or not the text ends in a newline. */
  lemma UpdateFileAppends(text: string, key: string, value: string)
    requires !Matched(ReadLines(text), key)
    ensures UpdateFile(text, key, value) == text + EnvLine(key, value)
  {
    var lines := ReadLines(text);
    var l := EnvLine(key, value);
    AppendWhenUnmatched(lines, key, value);
    JoinAppend(lines, [l]);
    assert [l][1..] == [];
    assert Join([l]) == l + Join([]);
  }

  /** With no line read as the variable's, the rewrite keeps every line and appends the new one. */
  lemma AppendWhenUnmatched(lines: seq<string>, key: string, value: string)
    requires !Matched(lines, key)
    ensures UpdateEnvLines(lines, key, value) == lines + [EnvLine(key, value)]
  {
    var r := UpdateEnvLines(lines, key, value);
    forall i | 0 <= i < |lines| ensures r[i] == lines[i] {
      assert KeyOf(lines[i]) != Some(key);
    }
  }

  /** Writing two lists of lines one after the other writes their concatenation. */
  lemma {:induction false} JoinAppend(a: seq<string>, b: seq<string>)
    ensures Join(a + b) == Join(a) + Join(b)
    decreases |a|
  {
    if a == [] {
      assert a + b == b;
    } else {
      assert (a + b)[0] == a[0] && (a + b)[1..] == a[1..] + b;
      JoinAppend(a[1..], b);
    }
  }

  /** The second write: the fused text is one line of `A`, so `K` is still missing. */
  lemma FusedSecondWrite(fused: string)
    requires fused == "A=1K=\"v\"\n"
    ensures ReadLines(fused) == [fused]
    ensures UpdateFile(fused, "K", "v") != fused
  {
    assert fused[..|fused| - 1] == "A=1K=\"v\"";
    SingleLine(fused);
    assert fused == "A" + [] + "=1K=\"v\"" + "\n";
    KeyOfAssignment("A", [], "=1K=\"v\"", "\n");
    assert !Matched([fused], "K");
    assert |UpdateEnvLines([fused], "K", "v")| == 2;
    UpdateReadsBack([fused], "K", "v");
  }

  /** A text with no newline before its last character is read as a single line. */
  lemma SingleLine(text: string)
    requires text != [] && '\n' !in text[..|text| - 1]
    ensures ReadLines(text) == [text]
  {
    var k := LineEnd(text);
    assert forall j :: 0 <= j < |text| - 1 ==> text[j] == text[..|text| - 1][j];
    assert k == |text|;
    assert text[..k] == text && text[k..] == [];
  }

  // ---- the delete view's filter ----

  /** `[line for line in lines if not line.startswith(f'{key}=')]`. */
  function RemoveKey(lines: seq<string>, key: string): (r: seq<string>)
    ensures |r| <= |lines|
    ensures forall l :: l in r <==> l in lines && !StartsWith(l, key + "=")
  {
    if lines == [] then []
    else
      (if StartsWith(lines[0], key + "=") then [] else [lines[0]]) + RemoveKey(lines[1..], key)
  }

  /** The filter keeps the surviving lines in their order: it distributes over concatenation. */
  lemma {:induction false} RemoveKeyAppend(a: seq<string>, b: seq<string>, key: string)
    ensures RemoveKey(a + b, key) == RemoveKey(a, key) + RemoveKey(b, key)
    decreases a
  {
    if a == [] {
      assert a + b == b;
    } else {
      assert (a + b)[0] == a[0] && (a + b)[1..] == a[1..] + b;
      RemoveKeyAppend(a[1..], b, key);
    }
  }

  /** On a single line the filter keeps it or drops it. */
  lemma RemoveKeySingle(line: string, key: string)
    ensures RemoveKey([line], key) == if StartsWith(line, key + "=") then [] else [line]
  {
    assert [line][1..] == [];
  }

  /** Filtering twice is filtering once. */
  lemma {:induction false} RemoveKeyIdempotent(lines: seq<string>, key: string)
    ensures RemoveKey(RemoveKey(lines, key), key) == RemoveKey(lines, key)
    decreases lines
  {
    if lines != [] {
      var head := if StartsWith(lines[0], key + "=") then [] else [lines[0]];
      RemoveKeyAppend(head, RemoveKey(lines[1..], key), key);
      RemoveKeyIdempotent(lines[1..], key);
    }
  }

  /** The line written for a key starts with `KEY=`. */
  lemma WrittenLineStartsWithKey(key: string, value: string)
    ensures StartsWith(EnvLine(key, value), key + "=")
  {
    assert EnvLine(key, value) == (key + "=") + ("\"" + value + "\"\n");
  }

  /** The line written for a key starts with `KEY=`, so the filter removes it. */
  lemma RemovesWrittenLine(key: string, value: string, lines: seq<string>)
    ensures EnvLine(key, value) !in RemoveKey(lines, key)
  {
    WrittenLineStartsWithKey(key, value);
  }

  /** Deleting a variable right after setting it leaves no line written for it. */
  lemma DeleteAfterUpdate(lines: seq<string>, key: string, value: string)
    ensures EnvLine(key, value) !in RemoveKey(UpdateEnvLines(lines, key, value), key)
  {
    RemovesWrittenLine(key, value, UpdateEnvLines(lines, key, value));
  }

  /** A line written for another valid key survives, even when one key is a
      prefix of the other (`KEY` and `KEY_X`). */
  lemma KeepsOtherKeysLine(key: string, other: string, value: string)
    requires IsIdentifier(key) && IsIdentifier(other) && key != other
    ensures !StartsWith(EnvLine(other, value), key + "=")
  {
    IdentifierChars(key);
    IdentifierChars(other);
    var l := EnvLine(other, value);
    var p := key + "=";
    assert l[|other|] == '=';
    if |key| < |other| {
      assert l[|key|] == other[|key|] != p[|key|];
    } else if |key| > |other| {
      assert p[|other|] == key[|other|] != l[|other|];
    } else {
      assert l[..|key|] == other && p[..|key|] == key;
    }
  }

  /** The prefix test is literal: a key line indented, with a space before
      `=`, or behind `export ` is kept. */
  lemma KeepsLooseLines(key: string, rest: string)
    requires IsIdentifier(key)
    ensures !StartsWith(" " + key + "=" + rest, key + "=")
    ensures !StartsWith(key + " =" + rest, key + "=")
    ensures !StartsWith("export " + key + "=" + rest, key + "=")
  {
    IdentifierChars(key);
    var p := key + "=";
    assert (" " + key + "=" + rest)[0] == ' ' != p[0];
    assert (key + " =" + rest)[|key|] == ' ' != p[|key|];
    var e := "export " + key + "=" + rest;
    if |key| < 7 {
      assert e[|key|] == "export "[|key|];
    } else {
      assert e[6] == ' ' != key[6] == p[6];
    }
  }

  /** The rewrite and the filter disagree on a line such as `KEY = v`: the
      rewrite reads it as the variable's line, the filter keeps it. */
  lemma SpacedLineOnlyRewritten(key: string)
    requires IsIdentifier(key)
    ensures KeyOf(key + " = v\n") == Some(key)
    ensures !StartsWith(key + " = v\n", key + "=")
  {
    assert key + " = v\n" == key + " " + "= v" + "\n";
    KeyOfAssignment(key, " ", "= v", "\n");
    assert (key + " = v\n")[|key|] == ' ' != (key + "=")[|key|];
  }

  // ---- the profile script ----

  /** Where `_create_profile_script` writes: `custom_{key}.sh` in the profile directory. */
  function ProfilePath(dir: string, key: string): string {
    PathJoin(dir, "custom_" + key + ".sh")
  }

  /** The script's single line: the environment-file line behind `export `. */
  function ProfileScript(key: string, value: string): (r: seq<string>)
    ensures |r| == 1 && StartsWith(r[0], "export ")
    ensures IsIdentifier(key) ==> KeyOf(r[0][|"export "|..]) == Some(key)
    ensures '\n' !in key && '\n' !in value ==> WholeLines(r)
  {
    ExportLine(key, value);
    ["export " + EnvLine(key, value)]
  }

  /** Behind `export ` stands the environment-file line: read as the key's
      line for a valid key, and whole when key and value hold no newline. */
  lemma ExportLine(key: string, value: string)
    ensures var e := "export " + EnvLine(key, value);
      && e[|"export "|..] == EnvLine(key, value)
      && (IsIdentifier(key) ==> KeyOf(e[|"export "|..]) == Some(key))
      && ('\n' !in key && '\n' !in value ==> WholeLine(e))
  {
    var l := EnvLine(key, value);
    var e := "export " + l;
    assert e[|"export "|..] == l;
    if IsIdentifier(key) {
      EnvLineKey(key, value);
    }
    if '\n' !in key && '\n' !in value {
      EnvLineWhole(key, value);
      assert e[..|e| - 1] == "export " + l[..|l| - 1];
    }
  }

  /** The script lands inside the profile directory and is named after the key. */
  lemma ProfilePathInDir(dir: string, key: string)
    ensures StartsWith(ProfilePath(dir, key), dir)
    ensures EndsWith(ProfilePath(dir, key), "custom_" + key + ".sh")
  {
    assert !Absolute("custom_" + key + ".sh");
  }

  /** Distinct keys get distinct scripts. */
  lemma ProfilePathInjective(dir: string, k1: string, k2: string)
    requires ProfilePath(dir, k1) == ProfilePath(dir, k2)
    ensures k1 == k2
  {
    var n1, n2 := "custom_" + k1 + ".sh", "custom_" + k2 + ".sh";
    assert !Absolute(n1) && !Absolute(n2);
    var p := ProfilePath(dir, k1);
    assert p[|dir|..] == n1 || p[|dir|..] == "/" + n1;
    assert p[|dir|..] == n2 || p[|dir|..] == "/" + n2;
    assert |n1| == |n2| by {
      if dir == [] || dir[|dir| - 1] == '/' {
        assert p == dir + n1 && p == dir + n2;
      } else {
        assert p == dir + "/" + n1 && p == dir + "/" + n2;
      }
    }
    assert k1 == n1[7..|n1| - 3] && k2 == n2[7..|n2| - 3];
  }
}

=== FILE: env_forms.dfy ===
/** `EnvironmentVariableForm` (environment/forms.py): the validation of a
    variable's key and the choice of the scope it is applied in. */
module EnvForms {
  import opened Wrappers
  import opened Text
  import opened EnvFile

  datatype FormError =
    | InvalidKey      // `clean_key`: not a valid identifier
    | InvalidChoice   // `scope`: not one of the offered choices

  /** `clean_key`: a key that is an identifier comes back unchanged; anything
      else is refused. */
  function CleanKey(key: string): (r: Result<string, FormError>)
    ensures r.Ok? <==> IsIdentifier(key)
    ensures r.Ok? ==> r.value == key
    ensures r.Err? ==> r.error == InvalidKey
  {
    if IsIdentifier(key) then Ok(key) else Err(InvalidKey)
  }

  /** The empty key, a key starting with a digit, and a key holding `=`, a
      space or `-` are all refused. */
  lemma CleanKeyRejects(key: string)
    requires key == [] || IsDigit(key[0]) || '=' in key || ' ' in key || '-' in key
    ensures CleanKey(key) == Err(InvalidKey)
  {
    if key != [] && !IsDigit(key[0]) {
      var i :| 0 <= i < |key| && key[i] in {'=', ' ', '-'};
      assert !(IsLetter(key[i]) || IsDigit(key[i]) || key[i] == '_');
    }
  }

  /** Every accepted key survives the environment-file formats: the line
      written for it is read back as its line, the delete filter removes it,
      and the line of any other accepted key, even one it is a prefix of, is
      kept by that filter. */
  lemma AcceptedKeyRoundTrips(key: string, value: string, other: string, otherValue: string)
    requires CleanKey(key).Ok? && CleanKey(other).Ok? && key != other
    ensures KeyOf(EnvLine(key, value)) == Some(key)
    ensures RemoveKey([EnvLine(key, value)], key) == []
    ensures RemoveKey([EnvLine(other, otherValue)], key) == [EnvLine(other, otherValue)]
  {
    EnvLineKey(key, value);
    WrittenLineStartsWithKey(key, value);
    RemoveKeySingle(EnvLine(key, value), key);
    KeepsOtherKeysLine(key, other, otherValue);
    RemoveKeySingle(EnvLine(other, otherValue), key);
  }

  // ---- the scope field ----

  datatype Scope = Global | Session

  /** The value a scope choice is submitted as. */
  function ScopeValue(s: Scope): string {
    match s
    case Global => "global"
    case Session => "session"
  }

  /** The two choices the form offers, in display order. */
  const ScopeChoices: seq<string> := ["global", "session"]

  /** The choice the form starts with. */
  const InitialScope := "global"

  /** A `ChoiceField` accepts exactly the values of its choices. */
  function CleanScope(value: string): (r: Result<Scope, FormError>)
    ensures r.Ok? <==> value in ScopeChoices
    ensures r.Ok? ==> ScopeValue(r.value) == value
  {
    if value == "global" then Ok(Global)
    else if value == "session" then Ok(Session)
    else Err(InvalidChoice)
  }

  /** Every scope is offered, is read back as itself, and the initial one is global. */
  lemma ScopeRoundTrip(s: Scope)
    ensures ScopeValue(s) in ScopeChoices
    ensures CleanScope(ScopeValue(s)) == Ok(s)
    ensures CleanScope(InitialScope) == Ok(Global)
  {
  }
}

=== FILE: env_list.dfy ===
/** The pieces of the variable list page (environment/views.py): the
    case-insensitive key search, the ordering by key, and Django's paginator
    with ten rows a page. */
module EnvList {
  import opened Wrappers
  import opened Text
  import opened EnvModels

  // ---- search: `filter(key__icontains=query)` ----

  /** The key holds the query, ignoring the case of ASCII letters. */
  predicate KeyMatches(key: string, query: string) {
    Contains(Lower(key), Lower(query))
  }

  /** The rows whose key matches, in their original order. */
  function Search(t: Table, query: string): (r: Table)
    ensures |r| <= |t|
    ensures forall v :: v in r <==> v in t && KeyMatches(v.key, query)
    ensures forall v :: multiset(r)[v] == if KeyMatches(v.key, query) then multiset(t)[v] else 0
    decreases |t|
  {
    if t == [] then []
    else
      assert t == [t[0]] + t[1..];
      assert multiset(t) == multiset{t[0]} + multiset(t[1..]);
      (if KeyMatches(t[0].key, query) then [t[0]] else []) + Search(t[1..], query)
  }

  /** The empty query keeps every row, so the view's skipping of the filter
      for an empty query makes no difference. */
  lemma {:induction false} EmptyQueryKeepsAll(t: Table)
    ensures Search(t, "") == t
    decreases |t|
  {
    if t != [] {
      EmptyQueryMatches(t[0].key);
      EmptyQueryKeepsAll(t[1..]);
      assert Search(t, "") == [t[0]] + Search(t[1..], "");
    }
  }

  lemma EmptyQueryMatches(key: string)
    ensures KeyMatches(key, "")
  {
    assert Lower("") == "";
    assert "" <= Lower(key)[0..];
  }

  lemma LowerIdempotent(s: string)
    ensures Lower(Lower(s)) == Lower(s)
  {
  }

  /** The case of the query does not matter. */
  lemma {:induction false} SearchIgnoresCase(t: Table, query: string)
    ensures Search(t, Lower(query)) == Search(t, query)
    decreases |t|
  {
    LowerIdempotent(query);
    if t != [] {
      SearchIgnoresCase(t[1..], query);
    }
  }

  // ---- ordering: `order_by('key')` ----

  /** Code-point order on keys. */
  predicate KeyLe(a: string, b: string)
    decreases |a|
  {
    a == [] || (b != [] && (a[0] < b[0] || (a[0] == b[0] && KeyLe(a[1..], b[1..]))))
  }

  lemma {:induction false} KeyLeTotal(a: string, b: string)
    ensures KeyLe(a, b) || KeyLe(b, a)
    decreases |a|
  {
    if a != [] && b != [] && a[0] == b[0] {
      KeyLeTotal(a[1..], b[1..]);
    }
  }

  predicate SortedByKey(t: Table) {
    forall i :: 0 < i < |t| ==> KeyLe(t[i - 1].key, t[i].key)
  }

  lemma SortedTail(t: Table)
    requires t != [] && SortedByKey(t)
    ensures SortedByKey(t[1..])
  {
    forall i | 0 < i < |t[1..]| ensures KeyLe(t[1..][i - 1].key, t[1..][i].key) {
      assert t[1..][i - 1] == t[i] && t[1..][i] == t[i + 1];
    }
  }

  /** One row put into its place in an ordered list. */
  function Insert(v: EnvVar, t: Table): (r: Table)
    requires SortedByKey(t)
    ensures SortedByKey(r)
    ensures multiset(r) == multiset(t) + multiset{v}
    ensures r[0] == v || (t != [] && r[0] == t[0])
    decreases |t|
  {
    if t == [] then [v]
    else if KeyLe(v.key, t[0].key) then [v] + t
    else
      KeyLeTotal(v.key, t[0].key);
      SortedTail(t);
      var rest := Insert(v, t[1..]);
      assert t == [t[0]] + t[1..];
      var r := [t[0]] + rest;
      assert forall i :: 1 <= i < |r| ==> r[i] == rest[i - 1];
      r
  }

  /** The rows ordered by key: an ordered rearrangement of the same rows. */
  function SortByKey(t: Table): (r: Table)
    ensures SortedByKey(r)
    ensures multiset(r) == multiset(t)
    ensures |r| == |t|
    decreases |t|
  {
    if t == [] then []
    else
      assert t == [t[0]] + t[1..];
      Insert(t[0], SortByKey(t[1..]))
  }

  /** Ordering an ordered list changes nothing. */
  lemma {:induction false} SortSortedIsIdentity(t: Table)
    requires SortedByKey(t)
    ensures SortByKey(t) == t
    decreases |t|
  {
    if t != [] {
      var rest := t[1..];
      SortedTail(t);
      SortSortedIsIdentity(rest);
      assert t == [t[0]] + rest;
      assert SortByKey(t) == Insert(t[0], rest);
      if rest != [] {
        assert KeyLe(t[0].key, rest[0].key) by { assert rest[0] == t[1]; }
      }
    }
  }

  /** Ordering is idempotent. */
  lemma SortIdempotent(t: Table)
    ensures SortByKey(SortByKey(t)) == SortByKey(t)
  {
    SortSortedIsIdentity(SortByKey(t));
  }

  /** The rows the list view pages through: those matching the query (every
      row for the empty one, which the view does not filter), ordered by key. */
  function Matching(t: Table, query: string): (r: Table)
    ensures SortedByKey(r)
    ensures forall v :: v in r <==> v in t && KeyMatches(v.key, query)
    ensures multiset(r) == multiset(Search(t, query))
    ensures query == "" ==> multiset(r) == multiset(t)
  {
    EmptyQueryKeepsAll(t);
    var r := SortByKey(if query != [] then Search(t, query) else t);
    assert forall v :: v in r <==> v in multiset(r);
    r
  }

  // ---- paging: `Paginator(rows, 10)` ----

  const PerPage: nat := 10

  /** The number of pages: enough for every row, with one (empty) page for no rows. */
  function NumPages(count: nat): (n: nat)
    ensures n >= 1
    ensures count > 0 ==> (n - 1) * PerPage < count <= n * PerPage
    ensures count == 0 ==> n == 1
  {
    if count == 0 then 1 else (count - 1) / PerPage + 1
  }

  /** The page shown for the `page` parameter: one that is not an integer (or
      is absent) shows page 1; an integer outside the pages shows the last page. */
  function PageNumber(page: Option<string>, count: nat): (n: nat)
    ensures 1 <= n <= NumPages(count)
    ensures page.None? || ParseInt(page.value).None? ==> n == 1
    ensures page.Some? && ParseInt(page.value).Some? ==>
      var k := ParseInt(page.value).value;
      n == (if 1 <= k <= NumPages(count) then k else NumPages(count))
  {
    if page.None? then 1
    else match ParseInt(page.value)
      case None => 1
      case Some(k) => if k < 1 || k > NumPages(count) then NumPages(count) else k
  }

  /** The rows of page `n`: at most ten, none on a page of no rows, and
      consecutive rows starting at the page's first index. */
  function PageItems(t: Table, n: nat): (r: Table)
    requires 1 <= n <= NumPages(|t|)
    ensures |r| <= PerPage
    ensures t != [] ==> r != []
    ensures n < NumPages(|t|) ==> |r| == PerPage
    ensures forall j :: 0 <= j < |r| ==> (n - 1) * PerPage + j < |t| && r[j] == t[(n - 1) * PerPage + j]
  {
    var bottom := (n - 1) * PerPage;
    var top := if bottom + PerPage >= |t| then |t| else bottom + PerPage;
    t[bottom..top]
  }

  /** A page of an ordered list is ordered and holds only rows of the list. */
  lemma PageOfSorted(t: Table, n: nat)
    requires 1 <= n <= NumPages(|t|) && SortedByKey(t)
    ensures SortedByKey(PageItems(t, n))
    ensures forall v :: v in PageItems(t, n) ==> v in t
  {
    var page := PageItems(t, n);
    var b := (n - 1) * PerPage;
    forall i | 0 < i < |page| ensures KeyLe(page[i - 1].key, page[i].key) {
      assert page[i - 1] == t[b + i - 1] && page[i] == t[b + i];
    }
    forall v | v in page ensures v in t {
      var j :| 0 <= j < |page| && page[j] == v;
      assert t[b + j] == v;
    }
  }

  /** Every row is on exactly the page its index says, at the matching place. */
  lemma ItemOnItsPage(t: Table, i: nat)
    requires i < |t|
    ensures var n := i / PerPage + 1;
      n <= NumPages(|t|) && i % PerPage < |PageItems(t, n)| && PageItems(t, n)[i % PerPage] == t[i]
  {
    var n := i / PerPage + 1;
    assert (n - 1) * PerPage + i % PerPage == i;
  }

  /** Asking for a page by its own number shows that page. */
  lemma PageByNumber(count: nat, n: nat)
    requires 1 <= n <= NumPages(count)
    ensures PageNumber(Some(IntToString(n)), count) == n
  {
    ParseIntOfIntToString(n);
  }
}

=== FILE: env_models.dfy ===
/** `EnvironmentVariable` (environment/models.py): the table of variables
    and what `load_from_system` does to it, and how `apply_to_system` pushes
    one variable into the process environment and the system files. The
    system is an explicit value: files as lists of lines, the process
    environment as a map, and two oracles for what the operating system
    allows. */
module EnvModels {
  import opened Wrappers
  import opened Text
  import opened EnvFile
  import opened EnvForms

  /** One row; `key` is unique across the table. The timestamps play no part. */
  datatype EnvVar = EnvVar(key: string, value: string, description: string)

  /** The rows in primary-key order. */
  type Table = seq<EnvVar>

  predicate UniqueKeys(t: Table) {
    forall i, j :: 0 <= i < j < |t| ==> t[i].key != t[j].key
  }

  function Keys(t: Table): set<string> {
    set i | 0 <= i < |t| :: t[i].key
  }

  lemma KeysCons(e: EnvVar, s: Table)
    ensures Keys([e] + s) == {e.key} + Keys(s)
  {
    var t := [e] + s;
    assert forall i :: 1 <= i < |t| ==> t[i] == s[i - 1];
    forall k | k in Keys(s) ensures k in Keys(t) {
      var i :| 0 <= i < |s| && s[i].key == k;
      assert t[i + 1].key == k;
    }
    assert t[0].key == e.key;
  }

  lemma UniqueCons(e: EnvVar, s: Table)
    ensures UniqueKeys([e] + s) <==> e.key !in Keys(s) && UniqueKeys(s)
  {
    var t := [e] + s;
    assert forall i :: 1 <= i < |t| ==> t[i] == s[i - 1];
    if UniqueKeys(t) {
      forall i, j | 0 <= i < j < |s| ensures s[i].key != s[j].key {
        assert t[i + 1].key != t[j + 1].key;
      }
      forall i | 0 <= i < |s| ensures s[i].key != e.key {
        assert t[0].key != t[i + 1].key;
      }
    }
    if e.key !in Keys(s) && UniqueKeys(s) {
      forall i, j | 0 <= i < j < |t| ensures t[i].key != t[j].key {
        if i > 0 {
          assert t[i].key == s[i - 1].key && t[j].key == s[j - 1].key;
        } else {
          assert t[j].key == s[j - 1].key && s[j - 1].key in Keys(s);
        }
      }
    }
  }

  /** The row with key `key`, if any. */
  function Row(t: Table, key: string): (r: Option<EnvVar>)
    ensures r.Some? <==> key in Keys(t)
    ensures r.Some? ==> r.value in t && r.value.key == key
  {
    if t == [] then None
    else if t[0].key == key then Some(t[0])
    else
      var r := Row(t[1..], key);
      assert Keys(t) == {t[0].key} + Keys(t[1..]) by {
        assert forall i :: 1 <= i < |t| ==> t[i] == t[1..][i - 1];
      }
      r
  }

  /** The description given to a variable first read from the environment:
      the label "system environment variable" followed by the key. */
  function SystemDescription(key: string): string {
    "\U{7CFB}\U{7EDF}\U{73AF}\U{5883}\U{53D8}\U{91CF}: " + key
  }

  /** `get_or_create(key=key, defaults=...)` followed, for an existing row,
      by overwriting its value: the row keeps its place and description; a
      new row goes at the end. */
  function Upsert(t: Table, key: string, value: string): (r: Table)
    requires UniqueKeys(t)
    ensures UniqueKeys(r)
    ensures Keys(r) == Keys(t) + {key}
    ensures Row(t, key).Some? ==> Row(r, key) == Some(Row(t, key).value.(value := value))
    ensures Row(t, key).None? ==> Row(r, key) == Some(EnvVar(key, value, SystemDescription(key)))
    ensures forall k :: k != key ==> Row(r, k) == Row(t, k)
    decreases |t|
  {
    if t == [] then
      var r := [EnvVar(key, value, SystemDescription(key))];
      KeysCons(r[0], []);
      assert r == [r[0]] + [];
      r
    else
      var head, tail := t[0], t[1..];
      assert t == [head] + tail;
      KeysCons(head, tail);
      UniqueCons(head, tail);
      RowsCons(head, tail);
      if head.key == key then
        var r := [head.(value := value)] + tail;
        KeysCons(r[0], tail);
        UniqueCons(r[0], tail);
        RowsCons(r[0], tail);
        r
      else
        var rest := Upsert(tail, key, value);
        var r := [head] + rest;
        KeysCons(head, rest);
        UniqueCons(head, rest);
        RowsCons(head, rest);
        r
  }

  /** The row lookup on a table with a first row. */
  lemma RowsCons(e: EnvVar, s: Table)
    ensures forall k :: Row([e] + s, k) == if e.key == k then Some(e) else Row(s, k)
  {
    assert ([e] + s)[1..] == s;
  }

  /** The keys of a list of pairs are pairwise distinct, as in a dictionary. */
  predicate DistinctKeys(items: seq<(string, string)>) {
    forall i, j :: 0 <= i < j < |items| ==> items[i].0 != items[j].0
  }

  /** The value paired with `key` in `items`, if any. */
  function ItemValue(items: seq<(string, string)>, key: string): Option<string> {
    if items == [] then None
    else if items[0].0 == key then Some(items[0].1)
    else ItemValue(items[1..], key)
  }

  /** Whether `load_from_system` reads a variable: `_`-prefixed ones are skipped. */
  predicate Loaded(key: string) {
    !StartsWith(key, "_")
  }

  /** `load_from_system` over `os.environ.items()` in iteration order. */
  function LoadFromSystem(t: Table, items: seq<(string, string)>): (r: Table)
    requires UniqueKeys(t)
    ensures UniqueKeys(r)
    decreases |items|
  {
    if items == [] then t
    else
      var (k, v) := items[0];
      LoadFromSystem(if Loaded(k) then Upsert(t, k, v) else t, items[1..])
  }

  /** After loading, each variable of the environment that is not skipped has
      a row holding its value: an existing row keeps its description, a new one
      gets the system label. Every other row is untouched, including rows of
      keys the environment no longer has. */
  lemma {:induction false} LoadFromSystemRows(t: Table, items: seq<(string, string)>, key: string)
    requires UniqueKeys(t) && DistinctKeys(items)
    ensures var r := LoadFromSystem(t, items);
      if Loaded(key) && ItemValue(items, key).Some? then
        && Row(r, key).Some?
        && Row(r, key).value.value == ItemValue(items, key).value
        && (Row(t, key).Some? ==> Row(r, key).value == Row(t, key).value.(value := ItemValue(items, key).value))
        && (Row(t, key).None? ==> Row(r, key).value.description == SystemDescription(key))
      else
        Row(r, key) == Row(t, key)
    decreases |items|
  {
    if items != [] {
      var (k, v) := items[0];
      var t' := if Loaded(k) then Upsert(t, k, v) else t;
      assert DistinctKeys(items[1..]) by {
        forall i, j | 0 <= i < j < |items[1..]| ensures items[1..][i].0 != items[1..][j].0 {
          assert items[1..][i] == items[i + 1] && items[1..][j] == items[j + 1];
        }
      }
      LoadFromSystemRows(t', items[1..], key);
      if k == key {
        assert ItemValue(items[1..], key).None? by {
          ItemValueAbsent(items, key);
        }
      }
    }
  }

  /** In a dictionary's items the first key occurs nowhere after the first pair. */
  lemma ItemValueAbsent(items: seq<(string, string)>, key: string)
    requires DistinctKeys(items) && items != [] && items[0].0 == key
    ensures ItemValue(items[1..], key).None?
  {
    ItemValueNone(items[1..], key);
  }

  lemma {:induction false} ItemValueNone(items: seq<(string, string)>, key: string)
    requires forall i :: 0 <= i < |items| ==> items[i].0 != key
    ensures ItemValue(items, key).None?
    decreases |items|
  {
    if items != [] {
      ItemValueNone(items[1..], key);
    }
  }

  // ---- apply_to_system ----

  /** The part of the operating system the model sees: file contents as
      lines, the process environment, the paths `os.access(p, os.W_OK)`
      accepts (existing files and directories), and the paths whose opening
      for writing raises `PermissionError`. */
  datatype System = System(
    files: map<string, seq<string>>,
    environ: map<string, string>,
    writable: set<string>,
    denied: set<string>)

  const EnvironmentFile := "/etc/environment"
  const EnvironmentBackup := "/etc/environment.bak"
  const ProfileDir := "/etc/profile.d"

  /** `os.environ[key] = value` raises `ValueError` for an empty key, a key
      holding `=`, or a NUL character anywhere. */
  predicate EnvironAccepts(key: string, value: string) {
    key != [] && '=' !in key && '\0' !in key && '\0' !in value
  }

  /** Every key the form accepts can be put into the environment, with any
      value free of NUL characters. */
  lemma AcceptedKeyFitsEnviron(key: string, value: string)
    requires CleanKey(key).Ok? && '\0' !in value
    ensures EnvironAccepts(key, value)
  {
    IdentifierChars(key);
    assert !(IsLetter('\0') || IsDigit('\0') || '\0' == '_');
  }

  /** `_update_env_file` is called: the file exists and is reported writable. */
  predicate UpdatesEnvFile(sys: System) {
    EnvironmentFile in sys.files && EnvironmentFile in sys.writable
  }

  /** `_create_profile_script` is called: the directory exists and is reported writable. */
  predicate WritesProfile(sys: System) {
    ProfileDir in sys.writable
  }

  /** No write `_set_global_env` attempts raises `PermissionError`. */
  predicate GlobalAllowed(v: EnvVar, sys: System) {
    && (UpdatesEnvFile(sys) ==> EnvironmentBackup !in sys.denied && EnvironmentFile !in sys.denied)
    && (WritesProfile(sys) ==> ProfilePath(ProfileDir, v.key) !in sys.denied)
  }

  /** `_set_global_env`: back up and rewrite `/etc/environment`, then write the
      profile script, each only when its target is reported writable. A
      `PermissionError` at any write ends the call with `false`, keeping the
      writes already done. */
  function SetGlobalEnv(v: EnvVar, sys: System): (r: (bool, System))
    ensures r.0 <==> GlobalAllowed(v, sys)
    ensures r.1.environ == sys.environ && r.1.writable == sys.writable && r.1.denied == sys.denied
    ensures forall p :: p != EnvironmentFile && p != EnvironmentBackup && p != ProfilePath(ProfileDir, v.key) ==>
      (p in r.1.files <==> p in sys.files) && (p in sys.files ==> r.1.files[p] == sys.files[p])
    ensures !UpdatesEnvFile(sys) ==>
      (EnvironmentFile in r.1.files <==> EnvironmentFile in sys.files)
      && (EnvironmentFile in sys.files ==> r.1.files[EnvironmentFile] == sys.files[EnvironmentFile])
  {
    ProfileOutsideEnvironment(v.key);
    var step1: Option<map<string, seq<string>>> :=
      if !UpdatesEnvFile(sys) then Some(sys.files)
      else if EnvironmentBackup in sys.denied then None
      else if EnvironmentFile in sys.denied then None
      else
        var lines := sys.files[EnvironmentFile];
        Some(sys.files[EnvironmentBackup := lines][EnvironmentFile := UpdateEnvLines(lines, v.key, v.value)]);
    match step1
    case None =>
      if EnvironmentBackup in sys.denied || !UpdatesEnvFile(sys) then (false, sys)
      else (false, sys.(files := sys.files[EnvironmentBackup := sys.files[EnvironmentFile]]))
    case Some(files1) =>
      if !WritesProfile(sys) then (true, sys.(files := files1))
      else
        var script := ProfilePath(ProfileDir, v.key);
        if script in sys.denied then (false, sys.(files := files1))
        else (true, sys.(files := files1[script := ProfileScript(v.key, v.value)]))
  }

  /** The profile script never lands on `/etc/environment` or its backup. */
  lemma ProfileOutsideEnvironment(key: string)
    ensures ProfilePath(ProfileDir, key) != EnvironmentFile
    ensures ProfilePath(ProfileDir, key) != EnvironmentBackup
  {
    ProfilePathInDir(ProfileDir, key);
    var p := ProfilePath(ProfileDir, key);
    assert p[5] == ProfileDir[5] == 'p';
    assert EnvironmentFile[5] == 'e' && EnvironmentBackup[5] == 'e';
  }

  /** `apply_to_system(scope)`: `Some(b)` for the value returned, `None` when
      the method falls off its end (a scope other than the two it knows). An
      exception from `os.environ` is caught and reported as `false`. */
  function ApplyToSystem(v: EnvVar, scope: string, sys: System): (r: (Option<bool>, System))
    ensures scope != "global" && scope != "session" ==> r == (None, sys)
    ensures r.0 == Some(true) ==> v.key in r.1.environ && r.1.environ[v.key] == v.value
    ensures r.0 != Some(true) ==> r.1.environ == sys.environ
    ensures r.1.writable == sys.writable && r.1.denied == sys.denied
    ensures scope != "global" ==> r.1.files == sys.files
    ensures forall p :: p != EnvironmentFile && p != EnvironmentBackup && p != ProfilePath(ProfileDir, v.key) ==>
      (p in r.1.files <==> p in sys.files) && (p in sys.files ==> r.1.files[p] == sys.files[p])
  {
    if scope == "global" then
      var (ok, sys1) := SetGlobalEnv(v, sys);
      if !ok then (Some(false), sys1)
      else if EnvironAccepts(v.key, v.value) then (Some(true), sys1.(environ := sys1.environ[v.key := v.value]))
      else (Some(false), sys1)
    else if scope == "session" then
      if EnvironAccepts(v.key, v.value) then (Some(true), sys.(environ := sys.environ[v.key := v.value]))
      else (Some(false), sys)
    else
      (None, sys)
  }

  /** In session scope a valid variable is always applied, and only the
      process environment changes. */
  lemma SessionAlwaysApplies(v: EnvVar, sys: System)
    requires CleanKey(v.key).Ok? && '\0' !in v.value
    ensures var (r, sys') := ApplyToSystem(v, "session", sys);
      r == Some(true) && sys' == sys.(environ := sys.environ[v.key := v.value])
  {
    AcceptedKeyFitsEnviron(v.key, v.value);
  }

  /** In global scope a valid variable is applied exactly when no write the
      call attempts is refused with `PermissionError`. */
  lemma GlobalAppliesIffAllowed(v: EnvVar, sys: System)
    requires CleanKey(v.key).Ok? && '\0' !in v.value
    ensures ApplyToSystem(v, "global", sys).0 == Some(GlobalAllowed(v, sys))
  {
    AcceptedKeyFitsEnviron(v.key, v.value);
  }

  /** A successful global application leaves `/etc/environment` rewritten by
      `_update_env_file` (its old lines kept in the backup) and the profile
      script holding the `export` line, when those targets were writable. */
  lemma GlobalWritesFiles(v: EnvVar, sys: System)
    requires ApplyToSystem(v, "global", sys).0 == Some(true)
    ensures var sys' := ApplyToSystem(v, "global", sys).1;
      && (UpdatesEnvFile(sys) ==>
            && EnvironmentFile in sys'.files
            && sys'.files[EnvironmentFile] == UpdateEnvLines(sys.files[EnvironmentFile], v.key, v.value)
            && EnvironmentBackup in sys'.files
            && sys'.files[EnvironmentBackup] == sys.files[EnvironmentFile])
      && (WritesProfile(sys) ==>
            var p := ProfilePath(ProfileDir, v.key);
            p in sys'.files && sys'.files[p] == ProfileScript(v.key, v.value))
  {
    ProfilePathInDir(ProfileDir, v.key);
    var p := ProfilePath(ProfileDir, v.key);
    assert EndsWith(p, ".sh");
    assert p != EnvironmentFile && p != EnvironmentBackup by {
      assert EnvironmentFile[|EnvironmentFile| - 3..] != ".sh";
      assert EnvironmentBackup[|EnvironmentBackup| - 3..] != ".sh";
    }
  }

  /** A refused global application is not atomic: when only the profile
      script is refused, `/etc/environment` has already been rewritten. */
  lemma GlobalRefusedAfterRewrite(v: EnvVar, sys: System)
    requires UpdatesEnvFile(sys) && EnvironmentBackup !in sys.denied && EnvironmentFile !in sys.denied
    requires WritesProfile(sys) && ProfilePath(ProfileDir, v.key) in sys.denied
    ensures var (r, sys') := ApplyToSystem(v, "global", sys);
      && r == Some(false)
      && sys'.files[EnvironmentFile] == UpdateEnvLines(sys.files[EnvironmentFile], v.key, v.value)
  {
  }
}

=== FILE: env_switch.dfy ===
/** `EnvManager` (env_manager.py) over an abstract `.env` file, and the
    `gen_test.py` script that switches a deployment to its test variant once.
    A `.env` file is the map of keys to values that `dotenv_values` reads from
    it; the directory holding it is a map from paths to such files. */
module EnvSwitch {
  import opened Wrappers
  import opened Text

  type Env = map<string, string>
  type Files = map<string, Env>

  // ---- the map operations of EnvManager ----

  /** `read_all()`: the variables of the file, none when it is absent. */
  function ReadAll(files: Files, envPath: string): (env: Env)
    ensures envPath in files ==> env == files[envPath]
    ensures envPath !in files ==> env == map[]
  {
    if envPath in files then files[envPath] else map[]
  }

  /** `exists(key)`: `key in read_all()`. */
  function Exists(env: Env, key: string): (b: bool)
    ensures b <==> Get(env, key, None).Some?
  {
    key in env
  }

  /** `get(key, default)`: the stored value, or the default when the key is absent. */
  function Get(env: Env, key: string, default: Option<string>): (r: Option<string>)
    ensures key in env ==> r.Some? && r.value == env[key]
    ensures key !in env ==> r == default
  {
    if key in env then Some(env[key]) else default
  }

  /** `set(key, value)`: add or overwrite one variable. */
  function Set(env: Env, key: string, value: string): (r: Env)
    ensures r.Keys == env.Keys + {key}
    ensures Get(r, key, None) == Some(value)
    ensures forall k :: k != key ==> Get(r, k, None) == Get(env, k, None)
  {
    env[key := value]
  }

  /** `delete(key)`: remove one variable, if there. */
  function Delete(env: Env, key: string): (r: Env)
    ensures r.Keys == env.Keys - {key}
    ensures forall k :: k != key ==> Get(r, k, None) == Get(env, k, None)
  {
    env - {key}
  }

  /** After `set`, the key exists and reads back as the value; no other key moves. */
  lemma SetThenGet(env: Env, key: string, value: string, other: string)
    requires other != key
    ensures Exists(Set(env, key, value), key)
    ensures Get(Set(env, key, value), key, None) == Some(value)
    ensures Exists(Set(env, key, value), other) <==> Exists(env, other)
    ensures Get(Set(env, key, value), other, None) == Get(env, other, None)
  {
  }

  /** After `delete`, the key is gone and `get` falls back to the default; no other key moves. */
  lemma DeleteThenGet(env: Env, key: string, default: Option<string>, other: string)
    requires other != key
    ensures !Exists(Delete(env, key), key)
    ensures Get(Delete(env, key), key, default) == default
    ensures Exists(Delete(env, key), other) <==> Exists(env, other)
    ensures Get(Delete(env, key), other, None) == Get(env, other, None)
  {
  }

  /** Deleting what was just set restores a file that lacked the key. */
  lemma DeleteUndoesSet(env: Env, key: string, value: string)
    requires !Exists(env, key)
    ensures Delete(Set(env, key, value), key) == env
  {
  }

  // ---- backup_and_switch_to_test ----

  /** The keys the switch writes. */
  const Changed: set<string> := {"CONTAINER_NAME", "PORT", "BASE_URL", "STATIC_URL", "POSTGRES_DB"}

  /** The five keys have five different lengths, so no two of them are equal. */
  lemma KeyLengths()
    ensures |"CONTAINER_NAME"| == 14 && |"PORT"| == 4 && |"BASE_URL"| == 8
    ensures |"STATIC_URL"| == 10 && |"POSTGRES_DB"| == 11
  {
  }

  datatype SwitchError =
    | MissingKey(key: string)       // `KeyError`
    | PortNotInteger(text: string)  // `ValueError` from `int(...)`

  /** Every key the switch reads is there. */
  predicate HasSwitchKeys(current: Env) {
    "CONTAINER_NAME" in current && "PORT" in current && "BASE_URL" in current && "POSTGRES_DB" in current
  }

  /** The configuration can be switched: every key read is there and `PORT` is an integer. */
  predicate Switchable(current: Env) {
    HasSwitchKeys(current) && ParseInt(current["PORT"]).Some?
  }

  /** The five assignments of the switch, for a port already read as `port`. */
  function Derive(current: Env, port: int): (t: Env)
    requires HasSwitchKeys(current)
    ensures t.Keys == current.Keys + {"STATIC_URL"}
    ensures forall k :: k in current && k !in Changed ==> t[k] == current[k]
    ensures t["PORT"] == IntToString(port + 100)
    ensures t["CONTAINER_NAME"] == current["CONTAINER_NAME"] + "_test"
    ensures t["POSTGRES_DB"] == current["POSTGRES_DB"] + "_test"
    ensures t["BASE_URL"] == current["BASE_URL"] + "test/"
    ensures t["STATIC_URL"] == t["BASE_URL"] + "static/"
  {
    KeyLengths();
    var baseUrl := current["BASE_URL"] + "test/";
    var t1 := current["CONTAINER_NAME" := current["CONTAINER_NAME"] + "_test"];
    var t2 := t1["PORT" := IntToString(port + 100)];
    var t3 := t2["BASE_URL" := baseUrl];
    var t4 := t3["STATIC_URL" := baseUrl + "static/"];
    var t5 := t4["POSTGRES_DB" := current["POSTGRES_DB"] + "_test"];
    assert t5["PORT"] == t2["PORT"];
    assert t5["CONTAINER_NAME"] == t1["CONTAINER_NAME"];
    assert t5["BASE_URL"] == t3["BASE_URL"];
    t5
  }

  /** The test configuration derived from the current one, or the error the
      first failing read raises (the reads happen in source order). */
  function TestConfig(current: Env): (r: Result<Env, SwitchError>)
    ensures r.Ok? <==> Switchable(current)
    ensures r.Err? && r.error.MissingKey? ==> r.error.key !in current
    ensures r.Err? && r.error.PortNotInteger? ==> "PORT" in current && ParseInt(current["PORT"]).None?
    ensures r.Ok? ==> r.value.Keys == current.Keys + {"STATIC_URL"}
    ensures r.Ok? ==> forall k :: k in current && k !in Changed ==> r.value[k] == current[k]
    ensures r.Ok? ==> r.value["PORT"] == IntToString(ParseInt(current["PORT"]).value + 100)
    ensures r.Ok? ==> r.value["CONTAINER_NAME"] == current["CONTAINER_NAME"] + "_test"
    ensures r.Ok? ==> r.value["POSTGRES_DB"] == current["POSTGRES_DB"] + "_test"
    ensures r.Ok? ==> r.value["BASE_URL"] == current["BASE_URL"] + "test/"
    ensures r.Ok? ==> r.value["STATIC_URL"] == r.value["BASE_URL"] + "static/"
  {
    if "CONTAINER_NAME" !in current then Err(MissingKey("CONTAINER_NAME"))
    else if "PORT" !in current then Err(MissingKey("PORT"))
    else
      var port := ParseInt(current["PORT"]);
      if port.None? then Err(PortNotInteger(current["PORT"]))
      else if "BASE_URL" !in current then Err(MissingKey("BASE_URL"))
      else if "POSTGRES_DB" !in current then Err(MissingKey("POSTGRES_DB"))
      else
        Ok(Derive(current, port.value))
  }

  /** Where the production file is moved: `{env_path}.backup_{timestamp}`. */
  function BackupPath(envPath: string, stamp: string): (p: string)
    ensures p != envPath && StartsWith(p, envPath)
  {
    envPath + ".backup_" + stamp
  }

  /** `backup_and_switch_to_test`: derive the test configuration, move the
      current file (if any) to its backup, then `set` every variable of the
      test configuration into a fresh file. The timestamp of the backup name
      is a parameter. A failing read raises before any file is touched. */
  method BackupAndSwitch(envPath: string, stamp: string, files: Files)
    returns (r: Result<Env, SwitchError>, files': Files)
    ensures r.Err? ==> files' == files && r == TestConfig(ReadAll(files, envPath))
    ensures r.Ok? ==> TestConfig(ReadAll(files, envPath)) == Ok(r.value)
    ensures r.Ok? ==> envPath in files' && files'[envPath] == r.value
    ensures r.Ok? && envPath in files ==> Agree(files', BackupPath(envPath, stamp), files, envPath)
    ensures forall p :: p in files && p != envPath && p != BackupPath(envPath, stamp) ==> p in files' && files'[p] == files[p]
    ensures r.Ok? ==> files'.Keys == files.Keys + {envPath} + (if envPath in files then {BackupPath(envPath, stamp)} else {})
    ensures envPath !in files && BackupPath(envPath, stamp) in files ==>
      Agree(files', BackupPath(envPath, stamp), files, BackupPath(envPath, stamp))
  {
    var current := ReadAll(files, envPath);
    var config := TestConfig(current);
    if config.Err? {
      return config, files;
    }
    var t := config.value;
    var written := SetEach(t);
    files' := Replace(files, envPath, BackupPath(envPath, stamp), written);
    assert envPath in files ==> Agree(files', BackupPath(envPath, stamp), files, envPath);
    return Ok(t), files';
  }

  /** File `p` of `a` holds what file `q` of `b` holds. */
  predicate Agree(a: Files, p: string, b: Files, q: string) {
    p in a && q in b && a[p] == b[q]
  }

  /** The file system after the production file (if any) is renamed to
      `backup` and a new file with `content` is written in its place. */
  function Replace(files: Files, envPath: string, backup: string, content: Env): (r: Files)
    requires backup != envPath
    ensures envPath in r && r[envPath] == content
    ensures envPath in files ==> backup in r && r[backup] == files[envPath]
    ensures forall p :: p in files && p != envPath && p != backup ==> p in r && r[p] == files[p]
    ensures r.Keys == files.Keys + {envPath} + (if envPath in files then {backup} else {})
    ensures envPath !in files && backup in files ==> Agree(r, backup, files, backup)
  {
    var moved := if envPath in files then (files - {envPath})[backup := files[envPath]] else files;
    moved[envPath := content]
  }

  /** `for key, value in test_config.items(): self.set(key, value)` on a
      fresh file, in whatever order the items come: the file ends up holding
      exactly the configuration. */
  method SetEach(t: Env) returns (written: Env)
    ensures written == t
  {
    written := map[];
    var remaining := t.Keys;
    while remaining != {}
      invariant remaining <= t.Keys
      invariant written.Keys == t.Keys - remaining
      invariant forall j :: j in written ==> j in t && written[j] == t[j]
      decreases |remaining|
    {
      var k :| k in remaining;
      SetAgrees(written, t, k);
      written := Set(written, k, t[k]);
      remaining := remaining - {k};
    }
  }

  /** Setting a key to its value in `t` keeps a map that agrees with `t` in agreement. */
  lemma SetAgrees(written: Env, t: Env, k: string)
    requires k in t
    requires forall j :: j in written ==> j in t && written[j] == t[j]
    ensures forall j :: j in Set(written, k, t[k]) ==> j in t && Set(written, k, t[k])[j] == t[j]
  {
    var w := Set(written, k, t[k]);
    forall j | j in w ensures j in t && w[j] == t[j] {
      if j == k {
        assert Get(w, k, None) == Some(t[k]);
      } else {
        assert Get(w, j, None) == Get(written, j, None);
      }
    }
  }

  /** The switched configuration can be switched again, and its port reads
      back as the old one plus 100. */
  lemma SwitchedPort(current: Env)
    requires Switchable(current)
    ensures Switchable(TestConfig(current).value)
    ensures ParseInt(TestConfig(current).value["PORT"]) == Some(ParseInt(current["PORT"]).value + 100)
  {
    ParseIntOfIntToString(ParseInt(current["PORT"]).value + 100);
  }

  /** The switch is not idempotent: switching the switched configuration adds
      another 100 to the port and another `test/` to the base URL. */
  lemma SwitchTwice(current: Env)
    requires Switchable(current)
    ensures var once := TestConfig(current).value;
      var twice := TestConfig(once);
      && twice.Ok?
      && ParseInt(twice.value["PORT"]) == Some(ParseInt(current["PORT"]).value + 200)
      && twice.value["BASE_URL"] == current["BASE_URL"] + ("test/" + "test/")
      && twice.value["CONTAINER_NAME"] == current["CONTAINER_NAME"] + ("_test" + "_test")
  {
    var once := TestConfig(current).value;
    SwitchedPort(current);
    SwitchedPort(once);
    Twice(current["BASE_URL"], "test/");
    Twice(current["CONTAINER_NAME"], "_test");
  }

  lemma Twice(s: string, suffix: string)
    ensures s + suffix + suffix == s + (suffix + suffix)
  {
  }

  // ---- gen_test.py ----

  /** The script's guard: some value of the file contains `test/`. */
  predicate AlreadyTest(env: Env) {
    exists k :: k in env && Contains(env[k], "test/")
  }

  datatype RunOutcome =
    | AlreadySwitched          // the guard fired: the script exits without switching
    | Switched(config: Env)    // the single switch call returned this configuration
    | Crashed(error: SwitchError)

  /** `gen_test.py`: exit when the guard fires, otherwise switch exactly once. */
  method GenTest(envPath: string, stamp: string, files: Files) returns (outcome: RunOutcome, files': Files)
    ensures outcome.AlreadySwitched? <==> AlreadyTest(ReadAll(files, envPath))
    ensures outcome.AlreadySwitched? || outcome.Crashed? ==> files' == files
    ensures outcome.Switched? ==> TestConfig(ReadAll(files, envPath)) == Ok(outcome.config)
    ensures outcome.Switched? ==> envPath in files' && files'[envPath] == outcome.config
    ensures outcome.Switched? ==> AlreadyTest(files'[envPath])
    ensures outcome.Switched? && envPath in files ==> Agree(files', BackupPath(envPath, stamp), files, envPath)
    ensures outcome.Crashed? ==> TestConfig(ReadAll(files, envPath)) == Err(outcome.error)
    ensures forall p :: p in files && p != envPath && p != BackupPath(envPath, stamp) ==>
      p in files' && files'[p] == files[p]
    ensures outcome.Switched? ==>
      files'.Keys == files.Keys + {envPath} + (if envPath in files then {BackupPath(envPath, stamp)} else {})
    ensures envPath !in files && BackupPath(envPath, stamp) in files ==>
      Agree(files', BackupPath(envPath, stamp), files, BackupPath(envPath, stamp))
  {
    var data := ReadAll(files, envPath);
    if AlreadyTest(data) {
      return AlreadySwitched, files;
    }
    var r;
    r, files' := BackupAndSwitch(envPath, stamp, files);
    if r.Err? {
      return Crashed(r.error), files';
    }
    SwitchedIsTest(data);
    return Switched(r.value), files';
  }

  /** After one switch the guard fires, because the base URL now ends in `test/`. */
  lemma SwitchedIsTest(current: Env)
    requires Switchable(current)
    ensures AlreadyTest(TestConfig(current).value)
  {
    var t := TestConfig(current).value;
    ContainsSuffix(current["BASE_URL"], "test/");
    assert "BASE_URL" in t && Contains(t["BASE_URL"], "test/");
  }
}

=== FILE: env_views.dfy ===
/** The three views of environment/views.py. Rows are addressed by their key,
    which is unique, in place of the primary key of the URL. Login and
    permission checks, messages and templates are left to Django. */
module EnvViews {
  import opened Wrappers
  import opened Text
  import opened EnvFile
  import opened EnvForms
  import opened EnvModels
  import opened EnvList

  // ---- the table operations the views perform ----

  /** `save()` of a new row: it goes at the end. */
  function AppendRow(t: Table, v: EnvVar): (r: Table)
    requires UniqueKeys(t) && v.key !in Keys(t)
    ensures UniqueKeys(r)
    ensures Keys(r) == Keys(t) + {v.key}
    ensures Row(r, v.key) == Some(v)
    ensures forall k :: k != v.key ==> Row(r, k) == Row(t, k)
    decreases |t|
  {
    if t == [] then
      var r := [v];
      KeysCons(v, []);
      RowsCons(v, []);
      assert r == [v] + [];
      r
    else
      var head, tail := t[0], t[1..];
      assert t == [head] + tail;
      KeysCons(head, tail);
      UniqueCons(head, tail);
      RowsCons(head, tail);
      var rest := AppendRow(tail, v);
      var r := [head] + rest;
      KeysCons(head, rest);
      UniqueCons(head, rest);
      RowsCons(head, rest);
      r
  }

  /** `save()` of an edited row: the row of `key` takes the new fields in place. */
  function ReplaceRow(t: Table, key: string, v: EnvVar): (r: Table)
    requires UniqueKeys(t) && key in Keys(t)
    requires v.key == key || v.key !in Keys(t)
    ensures UniqueKeys(r)
    ensures Keys(r) == Keys(t) - {key} + {v.key}
    ensures Row(r, v.key) == Some(v)
    ensures forall k :: k != key && k != v.key ==> Row(r, k) == Row(t, k)
    decreases |t|
  {
    assert t == [t[0]] + t[1..];
    KeysCons(t[0], t[1..]);
    if t[0].key == key then
      var r := [v] + t[1..];
      ReplaceFirst(t, key, v);
      r
    else
      UniqueCons(t[0], t[1..]);
      var rest := ReplaceRow(t[1..], key, v);
      var r := [t[0]] + rest;
      ReplaceLater(t, key, v, rest);
      r
  }

  /** `r` is `t` with the row of `key` replaced by `v`. */
  ghost predicate Replaced(t: Table, key: string, v: EnvVar, r: Table) {
    && UniqueKeys(r)
    && Keys(r) == Keys(t) - {key} + {v.key}
    && Row(r, v.key) == Some(v)
    && forall k :: k != key && k != v.key ==> Row(r, k) == Row(t, k)
  }

  /** Replacing the first row. */
  lemma ReplaceFirst(t: Table, key: string, v: EnvVar)
    requires UniqueKeys(t) && t != [] && t[0].key == key
    requires v.key == key || v.key !in Keys(t)
    ensures Replaced(t, key, v, [v] + t[1..])
  {
    var head, tail := t[0], t[1..];
    assert t == [head] + tail;
    KeysCons(head, tail);
    UniqueCons(head, tail);
    RowsCons(head, tail);
    KeysCons(v, tail);
    UniqueCons(v, tail);
    RowsCons(v, tail);
  }

  /** Replacing a later row, given the replacement in the rest of the table. */
  lemma ReplaceLater(t: Table, key: string, v: EnvVar, rest: Table)
    requires UniqueKeys(t) && t != [] && t[0].key != key && key in Keys(t)
    requires v.key == key || v.key !in Keys(t)
    requires Replaced(t[1..], key, v, rest)
    ensures Replaced(t, key, v, [t[0]] + rest)
  {
    var head, tail := t[0], t[1..];
    assert t == [head] + tail;
    KeysCons(head, tail);
    UniqueCons(head, tail);
    RowsCons(head, tail);
    KeysCons(head, rest);
    UniqueCons(head, rest);
    RowsCons(head, rest);
  }

  /** `delete()` of the row of `key`. */
  function RemoveRow(t: Table, key: string): (r: Table)
    requires UniqueKeys(t)
    ensures UniqueKeys(r)
    ensures Keys(r) == Keys(t) - {key}
    ensures forall k :: k != key ==> Row(r, k) == Row(t, k)
    decreases |t|
  {
    if t == [] then []
    else
      var head, tail := t[0], t[1..];
      assert t == [head] + tail;
      KeysCons(head, tail);
      UniqueCons(head, tail);
      RowsCons(head, tail);
      var rest := RemoveRow(tail, key);
      if head.key == key then rest
      else
        var r := [head] + rest;
        KeysCons(head, rest);
        UniqueCons(head, rest);
        RowsCons(head, rest);
        r
  }

  /** Creating a row and deleting it again gives back the table. */
  lemma {:induction false} RemoveAppended(t: Table, v: EnvVar)
    requires UniqueKeys(t) && v.key !in Keys(t)
    ensures RemoveRow(AppendRow(t, v), v.key) == t
    decreases |t|
  {
    if t != [] {
      assert t == [t[0]] + t[1..];
      KeysCons(t[0], t[1..]);
      RemoveAppended(t[1..], v);
      var rest := AppendRow(t[1..], v);
      assert AppendRow(t, v) == [t[0]] + rest;
      assert ([t[0]] + rest)[1..] == rest;
    }
  }

  // ---- environment_list ----

  datatype ListResponse =
    | RefreshRedirect                                       // reload, then back to the list
    | Listing(rows: Table, page: nat, numPages: nat)        // one page of the ordered, searched rows

  /** The query parameters the list view reads; absent ones are `None`. */
  datatype ListQuery = ListQuery(refresh: Option<string>, search: Option<string>, page: Option<string>)

  /** `environment_list`: a non-empty `refresh` reloads the table from the
      environment and redirects; otherwise the rows matching `search` (all for
      an empty or absent one), ordered by key, are shown a page at a time. */
  function List(t: Table, environ: seq<(string, string)>, q: ListQuery): (r: (Table, ListResponse))
    requires UniqueKeys(t)
    ensures q.refresh.Some? && q.refresh.value != [] <==> r.1.RefreshRedirect?
    ensures r.1.RefreshRedirect? ==> r.0 == LoadFromSystem(t, environ)
    ensures r.1.Listing? ==> && r.0 == t
                             && 1 <= r.1.page <= r.1.numPages
                             && |r.1.rows| <= PerPage
                             && SortedByKey(r.1.rows)
                             && forall v :: v in r.1.rows ==> v in t && KeyMatches(v.key, SearchText(q))
  {
    if q.refresh.Some? && q.refresh.value != [] then
      (LoadFromSystem(t, environ), RefreshRedirect)
    else
      var rows := Matching(t, SearchText(q));
      var n := PageNumber(q.page, |rows|);
      var page := PageItems(rows, n);
      PageOfSorted(rows, n);
      (t, Listing(page, n, NumPages(|rows|)))
  }

  /** `request.GET.get('search', '')`. */
  function SearchText(q: ListQuery): string {
    if q.search.Some? then q.search.value else ""
  }

  /** Asking for page `n` of the rows matching `search` shows page `n`, and `v` is on it. */
  predicate ListedOnPage(t: Table, environ: seq<(string, string)>, search: string, n: nat, v: EnvVar)
    requires UniqueKeys(t)
  {
    var r := List(t, environ, ListQuery(None, Some(search), Some(IntToString(n)))).1;
    r.Listing? && r.page == n && v in r.rows
  }

  /** Every row matching the search is listed on some page, reached by asking
      for that page's number. */
  lemma EveryMatchListed(t: Table, environ: seq<(string, string)>, search: string, v: EnvVar)
    requires UniqueKeys(t) && v in t && KeyMatches(v.key, search)
    ensures exists n: nat :: 1 <= n && ListedOnPage(t, environ, search, n, v)
  {
    var rows := Matching(t, search);
    var i :| 0 <= i < |rows| && rows[i] == v;
    var n := i / PerPage + 1;
    ItemOnItsPage(rows, i);
    PageByNumber(|rows|, n);
    var r := List(t, environ, ListQuery(None, Some(search), Some(IntToString(n)))).1;
    assert PageItems(rows, n)[i % PerPage] == v;
    assert r.rows == PageItems(rows, n);
    assert ListedOnPage(t, environ, search, n, v);
  }

  // ---- environment_edit ----

  /** The submitted form: key, value, description and the scope choice. */
  datatype Form = Form(key: string, value: string, description: string, scope: string)

  /** The `max_length` of the key column. */
  const KeyMaxLength := 100

  /** `form.is_valid()` on the values after Django strips them: a key that is
      an identifier of at most 100 characters and used by no other row, a
      non-empty value, no NUL character in any field, and an offered scope.
      `editing` is the key of the row being edited, if any. */
  predicate ValidForm(t: Table, editing: Option<string>, f: Form) {
    && CleanKey(Trim(f.key)).Ok?
    && |Trim(f.key)| <= KeyMaxLength
    && Trim(f.value) != []
    && '\0' !in f.key && '\0' !in f.value && '\0' !in f.description
    && CleanScope(f.scope).Ok?
    && (Trim(f.key) in Keys(t) ==> editing == Some(Trim(f.key)))
  }

  /** The row the valid form describes. */
  function FormRow(f: Form): EnvVar {
    EnvVar(Trim(f.key), Trim(f.value), Trim(f.description))
  }

  /** What the edit view does with a submitted form. */
  datatype EditOutcome =
    | NotFound   // `get_object_or_404` found no row
    | Invalid    // the form is re-shown with its errors
    | Refused    // applying failed in global scope: re-shown, nothing saved
    | Saved      // saved and redirected to the list

  /** The view saves when applying succeeded or the scope is the session. */
  predicate Persists(applied: Option<bool>, scope: string) {
    applied == Some(true) || scope == "session"
  }

  /** `environment_edit` on a POST: validate, apply to the system, then save
      the row only when `Persists`. The system keeps whatever the apply step
      wrote even when nothing is saved. */
  function Edit(t: Table, editing: Option<string>, f: Form, sys: System): (r: (EditOutcome, Table, System))
    requires UniqueKeys(t)
    ensures UniqueKeys(r.1)
    ensures r.0 != Saved ==> r.1 == t
    ensures r.0 in {NotFound, Invalid} <==> r.2 == sys && r.0 != Saved && r.0 != Refused
    ensures r.0 == NotFound <==> editing.Some? && editing.value !in Keys(t)
    ensures r.0 == Saved ==> Row(r.1, FormRow(f).key) == Some(FormRow(f))
    ensures r.0 !in {NotFound, Invalid} <==> ValidForm(t, editing, f) && r.0 != NotFound
    ensures r.0 !in {NotFound, Invalid} ==>
      var (applied, sys') := ApplyToSystem(FormRow(f), f.scope, sys);
      r.2 == sys' && (r.0 == Saved <==> Persists(applied, f.scope))
  {
    if editing.Some? && Row(t, editing.value).None? then (NotFound, t, sys)
    else if !ValidForm(t, editing, f) then (Invalid, t, sys)
    else
      var v := FormRow(f);
      var (applied, sys') := ApplyToSystem(v, f.scope, sys);
      if !Persists(applied, f.scope) then (Refused, t, sys')
      else if editing.Some? then (Saved, ReplaceRow(t, editing.value, v), sys')
      else (Saved, AppendRow(t, v), sys')
  }

  /** A valid form never leaves the system unchanged by mistake of the view:
      for a found row, it is saved exactly when the scope is the session or
      every global write was allowed. */
  lemma EditSavedIff(t: Table, editing: Option<string>, f: Form, sys: System)
    requires UniqueKeys(t) && ValidForm(t, editing, f)
    requires editing.Some? ==> editing.value in Keys(t)
    ensures Edit(t, editing, f, sys).0 == Saved <==>
      f.scope == "session" || GlobalAllowed(FormRow(f), sys)
  {
    var v := FormRow(f);
    if f.scope == "session" {
      SessionAlwaysApplies(v, sys);
    } else {
      GlobalAppliesIffAllowed(v, sys);
    }
  }

  /** Saving an edit keeps every other row, and a renamed key frees the edited one. */
  lemma EditKeepsOtherRows(t: Table, edited: string, f: Form, sys: System, k: string)
    requires UniqueKeys(t) && edited in Keys(t) && Edit(t, Some(edited), f, sys).0 == Saved
    ensures k != edited && k != FormRow(f).key ==> Row(Edit(t, Some(edited), f, sys).1, k) == Row(t, k)
    ensures edited != FormRow(f).key ==> Row(Edit(t, Some(edited), f, sys).1, edited).None?
  {
  }

  /** A refused global edit can still have rewritten `/etc/environment`: the
      table and the system file then disagree. */
  lemma RefusedEditMayRewriteFile(t: Table, f: Form, sys: System)
    requires UniqueKeys(t) && ValidForm(t, None, f) && f.scope == "global"
    requires UpdatesEnvFile(sys) && EnvironmentBackup !in sys.denied && EnvironmentFile !in sys.denied
    requires WritesProfile(sys) && ProfilePath(ProfileDir, FormRow(f).key) in sys.denied
    ensures var (outcome, t', sys') := Edit(t, None, f, sys);
      && outcome == Refused && t' == t
      && sys'.files[EnvironmentFile] == UpdateEnvLines(sys.files[EnvironmentFile], FormRow(f).key, FormRow(f).value)
  {
    GlobalRefusedAfterRewrite(FormRow(f), sys);
  }

  // ---- environment_delete ----

  datatype DeleteOutcome = Missing | Deleted

  /** Whether the delete view rewrites `/etc/environment`: it exists, is
      reported writable, and opening it for writing succeeds. */
  predicate DeleteRewrites(sys: System) {
    EnvironmentFile in sys.files && EnvironmentFile in sys.writable && EnvironmentFile !in sys.denied
  }

  /** `environment_delete` on a POST: delete the row, then drop the file lines
      starting with `KEY=`; any failure of the file step is swallowed. */
  function Delete(t: Table, key: string, sys: System): (r: (DeleteOutcome, Table, System))
    requires UniqueKeys(t)
    ensures r.0 == Deleted <==> key in Keys(t)
    ensures UniqueKeys(r.1) && Keys(r.1) == Keys(t) - {key}
    ensures forall k :: k != key ==> Row(r.1, k) == Row(t, k)
    ensures r.2.environ == sys.environ && r.2.writable == sys.writable && r.2.denied == sys.denied
    ensures forall p :: p != EnvironmentFile ==>
      (p in r.2.files <==> p in sys.files) && (p in sys.files ==> r.2.files[p] == sys.files[p])
    ensures r.0 == Deleted && DeleteRewrites(sys) ==>
      && EnvironmentFile in r.2.files
      && r.2.files[EnvironmentFile] == RemoveKey(sys.files[EnvironmentFile], key)
      && forall l :: l in r.2.files[EnvironmentFile] <==>
           l in sys.files[EnvironmentFile] && !StartsWith(l, key + "=")
    ensures !(r.0 == Deleted && DeleteRewrites(sys)) ==> r.2 == sys
  {
    if Row(t, key).None? then (Missing, t, sys)
    else
      var sys' :=
        if DeleteRewrites(sys) then
          sys.(files := sys.files[EnvironmentFile := RemoveKey(sys.files[EnvironmentFile], key)])
        else sys;
      (Deleted, RemoveRow(t, key), sys')
  }

  /** Creating a variable in global scope and deleting it again gives back the
      table and leaves no line it wrote in `/etc/environment`. */
  lemma CreateThenDelete(t: Table, f: Form, sys: System)
    requires UniqueKeys(t) && Edit(t, None, f, sys).0 == Saved
    ensures var (_, t1, sys1) := Edit(t, None, f, sys);
      var (_, t2, sys2) := Delete(t1, FormRow(f).key, sys1);
      && t2 == t
      && (DeleteRewrites(sys1) ==> EnvLine(FormRow(f).key, FormRow(f).value) !in sys2.files[EnvironmentFile])
  {
    var v := FormRow(f);
    RemoveAppended(t, v);
    WrittenLineStartsWithKey(v.key, v.value);
  }
}

=== FILE: nginx.dfy ===
/** The nginx configuration language as a tree: comments, simple directives
    (`name arg ...;`) and blocks (`name arg ... { ... }`), with the function that
    prints a tree as the lines of a configuration file, and the queries the
    rendering properties are stated through. Exact whitespace of the original
    templates is not reproduced: each nesting level is indented by four spaces
    and blank lines are not emitted. */
module Nginx {
  import opened Wrappers
  import opened Text

  datatype Node =
    | Comment(text: string)
    | Directive(name: string, args: seq<string>)
    | Block(name: string, args: seq<string>, body: seq<Node>)

  /** A block whose name is `location`. */
  predicate IsLocation(n: Node) {
    n.Block? && n.name == "location"
  }

  // ---- printing ----

  /** Arguments, each preceded by one space. */
  function Args(args: seq<string>): string {
    if args == [] then "" else " " + args[0] + Args(args[1..])
  }

  function Indent(depth: nat): (r: string)
    ensures |r| == 4 * depth
  {
    if depth == 0 then "" else "    " + Indent(depth - 1)
  }

  /** The text of a directive, without indentation. */
  function DirectiveText(name: string, args: seq<string>): string {
    name + Args(args) + ";"
  }

  /** The lines of `nodes` printed at nesting level `depth`. */
  function Lines(nodes: seq<Node>, depth: nat): seq<string>
    decreases nodes
  {
    if nodes == [] then [] else NodeLines(nodes[0], depth) + Lines(nodes[1..], depth)
  }

  function NodeLines(n: Node, depth: nat): (r: seq<string>)
    ensures |r| >= 1
    decreases n
  {
    match n
    case Comment(t) => [Indent(depth) + "# " + t]
    case Directive(name, args) => [Indent(depth) + DirectiveText(name, args)]
    case Block(name, args, body) =>
      [Indent(depth) + name + Args(args) + " {"] + Lines(body, depth + 1) + [Indent(depth) + "}"]
  }

  /** A whole configuration file: every line followed by a newline. */
  function Flatten(nodes: seq<Node>): string {
    JoinLines(Lines(nodes, 0))
  }

  function JoinLines(lines: seq<string>): string {
    if lines == [] then "" else lines[0] + "\n" + JoinLines(lines[1..])
  }

  // ---- queries ----

  /** Every `location` block in document order, looking inside the blocks
      (servers) that contain them. */
  function LocationsIn(nodes: seq<Node>): (r: seq<Node>)
    ensures forall k :: 0 <= k < |r| ==> IsLocation(r[k])
    decreases nodes
  {
    if nodes == [] then []
    else
      var here := match nodes[0]
        case Block(name, _, body) => if name == "location" then [nodes[0]] else LocationsIn(body)
        case _ => [];
      here + LocationsIn(nodes[1..])
  }

  /** Every directive, at any depth, in document order. */
  function DirectivesIn(nodes: seq<Node>): (r: seq<Node>)
    ensures forall k :: 0 <= k < |r| ==> r[k].Directive?
    decreases nodes
  {
    if nodes == [] then []
    else
      var here := match nodes[0]
        case Directive(_, _) => [nodes[0]]
        case Block(_, _, body) => DirectivesIn(body)
        case Comment(_) => [];
      here + DirectivesIn(nodes[1..])
  }

  /** The arguments of the first directive named `name` directly inside `body`. */
  function Lookup(body: seq<Node>, name: string): (r: Option<seq<string>>)
    ensures r.Some? <==> exists k :: 0 <= k < |body| && body[k].Directive? && body[k].name == name
    ensures r.Some? ==> Directive(name, r.value) in body
  {
    if body == [] then None
    else if body[0].Directive? && body[0].name == name then Some(body[0].args)
    else
      var r := Lookup(body[1..], name);
      assert forall k :: 1 <= k < |body| ==> body[k] == body[1..][k - 1];
      r
  }

  /** The directive found is the first one of that name. */
  lemma {:induction false} LookupAt(body: seq<Node>, name: string, k: nat)
    requires k < |body| && body[k].Directive? && body[k].name == name
    requires forall j :: 0 <= j < k ==> !(body[j].Directive? && body[j].name == name)
    ensures Lookup(body, name) == Some(body[k].args)
    decreases k
  {
    if k > 0 {
      assert body[1..][k - 1] == body[k];
      LookupAt(body[1..], name, k - 1);
    }
  }

  /** The nodes `f(x)` for each `x` of `xs`, one after the other. */
  function ConcatMap<T>(xs: seq<T>, f: T -> seq<Node>): seq<Node> {
    if xs == [] then [] else f(xs[0]) + ConcatMap(xs[1..], f)
  }

  /** When every part's directives take their names from `names`, so do the whole's. */
  lemma {:induction false} ConcatMapDirectivesNamed<T>(xs: seq<T>, f: T -> seq<Node>, names: set<string>)
    requires forall a :: a in xs ==> forall x :: x in DirectivesIn(f(a)) ==> x.name in names
    ensures forall x :: x in DirectivesIn(ConcatMap(xs, f)) ==> x.name in names
    decreases xs
  {
    if xs != [] {
      DirectivesAppend(f(xs[0]), ConcatMap(xs[1..], f));
      ConcatMapDirectivesNamed(xs[1..], f, names);
    }
  }

  lemma {:induction false} ConcatMapLength<T>(xs: seq<T>, f: T -> seq<Node>)
    requires forall x :: |f(x)| == 3
    ensures |ConcatMap(xs, f)| == 3 * |xs|
    decreases xs
  {
    if xs != [] {
      ConcatMapLength(xs[1..], f);
    }
  }

  /** When each `x` contributes three nodes, the `k`-th node of the `i`-th
      contribution sits at `3 * i + k`. */
  lemma {:induction false} ConcatMapAt<T>(xs: seq<T>, f: T -> seq<Node>, i: nat, k: nat)
    requires forall x :: |f(x)| == 3
    requires i < |xs| && k < 3
    ensures |ConcatMap(xs, f)| == 3 * |xs|
    ensures ConcatMap(xs, f)[3 * i + k] == f(xs[i])[k]
    decreases xs
  {
    ConcatMapLength(xs, f);
    if i > 0 {
      assert xs[1..][i - 1] == xs[i];
      ConcatMapAt(xs[1..], f, i - 1, k);
    }
  }

  /** The locations of a concatenation are those of its parts. */
  lemma {:induction false} LocationsOfConcatMap<T>(xs: seq<T>, f: T -> seq<Node>, g: T -> seq<Node>)
    requires forall x :: LocationsIn(f(x)) == g(x)
    ensures LocationsIn(ConcatMap(xs, f)) == ConcatMap(xs, g)
    decreases xs
  {
    if xs != [] {
      LocationsAppend(f(xs[0]), ConcatMap(xs[1..], f));
      LocationsOfConcatMap(xs[1..], f, g);
    }
  }

  /** The `server` blocks at the top level of a file. */
  function Servers(nodes: seq<Node>): (r: seq<Node>)
    ensures forall k :: 0 <= k < |r| ==> r[k].Block? && r[k].name == "server" && r[k] in nodes
    ensures |r| <= |nodes|
  {
    if nodes == [] then []
    else if nodes[0].Block? && nodes[0].name == "server" then [nodes[0]] + Servers(nodes[1..])
    else Servers(nodes[1..])
  }

  // ---- structural lemmas ----

  lemma {:induction false} LinesAppend(a: seq<Node>, b: seq<Node>, depth: nat)
    ensures Lines(a + b, depth) == Lines(a, depth) + Lines(b, depth)
    decreases a
  {
    if a != [] {
      assert (a + b)[0] == a[0] && (a + b)[1..] == a[1..] + b;
      LinesAppend(a[1..], b, depth);
    } else {
      assert a + b == b;
    }
  }

  lemma {:induction false} LocationsAppend(a: seq<Node>, b: seq<Node>)
    ensures LocationsIn(a + b) == LocationsIn(a) + LocationsIn(b)
    decreases a
  {
    if a != [] {
      assert (a + b)[0] == a[0] && (a + b)[1..] == a[1..] + b;
      LocationsAppend(a[1..], b);
    } else {
      assert a + b == b;
    }
  }

  lemma {:induction false} DirectivesAppend(a: seq<Node>, b: seq<Node>)
    ensures DirectivesIn(a + b) == DirectivesIn(a) + DirectivesIn(b)
    decreases a
  {
    if a != [] {
      assert (a + b)[0] == a[0] && (a + b)[1..] == a[1..] + b;
      DirectivesAppend(a[1..], b);
    } else {
      assert a + b == b;
    }
  }

  lemma {:induction false} JoinLinesAppend(a: seq<string>, b: seq<string>)
    ensures JoinLines(a + b) == JoinLines(a) + JoinLines(b)
    decreases a
  {
    if a != [] {
      assert (a + b)[0] == a[0] && (a + b)[1..] == a[1..] + b;
      JoinLinesAppend(a[1..], b);
    } else {
      assert a + b == b;
    }
  }

  /** No node of `body` is a block. */
  predicate Flat(body: seq<Node>) {
    forall k :: 0 <= k < |body| ==> !body[k].Block?
  }

  /** A body of plain directives and comments holds no location. */
  lemma {:induction false} LocationsOfFlat(body: seq<Node>)
    requires Flat(body)
    ensures LocationsIn(body) == []
    decreases body
  {
    if body != [] {
      LocationsOfFlat(body[1..]);
    }
  }

  /** A body made only of directives lists exactly itself as its directives. */
  lemma {:induction false} DirectivesOfFlat(body: seq<Node>)
    requires forall k :: 0 <= k < |body| ==> body[k].Directive?
    ensures DirectivesIn(body) == body
    decreases body
  {
    if body != [] {
      DirectivesOfFlat(body[1..]);
      assert body == [body[0]] + body[1..];
    }
  }

  /** Looking into a single block that is not a location. */
  lemma LocationsOfBlock(name: string, args: seq<string>, body: seq<Node>)
    requires name != "location"
    ensures LocationsIn([Block(name, args, body)]) == LocationsIn(body)
  {
    assert [Block(name, args, body)][1..] == [];
  }

  lemma LocationsOfLocation(n: Node)
    requires IsLocation(n)
    ensures LocationsIn([n]) == [n]
  {
    assert [n][1..] == [];
  }

  lemma LocationsOfComment(t: string)
    ensures LocationsIn([Comment(t)]) == []
  {
    assert [Comment(t)][1..] == [];
  }

  lemma DirectivesOfBlock(name: string, args: seq<string>, body: seq<Node>)
    ensures DirectivesIn([Block(name, args, body)]) == DirectivesIn(body)
  {
    assert [Block(name, args, body)][1..] == [];
  }

  /** A block whose body holds only directives named in `names` yields only such directives. */
  lemma BlockDirectivesNamed(n: Node, names: set<string>)
    requires n.Block? && forall k :: 0 <= k < |n.body| ==> n.body[k].Directive? && n.body[k].name in names
    ensures forall x :: x in DirectivesIn([n]) ==> x.Directive? && x.name in names
  {
    DirectivesOfBlock(n.name, n.args, n.body);
    DirectivesOfFlat(n.body);
  }

  lemma DirectivesOfComment(t: string)
    ensures DirectivesIn([Comment(t)]) == []
  {
    assert [Comment(t)][1..] == [];
  }

  /** The directives of a titled file of two server blocks are those of the first body, then the second's. */
  lemma DirectivesOfTwoServers(title: string, first: seq<Node>, second: seq<Node>)
    ensures DirectivesIn([Comment(title)] + ([Block("server", [], first)] + [Block("server", [], second)]))
      == DirectivesIn(first) + DirectivesIn(second)
  {
    DirectivesAppend([Comment(title)], [Block("server", [], first)] + [Block("server", [], second)]);
    DirectivesOfComment(title);
    DirectivesAppend([Block("server", [], first)], [Block("server", [], second)]);
    DirectivesOfBlock("server", [], first);
    DirectivesOfBlock("server", [], second);
  }

  /** Printing distributes over concatenation: the file of `a + b` is the file
      of `a` followed by the file of `b`. */
  lemma FlattenAppend(a: seq<Node>, b: seq<Node>)
    ensures Flatten(a + b) == Flatten(a) + Flatten(b)
  {
    LinesAppend(a, b, 0);
    JoinLinesAppend(Lines(a, 0), Lines(b, 0));
  }

  /** Every directive of the tree is printed, at some indentation, as a line of its own. */
  lemma {:induction false} DirectivePrinted(nodes: seq<Node>, depth: nat, d: Node)
    requires d in DirectivesIn(nodes)
    ensures exists k: nat :: Indent(k) + DirectiveText(d.name, d.args) in Lines(nodes, depth)
    decreases nodes
  {
    var n := nodes[0];
    var here := match n
      case Directive(_, _) => [n]
      case Block(_, _, body) => DirectivesIn(body)
      case Comment(_) => [];
    assert DirectivesIn(nodes) == here + DirectivesIn(nodes[1..]);
    if d in here {
      match n
      case Directive(_, _) =>
        assert Indent(depth) + DirectiveText(d.name, d.args) in NodeLines(n, depth);
      case Block(name, args, body) =>
        DirectivePrinted(body, depth + 1, d);
        var k: nat :| Indent(k) + DirectiveText(d.name, d.args) in Lines(body, depth + 1);
        assert Indent(k) + DirectiveText(d.name, d.args) in NodeLines(n, depth);
    } else {
      DirectivePrinted(nodes[1..], depth, d);
      var k: nat :| Indent(k) + DirectiveText(d.name, d.args) in Lines(nodes[1..], depth);
      assert Indent(k) + DirectiveText(d.name, d.args) in Lines(nodes, depth);
    }
  }

  lemma {:induction false} JoinLinesContains(lines: seq<string>, l: string)
    requires l in lines
    ensures Contains(JoinLines(lines), l + "\n")
    decreases lines
  {
    if lines[0] == l {
      assert l + "\n" <= JoinLines(lines)[0..];
    } else {
      JoinLinesContains(lines[1..], l);
      var rest := JoinLines(lines[1..]);
      var i :| 0 <= i <= |rest| - |l + "\n"| && l + "\n" <= rest[i..];
      var off := |lines[0]| + 1;
      assert JoinLines(lines) == lines[0] + "\n" + rest;
      assert JoinLines(lines)[off + i..] == rest[i..];
    }
  }

  /** Every directive of the tree appears in the printed file as a whole line. */
  lemma DirectiveInFile(nodes: seq<Node>, d: Node)
    requires d in DirectivesIn(nodes)
    ensures exists k: nat :: Contains(Flatten(nodes), Indent(k) + DirectiveText(d.name, d.args) + "\n")
  {
    DirectivePrinted(nodes, 0, d);
    var k: nat :| Indent(k) + DirectiveText(d.name, d.args) in Lines(nodes, 0);
    JoinLinesContains(Lines(nodes, 0), Indent(k) + DirectiveText(d.name, d.args));
  }
}

=== FILE: script_render.dfy ===
/** The stand-alone generator script: its own template (a fixed loopback proxy
    target, cache headers, a narrower dot-file rule and a full TLS block),
    `NginxConfigGenerator.generate_config`, and the configuration data its
    `__main__` block builds from the `.env` values. */
module ScriptRender {
  import opened Wrappers
  import opened Text
  import opened Nginx

  /** One entry of `config_data["apps"]`. The port is whatever string the
      `.env` file holds; the host is carried but never printed. */
  datatype ScriptApp = ScriptApp(name: string, path: string, host: string, port: string, staticRoot: string)

  datatype ScriptData = ScriptData(
    serverName: string,
    sslCertificate: string,
    sslCertificateKey: string,
    apps: seq<ScriptApp>,
    sslEnabled: bool)

  /** The template's `ssl_enabled and ssl_certificate and ssl_certificate_key`. */
  predicate TlsOn(d: ScriptData) {
    d.sslEnabled && d.sslCertificate != "" && d.sslCertificateKey != ""
  }

  const Ciphers := "ECDHE-ECDSA-AES128-GCM-SHA256:ECDHE-RSA-AES128-GCM-SHA256:ECDHE-ECDSA-AES256-GCM-SHA384:"
    + "ECDHE-RSA-AES256-GCM-SHA384:ECDHE-ECDSA-CHACHA20-POLY1305:ECDHE-RSA-CHACHA20-POLY1305:"
    + "DHE-RSA-AES128-GCM-SHA256:DHE-RSA-AES256-GCM-SHA384"

  const Redirect := Directive("return", ["301", "https://$server_name$request_uri"])
  const ListenTls := Directive("listen", ["443", "ssl"])
  const Protocols := Directive("ssl_protocols", ["TLSv1.2", "TLSv1.3"])
  const BodyLimit := Directive("client_max_body_size", ["30M"])
  /** The rule denying `/.env`, `/.git`, `/.ht…` and `/.svn`, and nothing else starting with a dot. */
  const SecretFiles := Block("location", ["~", "/\\.(env|git|ht|svn)"], [Directive("deny", ["all"])])

  /** The loopback address every app is proxied to. */
  const Loopback := "127.0.0.1"

  function ProxyTarget(a: ScriptApp): string {
    "http://" + Loopback + ":" + a.port + "/" + a.path + "/"
  }

  function ProxyLocation(a: ScriptApp): Node {
    Block("location", ["/" + a.path + "/"], [
      Directive("proxy_pass", [ProxyTarget(a)]),
      Directive("proxy_set_header", ["Host", "$host"]),
      Directive("proxy_set_header", ["X-Real-IP", "$remote_addr"]),
      Directive("proxy_set_header", ["X-Forwarded-For", "$proxy_add_x_forwarded_for"]),
      Directive("proxy_set_header", ["X-Forwarded-Proto", "$scheme"]),
      Directive("proxy_redirect", ["off"])])
  }

  /** A file-serving location: alias, expiry and the matching cache header. */
  function FilesLocation(route: string, alias: string, expires: string, maxAge: string): Node {
    Block("location", [route], [
      Directive("alias", [alias]),
      Directive("expires", [expires]),
      Directive("add_header", ["Cache-Control", "\"public, max-age=" + maxAge + "\""]),
      Directive("autoindex", ["off"]),
      Directive("try_files", ["$uri", "$uri/", "=404"])])
  }

  function StaticLocation(a: ScriptApp): Node {
    FilesLocation("/" + a.path + "/static/", a.staticRoot + "/", "1d", "86400")
  }

  function MediaLocation(a: ScriptApp): Node {
    FilesLocation("/" + a.path + "/media/", a.staticRoot + "/media/", "7d", "604800")
  }

  function AppNodes(a: ScriptApp): seq<Node> {
    [Comment(a.name), ProxyLocation(a), StaticLocation(a), MediaLocation(a)]
  }

  /** The `{% for app in apps %}` loop. */
  function AppsNodes(apps: seq<ScriptApp>): seq<Node> {
    ConcatMap(apps, AppNodes)
  }

  function PlainHead(d: ScriptData): seq<Node> {
    [Directive("listen", ["80"])] + (if d.serverName != "" then [Directive("server_name", [d.serverName])] else [])
  }

  function TlsHead(d: ScriptData): seq<Node> {
    [ListenTls,
     Directive("server_name", [d.serverName]),
     Directive("ssl_certificate", [d.sslCertificate]),
     Directive("ssl_certificate_key", [d.sslCertificateKey]),
     Protocols,
     Directive("ssl_ciphers", [Ciphers]),
     Directive("ssl_prefer_server_ciphers", ["off"]),
     Directive("ssl_session_cache", ["shared:SSL:10m"]),
     Directive("ssl_session_timeout", ["10m"])]
  }

  function RoutingBody(d: ScriptData): seq<Node> {
    [BodyLimit] + AppsNodes(d.apps) + [SecretFiles]
  }

  /** The script's `NGINX_TEMPLATE`; every app given is rendered (there is no
      activity flag here). */
  function Template(d: ScriptData): seq<Node> {
    [Comment(d.serverName + ".conf")] +
    if TlsOn(d) then
      [Block("server", [], PlainHead(d) + [Redirect]), Block("server", [], TlsHead(d) + RoutingBody(d))]
    else
      [Block("server", [], PlainHead(d) + RoutingBody(d))]
  }

  function Render(d: ScriptData): string {
    Flatten(Template(d))
  }

  // ---- generate_config ----

  /** `generate_config(config_data, output_file)`: with a falsy `output_file`
      (absent or empty) the text is returned and nothing is written; otherwise
      the text is written there and nothing is returned. A failing write
      raises, reported as `Err(path)`. */
  function GenerateConfig(d: ScriptData, outputFile: Option<string>, disk: map<string, string>, failing: set<string>)
    : (r: Result<(Option<string>, map<string, string>), string>)
    ensures outputFile.None? || outputFile.value == "" ==> r == Ok((Some(Render(d)), disk))
    ensures outputFile.Some? && outputFile.value != "" && outputFile.value in failing ==> r == Err(outputFile.value)
    ensures outputFile.Some? && outputFile.value != "" && outputFile.value !in failing ==>
      r.Ok? && r.value.0 == None && r.value.1 == disk[outputFile.value := Render(d)]
  {
    var text := Render(d);
    if outputFile.Some? && outputFile.value != "" then
      if outputFile.value in failing then Err(outputFile.value)
      else Ok((None, disk[outputFile.value := text]))
    else
      Ok((Some(text), disk))
  }

  /** The two modes agree: the file written holds exactly the text the
      returning mode hands back, and no other file changes. */
  lemma WrittenIsReturned(d: ScriptData, path: string, disk: map<string, string>, failing: set<string>)
    requires path != "" && path !in failing
    ensures var written := GenerateConfig(d, Some(path), disk, failing);
      var returned := GenerateConfig(d, None, disk, failing);
      && written.Ok? && returned.Ok? && returned.value.0.Some?
      && written.value.1[path] == returned.value.0.value
      && forall p :: p != path ==> (p in written.value.1 <==> p in disk)
  {
  }

  // ---- the example data of __main__ ----

  /** The `.env` file holds every key `__main__` reads. */
  predicate HasExampleKeys(env: map<string, string>) {
    && "SERVER_NAME" in env && "SSL_CRT" in env && "SSL_KEY" in env
    && "BASE_URL" in env && "HOST" in env && "PORT" in env && "STATIC_ROOT" in env
  }

  /** `config_data_with_ssl`: one app whose name and path are the base URL
      without its slashes, whose static root is that directory under the
      script's own directory, with SSL requested. The dictionary display reads
      the keys in order, so a missing one raises `KeyError` for the first. */
  function ExampleData(env: map<string, string>, scriptDir: string): (r: Result<ScriptData, string>)
    ensures r.Err? <==> !HasExampleKeys(env)
    ensures r.Err? ==> r.error !in env
    ensures r.Ok? ==> r.value.sslEnabled && |r.value.apps| == 1
    ensures r.Ok? ==> r.value.serverName == env["SERVER_NAME"] && r.value.apps[0].port == env["PORT"]
    ensures r.Ok? ==> r.value.sslCertificate == env["SSL_CRT"] && r.value.sslCertificateKey == env["SSL_KEY"]
    ensures r.Ok? ==> r.value.apps[0].name == r.value.apps[0].path == Strip(env["BASE_URL"], {'/'})
  {
    if "SERVER_NAME" !in env then Err("SERVER_NAME")
    else if "SSL_CRT" !in env then Err("SSL_CRT")
    else if "SSL_KEY" !in env then Err("SSL_KEY")
    else if "BASE_URL" !in env then Err("BASE_URL")
    else if "HOST" !in env then Err("HOST")
    else if "PORT" !in env then Err("PORT")
    else if "STATIC_ROOT" !in env then Err("STATIC_ROOT")
    else
      var base := Strip(env["BASE_URL"], {'/'});
      Ok(ScriptData(
        env["SERVER_NAME"], env["SSL_CRT"], env["SSL_KEY"],
        [ScriptApp(base, base, env["HOST"], env["PORT"], PathJoin(scriptDir, Strip(env["STATIC_ROOT"], {'/'})))],
        true))
  }

  /** Whatever slashes `STATIC_ROOT` starts with, the static root lands under
      the script's directory, never at the file-system root. */
  lemma ExampleStaticRootUnderScript(env: map<string, string>, scriptDir: string)
    requires ExampleData(env, scriptDir).Ok?
    ensures var a := ExampleData(env, scriptDir).value.apps[0];
      StartsWith(a.staticRoot, scriptDir) && EndsWith(a.staticRoot, Strip(env["STATIC_ROOT"], {'/'}))
  {
    var stripped := Strip(env["STATIC_ROOT"], {'/'});
    assert !Absolute(stripped);
  }

  /** The file the script writes. */
  const ScriptOutput := "/etc/nginx/conf.d/nginx_with_ssl.conf"

  /** `__main__`: build the data and write the rendered file. */
  function RunScript(env: map<string, string>, scriptDir: string, disk: map<string, string>, failing: set<string>)
    : (r: Result<map<string, string>, string>)
    ensures r.Ok? ==> ExampleData(env, scriptDir).Ok? && ScriptOutput !in failing
    ensures r.Ok? ==> r.value == disk[ScriptOutput := Render(ExampleData(env, scriptDir).value)]
    ensures ExampleData(env, scriptDir).Ok? && ScriptOutput !in failing ==> r.Ok?
  {
    match ExampleData(env, scriptDir)
    case Err(k) => Err(k)
    case Ok(d) =>
      assert ScriptOutput != "" by { assert ScriptOutput[0] == '/'; }
      var g := GenerateConfig(d, Some(ScriptOutput), disk, failing);
      if g.Err? then Err(g.error) else Ok(g.value.1)
  }

  // ---- what the rendered configuration says ----

  /** `expires` values of the form `<digits><unit>`, in seconds. */
  function ExpirySeconds(v: string): Option<nat> {
    if |v| < 2 || !AllDigits(v[..|v| - 1]) then None
    else
      var n := DigitsValue(v[..|v| - 1]);
      match v[|v| - 1]
      case 's' => Some(n)
      case 'm' => Some(n * 60)
      case 'h' => Some(n * 3600)
      case 'd' => Some(n * 86400)
      case 'w' => Some(n * 604800)
      case _ => None
  }

  const CachePrefix := "\"public, max-age="

  /** The `max-age` of a quoted `"public, max-age=<digits>"` header value. */
  function MaxAge(h: string): Option<nat> {
    if |h| > |CachePrefix| + 1 && CachePrefix <= h && h[|h| - 1] == '"'
       && AllDigits(h[|CachePrefix|..|h| - 1])
    then Some(DigitsValue(h[|CachePrefix|..|h| - 1]))
    else None
  }

  /** A file location whose browser cache lifetime matches its `expires`. */
  predicate CacheAgrees(loc: Node) {
    && loc.Block?
    && var e := Lookup(loc.body, "expires");
    && var h := Lookup(loc.body, "add_header");
    && e.Some? && |e.value| == 1 && h.Some? && |h.value| == 2 && h.value[0] == "Cache-Control"
    && ExpirySeconds(e.value[0]).Some? && ExpirySeconds(e.value[0]) == MaxAge(h.value[1])
  }

  /** Locations `p`, `s`, `m` route `a`: the app path proxied to the loopback
      address on the app's port and path, the static and media directories
      aliased with one-day and seven-day expiries whose cache headers agree. */
  predicate ServesApp(p: Node, s: Node, m: Node, a: ScriptApp) {
    && p.Block? && p.args == ["/" + a.path + "/"]
    && Lookup(p.body, "proxy_pass") == Some(["http://127.0.0.1:" + a.port + "/" + a.path + "/"])
    && Lookup(p.body, "proxy_redirect") == Some(["off"])
    && s.Block? && s.args == ["/" + a.path + "/static/"]
    && Lookup(s.body, "alias") == Some([a.staticRoot + "/"])
    && Lookup(s.body, "expires") == Some(["1d"])
    && CacheAgrees(s)
    && m.Block? && m.args == ["/" + a.path + "/media/"]
    && Lookup(m.body, "alias") == Some([a.staticRoot + "/media/"])
    && Lookup(m.body, "expires") == Some(["7d"])
    && CacheAgrees(m)
  }

  lemma DayLiterals()
    ensures ExpirySeconds("1d") == Some(86400) && ExpirySeconds("7d") == Some(604800)
    ensures MaxAge("\"public, max-age=86400\"") == Some(86400)
    ensures MaxAge("\"public, max-age=604800\"") == Some(604800)
  {
    assert "1d"[..1] == "1" && "7d"[..1] == "7";
    DigitsSnoc("", '1');
    DigitsSnoc("", '7');
    assert "" + ['1'] == "1" && "" + ['7'] == "7";
    var h1 := "\"public, max-age=86400\"";
    var h7 := "\"public, max-age=604800\"";
    assert h1[|CachePrefix|..|h1| - 1] == "86400";
    assert h7[|CachePrefix|..|h7| - 1] == "604800";
    DigitsLiteral("86400", 86400);
    DigitsLiteral("604800", 604800);
  }

  /** Appending a digit multiplies the value by ten and adds the digit. */
  lemma DigitsSnoc(s: string, c: char)
    requires AllDigits(s) && IsDigit(c)
    ensures AllDigits(s + [c]) && DigitsValue(s + [c]) == DigitsValue(s) * 10 + (c as int - '0' as int)
  {
    assert (s + [c])[..|s + [c]| - 1] == s;
  }

  lemma DigitsLiteral(s: string, n: nat)
    requires (s == "86400" && n == 86400) || (s == "604800" && n == 604800)
    ensures AllDigits(s) && DigitsValue(s) == n
  {
    if |s| == 5 {
      DigitsFirstFive(s);
      assert s[..5] == s;
    } else {
      DigitsFirstFive(s);
      DigitsSnoc(s[..5], s[5]);
      assert s[..5] + [s[5]] == s;
    }
  }

  /** The digits and value of the first five characters of either literal. */
  lemma DigitsFirstFive(s: string)
    requires s == "86400" || s == "604800"
    ensures AllDigits(s[..5]) && DigitsValue(s[..5]) == if |s| == 5 then 86400 else 60480
  {
    assert DigitsValue("") == 0;
    DigitsSnoc("", s[0]);
    DigitsSnoc(s[..1], s[1]);
    assert s[..1] + [s[1]] == s[..2];
    DigitsSnoc(s[..2], s[2]);
    assert s[..2] + [s[2]] == s[..3];
    DigitsSnoc(s[..3], s[3]);
    assert s[..3] + [s[3]] == s[..4];
    DigitsSnoc(s[..4], s[4]);
    assert s[..4] + [s[4]] == s[..5];
  }

  lemma ProxyServes(a: ScriptApp)
    ensures var p := ProxyLocation(a);
      && Lookup(p.body, "proxy_pass") == Some(["http://127.0.0.1:" + a.port + "/" + a.path + "/"])
      && Lookup(p.body, "proxy_redirect") == Some(["off"])
  {
    var body := ProxyLocation(a).body;
    LookupAt(body, "proxy_pass", 0);
    LookupAt(body, "proxy_redirect", 5);
    assert ProxyTarget(a) == "http://127.0.0.1:" + a.port + "/" + a.path + "/";
  }

  lemma FilesServes(route: string, alias: string, expires: string, maxAge: string)
    ensures var body := FilesLocation(route, alias, expires, maxAge).body;
      && Lookup(body, "alias") == Some([alias])
      && Lookup(body, "expires") == Some([expires])
      && Lookup(body, "add_header") == Some(["Cache-Control", "\"public, max-age=" + maxAge + "\""])
  {
    var body := FilesLocation(route, alias, expires, maxAge).body;
    LookupAt(body, "alias", 0);
    LookupAt(body, "expires", 1);
    LookupAt(body, "add_header", 2);
  }

  lemma FilesCacheAgrees(route: string, alias: string, expires: string, maxAge: string)
    requires ExpirySeconds(expires).Some?
    requires ExpirySeconds(expires) == MaxAge("\"public, max-age=" + maxAge + "\"")
    ensures CacheAgrees(FilesLocation(route, alias, expires, maxAge))
  {
    FilesServes(route, alias, expires, maxAge);
  }

  lemma AppLocationsServe(a: ScriptApp)
    ensures ServesApp(ProxyLocation(a), StaticLocation(a), MediaLocation(a), a)
  {
    DayLiterals();
    assert "\"public, max-age=" + "86400" + "\"" == "\"public, max-age=86400\"";
    assert "\"public, max-age=" + "604800" + "\"" == "\"public, max-age=604800\"";
    ProxyServes(a);
    FilesServes("/" + a.path + "/static/", a.staticRoot + "/", "1d", "86400");
    FilesServes("/" + a.path + "/media/", a.staticRoot + "/media/", "7d", "604800");
    FilesCacheAgrees("/" + a.path + "/static/", a.staticRoot + "/", "1d", "86400");
    FilesCacheAgrees("/" + a.path + "/media/", a.staticRoot + "/media/", "7d", "604800");
  }

  /** The three locations of one app. */
  function AppLocations(a: ScriptApp): seq<Node> {
    [ProxyLocation(a), StaticLocation(a), MediaLocation(a)]
  }

  lemma AppNodesLocations(a: ScriptApp)
    ensures LocationsIn(AppNodes(a)) == AppLocations(a)
  {
    var c, p, st, m := Comment(a.name), ProxyLocation(a), StaticLocation(a), MediaLocation(a);
    assert AppNodes(a) == [c] + [p] + [st] + [m];
    LocationsAppend([c] + [p] + [st], [m]);
    LocationsAppend([c] + [p], [st]);
    LocationsAppend([c], [p]);
    LocationsOfComment(a.name);
    LocationsOfLocation(p);
    LocationsOfLocation(st);
    LocationsOfLocation(m);
  }

  lemma AppsNodesLocations(apps: seq<ScriptApp>)
    ensures LocationsIn(AppsNodes(apps)) == ConcatMap(apps, AppLocations)
  {
    forall a ensures LocationsIn(AppNodes(a)) == AppLocations(a) {
      AppNodesLocations(a);
    }
    LocationsOfConcatMap(apps, AppNodes, AppLocations);
  }

  /** The server heads hold directives only. */
  lemma HeadsAreDirectives(d: ScriptData)
    ensures DirectivesIn(PlainHead(d)) == PlainHead(d) && LocationsIn(PlainHead(d)) == []
    ensures DirectivesIn(PlainHead(d) + [Redirect]) == PlainHead(d) + [Redirect]
    ensures LocationsIn(PlainHead(d) + [Redirect]) == []
    ensures DirectivesIn(TlsHead(d)) == TlsHead(d) && LocationsIn(TlsHead(d)) == []
  {
    DirectivesOfFlat(PlainHead(d));
    DirectivesOfFlat(PlainHead(d) + [Redirect]);
    DirectivesOfFlat(TlsHead(d));
    LocationsOfFlat(PlainHead(d));
    LocationsOfFlat(PlainHead(d) + [Redirect]);
    LocationsOfFlat(TlsHead(d));
  }

  lemma RoutingBodyLocations(d: ScriptData)
    ensures LocationsIn(RoutingBody(d)) == ConcatMap(d.apps, AppLocations) + [SecretFiles]
  {
    LocationsAppend([BodyLimit] + AppsNodes(d.apps), [SecretFiles]);
    LocationsAppend([BodyLimit], AppsNodes(d.apps));
    LocationsOfFlat([BodyLimit]);
    LocationsOfLocation(SecretFiles);
    AppsNodesLocations(d.apps);
  }

  /** The locations of a template, given those of its routing body. */
  lemma TemplateLocations(d: ScriptData)
    ensures LocationsIn(Template(d)) == LocationsIn(RoutingBody(d))
  {
    HeadsAreDirectives(d);
    var title := [Comment(d.serverName + ".conf")];
    LocationsOfComment(d.serverName + ".conf");
    if TlsOn(d) {
      var redirect := Block("server", [], PlainHead(d) + [Redirect]);
      var tls := Block("server", [], TlsHead(d) + RoutingBody(d));
      LocationsAppend(title, [redirect] + [tls]);
      LocationsAppend([redirect], [tls]);
      LocationsOfBlock("server", [], PlainHead(d) + [Redirect]);
      LocationsOfBlock("server", [], TlsHead(d) + RoutingBody(d));
      LocationsAppend(TlsHead(d), RoutingBody(d));
    } else {
      var plain := Block("server", [], PlainHead(d) + RoutingBody(d));
      LocationsAppend(title, [plain]);
      LocationsOfBlock("server", [], PlainHead(d) + RoutingBody(d));
      LocationsAppend(PlainHead(d), RoutingBody(d));
    }
  }

  /** Every app given is rendered, in order, as its three locations, whatever
      its host; the last location is the secret-file rule, present even with
      no app. */
  lemma RenderedLocations(d: ScriptData)
    ensures var locs := LocationsIn(Template(d));
      && |locs| == 3 * |d.apps| + 1
      && (forall i :: 0 <= i < |d.apps| ==> ServesApp(locs[3 * i], locs[3 * i + 1], locs[3 * i + 2], d.apps[i]))
      && locs[3 * |d.apps|] == SecretFiles
  {
    TemplateLocations(d);
    RoutingBodyLocations(d);
    ConcatMapLength(d.apps, AppLocations);
    var locs := LocationsIn(Template(d));
    var pre := ConcatMap(d.apps, AppLocations);
    assert locs == pre + [SecretFiles];
    forall i | 0 <= i < |d.apps|
      ensures ServesApp(locs[3 * i], locs[3 * i + 1], locs[3 * i + 2], d.apps[i])
    {
      LocationsServeAt(d.apps, i);
      AppLocationsServe(d.apps[i]);
      assert locs[3 * i] == pre[3 * i] && locs[3 * i + 1] == pre[3 * i + 1] && locs[3 * i + 2] == pre[3 * i + 2];
    }
  }

  lemma LocationsServeAt(apps: seq<ScriptApp>, i: nat)
    requires i < |apps|
    ensures var pre := ConcatMap(apps, AppLocations);
      && |pre| == 3 * |apps|
      && pre[3 * i] == ProxyLocation(apps[i])
      && pre[3 * i + 1] == StaticLocation(apps[i])
      && pre[3 * i + 2] == MediaLocation(apps[i])
  {
    ConcatMapAt(apps, AppLocations, i, 0);
    ConcatMapAt(apps, AppLocations, i, 1);
    ConcatMapAt(apps, AppLocations, i, 2);
  }

  /** Two app lists that differ only in the apps' hosts. */
  predicate SameButHosts(a: seq<ScriptApp>, b: seq<ScriptApp>) {
    |a| == |b| && forall i :: 0 <= i < |a| ==> a[i] == b[i].(host := a[i].host)
  }

  lemma {:induction false} AppsNodesIgnoreHosts(a: seq<ScriptApp>, b: seq<ScriptApp>)
    requires SameButHosts(a, b)
    ensures AppsNodes(a) == AppsNodes(b)
    decreases a
  {
    if a != [] {
      assert a[0] == b[0].(host := a[0].host);
      assert AppNodes(a[0]) == AppNodes(b[0]);
      assert SameButHosts(a[1..], b[1..]) by {
        forall i | 0 <= i < |a| - 1 ensures a[1..][i] == b[1..][i].(host := a[1..][i].host) {
          assert a[1..][i] == a[i + 1] && b[1..][i] == b[i + 1];
        }
      }
      AppsNodesIgnoreHosts(a[1..], b[1..]);
    }
  }

  /** The configured host of an app never reaches the output: changing hosts
      changes nothing in the rendered text. */
  lemma RenderIgnoresHosts(d: ScriptData, apps: seq<ScriptApp>)
    requires SameButHosts(d.apps, apps)
    ensures Render(d) == Render(d.(apps := apps))
  {
    AppsNodesIgnoreHosts(d.apps, apps);
    assert RoutingBody(d) == RoutingBody(d.(apps := apps));
  }

  /** The directives of the apps' locations: none is a TLS or server-level one. */
  const RouteNames := {"proxy_pass", "proxy_set_header", "proxy_redirect", "alias", "expires", "add_header", "autoindex", "try_files"}

  predicate RouteDirective(x: Node) {
    x.Directive? && x.name in RouteNames
  }

  lemma AppNodesDirectives(a: ScriptApp)
    ensures forall x :: x in DirectivesIn(AppNodes(a)) ==> RouteDirective(x)
  {
    var c, p, st, m := Comment(a.name), ProxyLocation(a), StaticLocation(a), MediaLocation(a);
    assert AppNodes(a) == [c] + [p] + [st] + [m];
    DirectivesAppend([c] + [p] + [st], [m]);
    DirectivesAppend([c] + [p], [st]);
    DirectivesAppend([c], [p]);
    DirectivesOfComment(a.name);
    BlockDirectivesNamed(p, RouteNames);
    BlockDirectivesNamed(st, RouteNames);
    BlockDirectivesNamed(m, RouteNames);
  }

  lemma AppsDirectives(apps: seq<ScriptApp>)
    ensures forall x :: x in DirectivesIn(AppsNodes(apps)) ==> RouteDirective(x)
  {
    forall a | a in apps ensures forall x :: x in DirectivesIn(AppNodes(a)) ==> x.name in RouteNames {
      AppNodesDirectives(a);
    }
    ConcatMapDirectivesNamed(apps, AppNodes, RouteNames);
  }

  /** The routing body carries the body-size limit but no TLS directive. */
  lemma RoutingBodyDirectives(d: ScriptData)
    ensures var ds := DirectivesIn(RoutingBody(d));
      BodyLimit in ds && Redirect !in ds && ListenTls !in ds && Protocols !in ds
  {
    RoutingBodyShape(d);
    AppsDirectives(d.apps);
    assert !RouteDirective(Redirect) && !RouteDirective(ListenTls) && !RouteDirective(Protocols);
  }

  /** The directives of the routing body, in order: the limit, the apps' routes, the deny rule. */
  lemma RoutingBodyShape(d: ScriptData)
    ensures DirectivesIn(RoutingBody(d)) == [BodyLimit] + DirectivesIn(AppsNodes(d.apps)) + SecretFiles.body
  {
    DirectivesAppend([BodyLimit] + AppsNodes(d.apps), [SecretFiles]);
    DirectivesAppend([BodyLimit], AppsNodes(d.apps));
    DirectivesOfFlat([BodyLimit]);
    DirectivesOfBlock("location", SecretFiles.args, SecretFiles.body);
    DirectivesOfFlat(SecretFiles.body);
  }

  /** The directives of the whole template. */
  lemma TemplateDirectives(d: ScriptData)
    ensures DirectivesIn(Template(d)) ==
      if TlsOn(d) then PlainHead(d) + [Redirect] + TlsHead(d) + DirectivesIn(RoutingBody(d))
      else PlainHead(d) + DirectivesIn(RoutingBody(d))
  {
    HeadsAreDirectives(d);
    var title := [Comment(d.serverName + ".conf")];
    DirectivesOfComment(d.serverName + ".conf");
    if TlsOn(d) {
      var redirect := Block("server", [], PlainHead(d) + [Redirect]);
      var tls := Block("server", [], TlsHead(d) + RoutingBody(d));
      DirectivesAppend(title, [redirect] + [tls]);
      DirectivesAppend([redirect], [tls]);
      DirectivesOfBlock("server", [], PlainHead(d) + [Redirect]);
      DirectivesOfBlock("server", [], TlsHead(d) + RoutingBody(d));
      DirectivesAppend(TlsHead(d), RoutingBody(d));
    } else {
      var plain := Block("server", [], PlainHead(d) + RoutingBody(d));
      DirectivesAppend(title, [plain]);
      DirectivesOfBlock("server", [], PlainHead(d) + RoutingBody(d));
      DirectivesAppend(PlainHead(d), RoutingBody(d));
    }
  }

  /** The HTTPS redirect, the `listen 443 ssl` server and its protocol list
      appear exactly when SSL is requested and both certificate paths are
      set; the body-size limit is always there. */
  lemma RenderedTls(d: ScriptData)
    ensures var ds := DirectivesIn(Template(d));
      && BodyLimit in ds
      && (Redirect in ds <==> TlsOn(d))
      && (ListenTls in ds <==> TlsOn(d))
      && (Protocols in ds <==> TlsOn(d))
  {
    TemplateDirectives(d);
    RoutingBodyDirectives(d);
    var routing := DirectivesIn(RoutingBody(d));
    assert Redirect !in PlainHead(d) && ListenTls !in PlainHead(d) && Protocols !in PlainHead(d);
    if TlsOn(d) {
      assert ListenTls in TlsHead(d) && Protocols in TlsHead(d);
      assert DirectivesIn(Template(d)) == (PlainHead(d) + [Redirect]) + TlsHead(d) + routing;
    }
  }

  /** The script's own run always asks for TLS, so the TLS server is emitted
      exactly when the `.env` file names a certificate and a key. */
  lemma ExampleTls(env: map<string, string>, scriptDir: string)
    requires ExampleData(env, scriptDir).Ok?
    ensures TlsOn(ExampleData(env, scriptDir).value) <==> env["SSL_CRT"] != "" && env["SSL_KEY"] != ""
  {
  }
}

=== FILE: sync.dfy ===
/** The registry of app records and the files kept in step with it: the
    post-save handler (one file per active app, then the combined file), the
    post-delete handler, `generate_global_nginx_config` and
    `regenerate_all_configs`. The database is a sequence of records in
    primary-key order; the disk is a map from path to content; a write to a
    path in the `failing` set raises and leaves that path as it was. */
module Sync {
  import opened Wrappers
  import opened Text
  import opened Nginx
  import opened AppRender

  type Registry = seq<AppConfig>
  type Disk = map<string, string>

  // ---- the registry ----

  /** The three database constraints, plus primary keys increasing along the sequence. */
  predicate WellFormed(reg: Registry) {
    forall i, j :: 0 <= i < j < |reg| ==>
      && reg[i].id < reg[j].id
      && reg[i].path != reg[j].path
      && reg[i].port != reg[j].port
      && (reg[i].host, reg[i].port, reg[i].path) != (reg[j].host, reg[j].port, reg[j].path)
  }

  /** A uniqueness constraint a record can violate. */
  datatype Field = PathField | PortField | HostPortPathField

  datatype SaveError = NotFound | Duplicate(fields: set<Field>)

  /** The constraints `rec` would violate against the other rows. */
  function Conflicts(reg: Registry, rec: AppConfig): (c: set<Field>)
    ensures PathField in c <==> exists r :: r in reg && r.id != rec.id && r.path == rec.path
    ensures PortField in c <==> exists r :: r in reg && r.id != rec.id && r.port == rec.port
    ensures HostPortPathField in c <==>
      exists r :: r in reg && r.id != rec.id && (r.host, r.port, r.path) == (rec.host, rec.port, rec.path)
  {
    (if exists r :: r in reg && r.id != rec.id && r.path == rec.path then {PathField} else {}) +
    (if exists r :: r in reg && r.id != rec.id && r.port == rec.port then {PortField} else {}) +
    (if exists r :: r in reg && r.id != rec.id && (r.host, r.port, r.path) == (rec.host, rec.port, rec.path)
     then {HostPortPathField} else {})
  }

  /** The primary key the database hands out next. */
  function NextId(reg: Registry): (id: nat)
    requires WellFormed(reg)
    ensures forall r :: r in reg ==> r.id < id
  {
    if reg == [] then 1 else reg[|reg| - 1].id + 1
  }

  /** Inserting a new record: `save` fills in the default path, the database
      assigns the key and refuses a row that breaks a constraint. */
  function Create(reg: Registry, rec: AppConfig, settings: Settings): (r: Result<Registry, SaveError>)
    requires WellFormed(reg)
    ensures r.Ok? ==> WellFormed(r.value)
    ensures r.Ok? ==> |r.value| == |reg| + 1 && r.value[..|reg|] == reg
    ensures r.Ok? ==> r.value[|reg|] == WithDefaultPath(rec, settings.configDir).(id := r.value[|reg|].id)
    ensures r.Ok? ==> forall x :: x in reg ==> x.id < r.value[|reg|].id
    ensures r.Err? ==> r.error.Duplicate? && r.error.fields != {}
    ensures r.Err? <==> exists x :: x in reg && (x.path == rec.path || x.port == rec.port)
  {
    var row := WithDefaultPath(rec, settings.configDir).(id := NextId(reg));
    var c := Conflicts(reg, row);
    if c != {} then Err(Duplicate(c))
    else
      var reg' := reg + [row];
      assert forall i :: 0 <= i < |reg| ==> reg'[i] == reg[i] && reg[i] in reg;
      Ok(reg')
  }

  /** The position of the row with key `id`, if any. */
  function IndexOf(reg: Registry, id: nat): (k: Option<nat>)
    ensures k.Some? ==> k.value < |reg| && reg[k.value].id == id
    ensures k.None? ==> forall r :: r in reg ==> r.id != id
  {
    if reg == [] then None
    else if reg[|reg| - 1].id == id then Some(|reg| - 1)
    else IndexOf(reg[..|reg| - 1], id)
  }

  /** Saving an existing record: every field is overwritten, the key is kept. */
  function Update(reg: Registry, rec: AppConfig, settings: Settings): (r: Result<Registry, SaveError>)
    requires WellFormed(reg)
    ensures r.Ok? ==> WellFormed(r.value)
    ensures r.Ok? ==> |r.value| == |reg| && WithDefaultPath(rec, settings.configDir) in r.value
    ensures r.Ok? ==> forall x :: x in reg && x.id != rec.id ==> x in r.value
    ensures r.Ok? ==> forall i :: 0 <= i < |reg| ==>
      r.value[i] == if reg[i].id == rec.id then WithDefaultPath(rec, settings.configDir) else reg[i]
    ensures r == Err(NotFound) <==> forall x :: x in reg ==> x.id != rec.id
    ensures r.Err? && r.error.Duplicate? ==> r.error.fields != {}
    ensures r.Err? <==>
      || (forall x :: x in reg ==> x.id != rec.id)
      || (exists x :: x in reg && x.id != rec.id && (x.path == rec.path || x.port == rec.port))
  {
    match IndexOf(reg, rec.id)
    case None => Err(NotFound)
    case Some(k) =>
      var row := WithDefaultPath(rec, settings.configDir);
      assert row.id == rec.id && row.path == rec.path && row.port == rec.port;
      var c := Conflicts(reg, row);
      if c != {} then Err(Duplicate(c))
      else
        UpdateAt(reg, k, row);
        assert forall i :: 0 <= i < |reg| && i != k ==> reg[i].id != rec.id by {
          forall i | 0 <= i < |reg| && i != k ensures reg[i].id != rec.id {
            if i < k { assert reg[i].id < reg[k].id; } else { assert reg[k].id < reg[i].id; }
          }
        }
        Ok(reg[k := row])
  }

  /** Overwriting one row with a record that keeps its key and clashes with
      no other row keeps the constraints and every other row. */
  lemma UpdateAt(reg: Registry, k: nat, row: AppConfig)
    requires WellFormed(reg) && k < |reg| && reg[k].id == row.id && Conflicts(reg, row) == {}
    ensures var reg' := reg[k := row];
      && WellFormed(reg') && row in reg'
      && forall x :: x in reg && x.id != row.id ==> x in reg'
  {
    var reg' := reg[k := row];
    forall i, j | 0 <= i < j < |reg'|
      ensures reg'[i].id < reg'[j].id && reg'[i].path != reg'[j].path && reg'[i].port != reg'[j].port
      ensures (reg'[i].host, reg'[i].port, reg'[i].path) != (reg'[j].host, reg'[j].port, reg'[j].path)
    {
      if i == k {
        assert reg[j] in reg && reg[j].id != row.id;
      } else if j == k {
        assert reg[i] in reg && reg[i].id != row.id;
      }
    }
    assert reg'[k] == row;
    forall x | x in reg && x.id != row.id ensures x in reg' {
      var i :| 0 <= i < |reg| && reg[i] == x;
      assert reg'[i] == x;
    }
  }

  /** Removing the row with key `id`. */
  function Remove(reg: Registry, id: nat): (r: Result<(Registry, AppConfig), SaveError>)
    requires WellFormed(reg)
    ensures r.Ok? ==> WellFormed(r.value.0) && r.value.1 in reg && r.value.1.id == id
    ensures r.Ok? ==> r.value.1 !in r.value.0 && |r.value.0| == |reg| - 1
    ensures r.Ok? ==> forall x :: x in reg && x.id != id ==> x in r.value.0
    ensures r.Ok? ==> forall x :: x in r.value.0 ==> x in reg
    ensures r.Err? <==> forall x :: x in reg ==> x.id != id
  {
    match IndexOf(reg, id)
    case None => Err(NotFound)
    case Some(k) =>
      RemoveAt(reg, k);
      Ok((reg[..k] + reg[k + 1..], reg[k]))
  }

  /** Dropping one row keeps the constraints and every other row. */
  lemma RemoveAt(reg: Registry, k: nat)
    requires WellFormed(reg) && k < |reg|
    ensures var reg' := reg[..k] + reg[k + 1..];
      && WellFormed(reg') && reg[k] !in reg'
      && (forall x :: x in reg && x.id != reg[k].id ==> x in reg')
      && (forall x :: x in reg' ==> x in reg)
  {
    DropIndex(reg, k);
    DropKeepsWellFormed(reg, k);
    DropDropsRow(reg, k);
    DropKeepsOthers(reg, k);
  }

  lemma DropKeepsWellFormed(reg: Registry, k: nat)
    requires WellFormed(reg) && k < |reg|
    ensures WellFormed(reg[..k] + reg[k + 1..])
  {
    var reg' := reg[..k] + reg[k + 1..];
    DropIndex(reg, k);
    forall i, j | 0 <= i < j < |reg'|
      ensures && reg'[i].id < reg'[j].id
              && reg'[i].path != reg'[j].path
              && reg'[i].port != reg'[j].port
              && (reg'[i].host, reg'[i].port, reg'[i].path) != (reg'[j].host, reg'[j].port, reg'[j].path)
    {
      var i', j' := if i < k then i else i + 1, if j < k then j else j + 1;
      assert reg'[i] == reg[i'] && reg'[j] == reg[j'] && i' < j';
    }
  }

  lemma DropDropsRow(reg: Registry, k: nat)
    requires WellFormed(reg) && k < |reg|
    ensures reg[k] !in reg[..k] + reg[k + 1..]
  {
    var reg' := reg[..k] + reg[k + 1..];
    DropIndex(reg, k);
    forall i | 0 <= i < |reg'| ensures reg'[i] != reg[k] {
      var i' := if i < k then i else i + 1;
      assert reg'[i] == reg[i'] && i' != k;
      if i' < k { assert reg[i'].id < reg[k].id; } else { assert reg[k].id < reg[i'].id; }
    }
  }

  lemma DropKeepsOthers(reg: Registry, k: nat)
    requires k < |reg|
    ensures var reg' := reg[..k] + reg[k + 1..];
      && (forall x :: x in reg && x.id != reg[k].id ==> x in reg')
      && (forall x :: x in reg' ==> x in reg)
  {
    var reg' := reg[..k] + reg[k + 1..];
    DropIndex(reg, k);
    forall x | x in reg' ensures x in reg {
      var i :| 0 <= i < |reg'| && reg'[i] == x;
      assert reg[if i < k then i else i + 1] == x;
    }
    forall x | x in reg && x.id != reg[k].id ensures x in reg' {
      var i :| 0 <= i < |reg| && reg[i] == x;
      if i < k { assert reg'[i] == x; } else { assert i > k && reg'[i - 1] == x; }
    }
  }

  /** The positions of a list with one element dropped. */
  lemma DropIndex<T>(s: seq<T>, k: nat)
    requires k < |s|
    ensures var s' := s[..k] + s[k + 1..];
      && |s'| == |s| - 1
      && forall i :: 0 <= i < |s'| ==> s'[i] == s[if i < k then i else i + 1]
  {
  }

  // ---- the disk ----

  /** `open(path, 'w').write(content)`; a failing path raises before anything is written. */
  function Write(disk: Disk, path: string, content: string, failing: set<string>): (d: Disk)
    ensures path !in failing ==> d == disk[path := content]
    ensures path in failing ==> d == disk
  {
    if path in failing then disk else disk[path := content]
  }

  /** The two disks hold the same thing at `p`. */
  predicate Agree(a: Disk, b: Disk, p: string) {
    (p in a <==> p in b) && (p in a ==> a[p] == b[p])
  }

  /** The configuration file of one app: the app rendered on its own. */
  function OwnConfig(a: AppConfig, settings: Settings): string {
    Render(a, settings, Some([a]))
  }

  /** The loop of the post-save handler over the active apps: an empty path is
      skipped, a failed write is logged and the loop goes on. */
  function WriteAppFiles(apps: seq<AppConfig>, settings: Settings, disk: Disk, failing: set<string>): Disk
    decreases |apps|
  {
    if apps == [] then disk
    else
      var a := apps[0];
      var disk' := if a.configPath == "" then disk else Write(disk, a.configPath, OwnConfig(a, settings), failing);
      WriteAppFiles(apps[1..], settings, disk', failing)
  }

  /** The combined file: all active apps rendered with the first one's host and
      SSL flag. Nothing happens when no app is active; errors are swallowed. */
  function GlobalConfig(reg: Registry, settings: Settings, disk: Disk, failing: set<string>): (d: Disk)
    ensures forall p :: p != settings.globalConfigPath ==> Agree(d, disk, p)
    ensures disk.Keys <= d.Keys
    ensures ActiveApps(reg) == [] || settings.globalConfigPath in failing ==> d == disk
  {
    var act := ActiveApps(reg);
    if act == [] then disk
    else Write(disk, settings.globalConfigPath, Render(act[0], settings, Some(act)), failing)
  }

  /** `generate_nginx_config_on_save`, run over the registry after the save. */
  function PostSave(reg: Registry, settings: Settings, disk: Disk, failing: set<string>): (d: Disk)
    ensures disk.Keys <= d.Keys
    ensures ActiveApps(reg) == [] ==> d == disk
  {
    var act := ActiveApps(reg);
    if act == [] then disk
    else
      WriteAppFilesGrows(act, settings, disk, failing);
      GlobalConfig(reg, settings, WriteAppFiles(act, settings, disk, failing), failing)
  }

  /** `cleanup_nginx_config_on_delete`, run over the registry after the row is
      gone. A failing removal is caught by the same handler, so the combined
      file is then not regenerated. */
  function PostDelete(reg: Registry, removed: AppConfig, settings: Settings, disk: Disk, failing: set<string>): (d: Disk)
    ensures forall p :: p != settings.globalConfigPath && p != removed.configPath ==> Agree(d, disk, p)
    ensures var p := removed.configPath;
      p != "" && p !in failing && p != settings.globalConfigPath ==> p !in d
    ensures var p := removed.configPath;
      p != "" && p in disk && p in failing ==> d == disk
  {
    var p := removed.configPath;
    if p != "" && p in disk then
      if p in failing then disk else GlobalConfig(reg, settings, disk - {p}, failing)
    else
      GlobalConfig(reg, settings, disk, failing)
  }

  /** `regenerate_all_configs`: the combined file first, then each active app's
      own file with no error handling, so the first failing write (an empty
      path always fails) ends the run and is reported as `Some(path)`. */
  function RegenerateAll(reg: Registry, settings: Settings, disk: Disk, failing: set<string>): (r: (Option<string>, Disk))
    ensures r.0.Some? <==> exists a :: a in ActiveApps(reg) && (a.configPath == "" || a.configPath in failing)
    ensures r.0.Some? ==> r.0.value == "" || r.0.value in failing
    ensures ActiveApps(reg) == [] ==> r == (None, disk)
    ensures var act := ActiveApps(reg);
      act != [] && settings.globalConfigPath !in failing
      && (forall a :: a in act ==> a.configPath != settings.globalConfigPath) ==>
      settings.globalConfigPath in r.1 && r.1[settings.globalConfigPath] == Render(act[0], settings, Some(act))
  {
    RegenerateWritesCombined(reg, settings, disk, failing);
    WriteAllOrStopOutcome(ActiveApps(reg), settings, GlobalConfig(reg, settings, disk, failing), failing);
    WriteAllOrStop(ActiveApps(reg), settings, GlobalConfig(reg, settings, disk, failing), failing)
  }

  /** The combined file is written before any app's file, so no later failure undoes it. */
  lemma RegenerateWritesCombined(reg: Registry, settings: Settings, disk: Disk, failing: set<string>)
    ensures var act := ActiveApps(reg);
      act != [] && settings.globalConfigPath !in failing
      && (forall a :: a in act ==> a.configPath != settings.globalConfigPath) ==>
      var d := WriteAllOrStop(act, settings, GlobalConfig(reg, settings, disk, failing), failing).1;
      settings.globalConfigPath in d && d[settings.globalConfigPath] == Render(act[0], settings, Some(act))
  {
    var act := ActiveApps(reg);
    if act != [] && settings.globalConfigPath !in failing && (forall a :: a in act ==> a.configPath != settings.globalConfigPath) {
      WriteAllOrStopFrame(act, settings, GlobalConfig(reg, settings, disk, failing), failing, settings.globalConfigPath);
    }
  }

  function WriteAllOrStop(apps: seq<AppConfig>, settings: Settings, disk: Disk, failing: set<string>): (Option<string>, Disk)
    decreases |apps|
  {
    if apps == [] then (None, disk)
    else
      var a := apps[0];
      if a.configPath == "" || a.configPath in failing then (Some(a.configPath), disk)
      else WriteAllOrStop(apps[1..], settings, disk[a.configPath := OwnConfig(a, settings)], failing)
  }

  // ---- the mutating operations with their synchronisation ----

  /** Create a record and synchronise; a refused row touches no file, a
      stored one is followed by the post-save handler over the new registry. */
  function CreateAndSync(reg: Registry, rec: AppConfig, settings: Settings, disk: Disk, failing: set<string>)
    : (r: (Result<Registry, SaveError>, Disk))
    requires WellFormed(reg)
    ensures r.0 == Create(reg, rec, settings)
    ensures r.0.Err? ==> r.1 == disk
    ensures r.0.Ok? ==> r.1 == PostSave(r.0.value, settings, disk, failing)
  {
    var res := Create(reg, rec, settings);
    if res.Err? then (res, disk) else (res, PostSave(res.value, settings, disk, failing))
  }

  /** Update a record and synchronise; a refused row touches no file, a
      stored one is followed by the post-save handler over the new registry. */
  function UpdateAndSync(reg: Registry, rec: AppConfig, settings: Settings, disk: Disk, failing: set<string>)
    : (r: (Result<Registry, SaveError>, Disk))
    requires WellFormed(reg)
    ensures r.0 == Update(reg, rec, settings)
    ensures r.0.Err? ==> r.1 == disk
    ensures r.0.Ok? ==> r.1 == PostSave(r.0.value, settings, disk, failing)
  {
    var res := Update(reg, rec, settings);
    if res.Err? then (res, disk) else (res, PostSave(res.value, settings, disk, failing))
  }

  /** Delete a record and clean up; an unknown key touches no file, a removed
      row is followed by the post-delete handler over the remaining registry. */
  function DeleteAndSync(reg: Registry, id: nat, settings: Settings, disk: Disk, failing: set<string>)
    : (r: (Result<Registry, SaveError>, Disk))
    requires WellFormed(reg)
    ensures r.0.Err? <==> Remove(reg, id).Err?
    ensures r.0.Err? ==> r.0 == Err(NotFound) && r.1 == disk
    ensures r.0.Ok? ==> var (reg', removed) := Remove(reg, id).value;
      r.0.value == reg' && r.1 == PostDelete(reg', removed, settings, disk, failing)
  {
    match Remove(reg, id)
    case Err(e) => (Err(e), disk)
    case Ok((reg', removed)) => (Ok(reg'), PostDelete(reg', removed, settings, disk, failing))
  }

  // ---- properties of the per-app loop ----

  /** The loop touches only the non-empty paths of its apps. */
  lemma {:induction false} WriteAppFilesFrame(apps: seq<AppConfig>, settings: Settings, disk: Disk, failing: set<string>, p: string)
    requires forall a :: a in apps ==> a.configPath != p
    ensures Agree(WriteAppFiles(apps, settings, disk, failing), disk, p)
    ensures disk.Keys <= WriteAppFiles(apps, settings, disk, failing).Keys
    decreases |apps|
  {
    if apps != [] {
      var a := apps[0];
      var disk' := if a.configPath == "" then disk else Write(disk, a.configPath, OwnConfig(a, settings), failing);
      WriteAppFilesFrame(apps[1..], settings, disk', failing, p);
    }
  }

  /** The loop never removes a file. */
  lemma {:induction false} WriteAppFilesGrows(apps: seq<AppConfig>, settings: Settings, disk: Disk, failing: set<string>)
    ensures disk.Keys <= WriteAppFiles(apps, settings, disk, failing).Keys
    decreases |apps|
  {
    if apps != [] {
      var a := apps[0];
      var disk' := if a.configPath == "" then disk else Write(disk, a.configPath, OwnConfig(a, settings), failing);
      WriteAppFilesGrows(apps[1..], settings, disk', failing);
    }
  }

  /** An app whose path no other app in the loop shares, and whose write does
      not fail, ends up with exactly its own rendering. */
  lemma {:induction false} WriteAppFilesOwn(apps: seq<AppConfig>, i: nat, settings: Settings, disk: Disk, failing: set<string>)
    requires i < |apps|
    requires apps[i].configPath != "" && apps[i].configPath !in failing
    requires forall j :: 0 <= j < |apps| && j != i ==> apps[j].configPath != apps[i].configPath
    ensures var d := WriteAppFiles(apps, settings, disk, failing);
      apps[i].configPath in d && d[apps[i].configPath] == OwnConfig(apps[i], settings)
    decreases |apps|
  {
    var a := apps[0];
    var disk' := if a.configPath == "" then disk else Write(disk, a.configPath, OwnConfig(a, settings), failing);
    if i == 0 {
      assert forall b :: b in apps[1..] ==> b.configPath != a.configPath by {
        forall b | b in apps[1..] ensures b.configPath != a.configPath {
          var j :| 0 <= j < |apps[1..]| && apps[1..][j] == b;
          assert apps[j + 1] == b;
        }
      }
      WriteAppFilesFrame(apps[1..], settings, disk', failing, a.configPath);
    } else {
      assert apps[1..][i - 1] == apps[i];
      WriteAppFilesOwn(apps[1..], i - 1, settings, disk', failing);
    }
  }

  /** What a failing path does to the loop stays at that path: two runs that
      start in agreement at `p`, neither failing there, agree at `p` afterwards. */
  lemma {:induction false} WriteAppFilesIsolation(apps: seq<AppConfig>, settings: Settings, d1: Disk, f1: set<string>, d2: Disk, f2: set<string>, p: string)
    requires Agree(d1, d2, p) && p !in f1 && p !in f2
    ensures Agree(WriteAppFiles(apps, settings, d1, f1), WriteAppFiles(apps, settings, d2, f2), p)
    decreases |apps|
  {
    if apps != [] {
      var a := apps[0];
      var d1' := if a.configPath == "" then d1 else Write(d1, a.configPath, OwnConfig(a, settings), f1);
      var d2' := if a.configPath == "" then d2 else Write(d2, a.configPath, OwnConfig(a, settings), f2);
      WriteAppFilesIsolation(apps[1..], settings, d1', f1, d2', f2, p);
    }
  }

  /** The loop overwrites files and reads none: its effect on any disk is to
      lay over it what it would write onto an empty one. */
  lemma {:induction false} WriteAppFilesOverlay(apps: seq<AppConfig>, settings: Settings, disk: Disk, failing: set<string>)
    ensures WriteAppFiles(apps, settings, disk, failing) == disk + WriteAppFiles(apps, settings, map[], failing)
    decreases |apps|
  {
    if apps == [] {
      assert disk + map[] == disk;
    } else {
      var a := apps[0];
      var w: Disk := if a.configPath == "" then map[] else Write(map[], a.configPath, OwnConfig(a, settings), failing);
      var disk' := if a.configPath == "" then disk else Write(disk, a.configPath, OwnConfig(a, settings), failing);
      if a.configPath == "" {
        assert disk + map[] == disk;
      } else {
        WriteOverlay(disk, a.configPath, OwnConfig(a, settings), failing);
      }
      WriteAppFilesOverlay(apps[1..], settings, disk', failing);
      WriteAppFilesOverlay(apps[1..], settings, w, failing);
      OverlayAssoc(disk, w, WriteAppFiles(apps[1..], settings, map[], failing));
    }
  }

  /** One write is an overlay of the file it writes. */
  lemma WriteOverlay(disk: Disk, p: string, content: string, failing: set<string>)
    ensures Write(disk, p, content, failing) == disk + Write(map[], p, content, failing)
  {
    if p !in failing {
      assert disk[p := content] == disk + map[p := content];
    } else {
      assert disk + map[] == disk;
    }
  }

  lemma OverlayAssoc(a: Disk, b: Disk, c: Disk)
    ensures (a + b) + c == a + (b + c)
  {
  }

  lemma GlobalConfigOverlay(reg: Registry, settings: Settings, disk: Disk, failing: set<string>)
    ensures GlobalConfig(reg, settings, disk, failing) == disk + GlobalConfig(reg, settings, map[], failing)
  {
    if ActiveApps(reg) == [] {
      assert disk + map[] == disk;
    }
  }

  // ---- properties of the post-save handler ----

  /** With no active app the handler writes nothing, not even the combined file. */
  lemma PostSaveNoActive(reg: Registry, settings: Settings, disk: Disk, failing: set<string>)
    requires forall a :: a in reg ==> !a.isActive
    ensures PostSave(reg, settings, disk, failing) == disk
  {
  }

  /** Each active app with a path of its own (not shared with another active
      app nor with the combined file) and a working disk gets its own rendering. */
  lemma PostSaveAppFile(reg: Registry, i: nat, settings: Settings, disk: Disk, failing: set<string>)
    requires var act := ActiveApps(reg);
      && i < |act|
      && act[i].configPath != "" && act[i].configPath !in failing
      && act[i].configPath != settings.globalConfigPath
      && forall j :: 0 <= j < |act| && j != i ==> act[j].configPath != act[i].configPath
    ensures var act := ActiveApps(reg);
      var d := PostSave(reg, settings, disk, failing);
      act[i].configPath in d && d[act[i].configPath] == OwnConfig(act[i], settings)
  {
    var act := ActiveApps(reg);
    var w := WriteAppFiles(act, settings, disk, failing);
    WriteAppFilesOwn(act, i, settings, disk, failing);
    GlobalConfigFrame(reg, settings, w, failing, act[i].configPath);
  }

  /** The combined file is the only path `GlobalConfig` can touch. */
  lemma GlobalConfigFrame(reg: Registry, settings: Settings, disk: Disk, failing: set<string>, p: string)
    requires p != settings.globalConfigPath
    ensures Agree(GlobalConfig(reg, settings, disk, failing), disk, p)
  {
  }

  /** Whenever some app is active and the combined path can be written, the
      combined file is every active app rendered with the first one's settings. */
  lemma PostSaveGlobalFile(reg: Registry, settings: Settings, disk: Disk, failing: set<string>)
    requires ActiveApps(reg) != [] && settings.globalConfigPath !in failing
    ensures var act := ActiveApps(reg);
      var d := PostSave(reg, settings, disk, failing);
      settings.globalConfigPath in d && d[settings.globalConfigPath] == Render(act[0], settings, Some(act))
  {
  }

  /** The handler touches no path other than the active apps' own paths and
      the combined file, and removes nothing; in particular an inactive
      record's file is neither written nor removed. */
  lemma PostSaveFrame(reg: Registry, settings: Settings, disk: Disk, failing: set<string>, p: string)
    requires p != settings.globalConfigPath
    requires forall a :: a in reg && a.isActive ==> a.configPath != p
    ensures Agree(PostSave(reg, settings, disk, failing), disk, p)
    ensures disk.Keys <= PostSave(reg, settings, disk, failing).Keys
  {
    var act := ActiveApps(reg);
    if act != [] {
      WriteAppFilesFrame(act, settings, disk, failing, p);
    }
  }

  /** Failure isolation: at every path outside `failing` the handler leaves
      exactly what it would have left had no write failed. */
  lemma PostSaveIsolation(reg: Registry, settings: Settings, disk: Disk, failing: set<string>, p: string)
    requires p !in failing
    ensures Agree(PostSave(reg, settings, disk, failing), PostSave(reg, settings, disk, {}), p)
  {
    var act := ActiveApps(reg);
    if act != [] {
      WriteAppFilesIsolation(act, settings, disk, failing, disk, {}, p);
    }
  }

  /** Saving again with nothing changed rewrites the same contents. */
  lemma PostSaveIdempotent(reg: Registry, settings: Settings, disk: Disk, failing: set<string>)
    ensures var once := PostSave(reg, settings, disk, failing);
      PostSave(reg, settings, once, failing) == once
  {
    var act := ActiveApps(reg);
    if act != [] {
      var w := WriteAppFiles(act, settings, map[], failing);
      var g := GlobalConfig(reg, settings, map[], failing);
      WriteAppFilesOverlay(act, settings, disk, failing);
      GlobalConfigOverlay(reg, settings, disk + w, failing);
      var once := (disk + w) + g;
      WriteAppFilesOverlay(act, settings, once, failing);
      GlobalConfigOverlay(reg, settings, once + w, failing);
      OverlayTwice(disk, w, g);
    }
  }

  /** Laying two maps over a disk a second time changes nothing. */
  lemma OverlayTwice(disk: Disk, w: Disk, g: Disk)
    ensures (((disk + w) + g) + w) + g == (disk + w) + g
  {
  }

  /** A created active record is listed among the active ones exactly once. */
  lemma CreateListsOnce(reg: Registry, rec: AppConfig, settings: Settings)
    requires WellFormed(reg) && rec.isActive
    requires Create(reg, rec, settings).Ok?
    ensures var reg' := Create(reg, rec, settings).value;
      multiset(ActiveApps(reg'))[reg'[|reg|]] == 1
  {
    var reg' := Create(reg, rec, settings).value;
    var row := reg'[|reg|];
    assert reg' == reg + [row];
    assert row.isActive;
    AppendedListedOnce(reg, row);
  }

  /** A new active row whose key exceeds every other is listed once among the active ones. */
  lemma AppendedListedOnce(reg: Registry, row: AppConfig)
    requires row.isActive && forall x :: x in reg ==> x.id < row.id
    ensures multiset(ActiveApps(reg + [row]))[row] == 1
  {
    ActiveAppsAppend(reg, [row]);
    var act := ActiveApps(reg);
    forall x | x in act ensures x != row {
      assert x in reg;
    }
    assert multiset(act)[row] == 0;
    assert ActiveApps([row]) == [row] by {
      assert [row][1..] == [];
    }
    assert multiset(act + [row]) == multiset(act) + multiset{row};
  }

  // ---- the success paths of the synchronised operations ----

  /** Creating an active record whose path is writable and shared with no other
      active app: the stored row is listed among the active ones, its own file
      holds its rendering, and the combined file is rebuilt from every active
      app, the new one included. */
  lemma CreateAndSyncWritesRecord(reg: Registry, rec: AppConfig, settings: Settings, disk: Disk, failing: set<string>)
    requires WellFormed(reg) && rec.isActive && Create(reg, rec, settings).Ok?
    requires var p := WithDefaultPath(rec, settings.configDir).configPath;
      && p !in failing && p != settings.globalConfigPath
      && forall a :: a in reg && a.isActive ==> a.configPath != p
    requires settings.globalConfigPath !in failing
    ensures var (res, d) := CreateAndSync(reg, rec, settings, disk, failing);
      var row := res.value[|reg|];
      var act := ActiveApps(res.value);
      && row in act
      && row.configPath in d && d[row.configPath] == OwnConfig(row, settings)
      && settings.globalConfigPath in d && d[settings.globalConfigPath] == Render(act[0], settings, Some(act))
  {
    var reg' := Create(reg, rec, settings).value;
    var row := reg'[|reg|];
    assert reg' == reg + [row];
    ActiveAppsAppend(reg, [row]);
    assert ActiveApps([row]) == [row] by {
      assert [row][1..] == [];
    }
    var act := ActiveApps(reg');
    var i := |ActiveApps(reg)|;
    assert act[i] == row;
    forall j | 0 <= j < |act| && j != i ensures act[j].configPath != row.configPath {
      assert act[j] in ActiveApps(reg);
    }
    PostSaveAppFile(reg', i, settings, disk, failing);
    PostSaveGlobalFile(reg', settings, disk, failing);
  }

  /** Updating a record to an active one whose path is writable and shared
      with no other active app: the stored row is listed among the active
      ones, its own file holds its new rendering, and the combined file is
      rebuilt from every active app. */
  lemma UpdateAndSyncWritesRecord(reg: Registry, rec: AppConfig, settings: Settings, disk: Disk, failing: set<string>)
    requires WellFormed(reg) && rec.isActive && Update(reg, rec, settings).Ok?
    requires var p := WithDefaultPath(rec, settings.configDir).configPath;
      && p !in failing && p != settings.globalConfigPath
      && forall a :: a in reg && a.isActive && a.id != rec.id ==> a.configPath != p
    requires settings.globalConfigPath !in failing
    ensures var (res, d) := UpdateAndSync(reg, rec, settings, disk, failing);
      var row := WithDefaultPath(rec, settings.configDir);
      var act := ActiveApps(res.value);
      && row in act
      && row.configPath in d && d[row.configPath] == OwnConfig(row, settings)
      && settings.globalConfigPath in d && d[settings.globalConfigPath] == Render(act[0], settings, Some(act))
  {
    var reg' := Update(reg, rec, settings).value;
    var row := WithDefaultPath(rec, settings.configDir);
    UpdatedRows(reg, rec, settings);
    PostSaveWritesRow(reg', row, settings, disk, failing);
  }

  /** The rows after an update: the key still increases, the new row is
      stored, and every row keyed apart from it was there before. */
  lemma UpdatedRows(reg: Registry, rec: AppConfig, settings: Settings)
    requires WellFormed(reg) && Update(reg, rec, settings).Ok?
    ensures var reg' := Update(reg, rec, settings).value;
      && KeysIncrease(reg') && WithDefaultPath(rec, settings.configDir) in reg'
      && forall a :: a in reg' && a.id != rec.id ==> a in reg
  {
    var reg' := Update(reg, rec, settings).value;
    forall a | a in reg' && a.id != rec.id ensures a in reg {
      var k :| 0 <= k < |reg'| && reg'[k] == a;
      assert reg'[k] == reg[k];
    }
  }

  /** The post-save handler over a registry holding an active row whose path
      is writable and shared with no other active app: that row's file holds
      its rendering and the combined file is rebuilt from every active app. */
  lemma PostSaveWritesRow(reg: Registry, row: AppConfig, settings: Settings, disk: Disk, failing: set<string>)
    requires KeysIncrease(reg) && row in reg && row.isActive
    requires row.configPath != "" && row.configPath !in failing && row.configPath != settings.globalConfigPath
    requires forall a :: a in reg && a.isActive && a.id != row.id ==> a.configPath != row.configPath
    requires settings.globalConfigPath !in failing
    ensures var act := ActiveApps(reg);
      var d := PostSave(reg, settings, disk, failing);
      && row in act
      && row.configPath in d && d[row.configPath] == OwnConfig(row, settings)
      && settings.globalConfigPath in d && d[settings.globalConfigPath] == Render(act[0], settings, Some(act))
  {
    var act := ActiveApps(reg);
    var i :| 0 <= i < |act| && act[i] == row;
    ActiveKeysIncrease(reg);
    OthersByKey(act, i, row.configPath);
    PostSaveAppFile(reg, i, settings, disk, failing);
    PostSaveGlobalFile(reg, settings, disk, failing);
  }

  /** In a list with increasing keys, a property of every row keyed apart
      from row `i` holds at every other position. */
  lemma OthersByKey(act: seq<AppConfig>, i: nat, p: string)
    requires KeysIncrease(act) && i < |act|
    requires forall a :: a in act && a.id != act[i].id ==> a.configPath != p
    ensures forall j :: 0 <= j < |act| && j != i ==> act[j].configPath != p
  {
    forall j | 0 <= j < |act| && j != i ensures act[j].configPath != p {
      if j < i { assert act[j].id < act[i].id; } else { assert act[i].id < act[j].id; }
      assert act[j] in act;
    }
  }

  /** Deleting a record whose file can be removed while another app stays
      active: the row is gone, so is its file, and the combined file is
      rebuilt from the remaining active apps with no route to the deleted path. */
  lemma DeleteAndSyncForgetsRecord(reg: Registry, id: nat, settings: Settings, disk: Disk, failing: set<string>)
    requires WellFormed(reg) && settings.globalConfigPath !in failing
    requires exists x :: x in reg && x.id == id
    requires forall x :: x in reg && x.id == id ==>
      x.configPath !in failing && x.configPath != settings.globalConfigPath
    requires exists x :: x in reg && x.id != id && x.isActive
    ensures var (res, d) := DeleteAndSync(reg, id, settings, disk, failing);
      && res.Ok? && |res.value| == |reg| - 1
      && (forall x :: x in res.value ==> x in reg && x.id != id)
      && var act := ActiveApps(res.value);
         && act != []
         && settings.globalConfigPath in d && d[settings.globalConfigPath] == Render(act[0], settings, Some(act))
         && forall x :: x in reg && x.id == id ==>
              && (x.configPath != "" ==> x.configPath !in d)
              && NoProxyTo(RenderNodes(act[0], settings, Some(act)), x.path)
  {
    var (reg', removed) := Remove(reg, id).value;
    forall x | x in reg && x.id == id ensures x == removed {
      SameKeySameRow(reg, x, removed);
    }
    forall x | x in reg' ensures x.id != id {
      if x.id == id {
        SameKeySameRow(reg, x, removed);
      }
    }
    var y :| y in reg && y.id != id && y.isActive;
    assert y in reg' && y in ActiveApps(reg');
    DeleteForgetsRoute(reg, id, settings, disk, failing);
    if removed.configPath != "" {
      PostDeleteRemovesFile(reg', removed, settings, disk, failing);
    }
  }

  /** In a well-formed registry the key determines the row. */
  lemma SameKeySameRow(reg: Registry, a: AppConfig, b: AppConfig)
    requires WellFormed(reg) && a in reg && b in reg && a.id == b.id
    ensures a == b
  {
    var x :| 0 <= x < |reg| && reg[x] == a;
    var y :| 0 <= y < |reg| && reg[y] == b;
    assert reg[x].id == reg[y].id;
    assert x == y;
  }

  /** Keys increase along the list. */
  predicate KeysIncrease(apps: seq<AppConfig>) {
    forall i, j :: 0 <= i < j < |apps| ==> apps[i].id < apps[j].id
  }

  /** The active rows of a list with increasing keys keep them increasing. */
  lemma {:induction false} ActiveKeysIncrease(apps: seq<AppConfig>)
    requires KeysIncrease(apps)
    ensures KeysIncrease(ActiveApps(apps))
    decreases |apps|
  {
    if apps != [] {
      var rest := apps[1..];
      KeysIncreaseTail(apps);
      ActiveKeysIncrease(rest);
      var tail := ActiveApps(rest);
      if apps[0].isActive {
        assert ActiveApps(apps) == [apps[0]] + tail;
        KeysIncreaseCons(apps[0], tail);
      } else {
        assert ActiveApps(apps) == tail;
      }
    }
  }

  /** Dropping the head of a list with increasing keys keeps them increasing,
      all above the head's. */
  lemma KeysIncreaseTail(apps: seq<AppConfig>)
    requires KeysIncrease(apps) && apps != []
    ensures KeysIncrease(apps[1..]) && forall a :: a in apps[1..] ==> apps[0].id < a.id
  {
    var rest := apps[1..];
    forall i, j | 0 <= i < j < |rest| ensures rest[i].id < rest[j].id {
      assert rest[i] == apps[i + 1] && rest[j] == apps[j + 1];
    }
    forall a | a in rest ensures apps[0].id < a.id {
      var k :| 0 <= k < |rest| && rest[k] == a;
      assert apps[k + 1] == a;
    }
  }

  /** A key below every key of a list with increasing keys can head it. */
  lemma KeysIncreaseCons(x: AppConfig, tail: seq<AppConfig>)
    requires KeysIncrease(tail) && forall a :: a in tail ==> x.id < a.id
    ensures KeysIncrease([x] + tail)
  {
    var act := [x] + tail;
    forall i, j | 0 <= i < j < |act| ensures act[i].id < act[j].id {
      assert act[j] == tail[j - 1];
      if i == 0 {
        assert tail[j - 1] in tail;
      } else {
        assert act[i] == tail[i - 1];
      }
    }
  }

  // ---- properties of the post-delete handler ----

  /** A removable file of the deleted record is gone afterwards (unless it is
      the combined file, which is then rewritten). */
  lemma PostDeleteRemovesFile(reg: Registry, removed: AppConfig, settings: Settings, disk: Disk, failing: set<string>)
    requires removed.configPath != "" && removed.configPath !in failing
    requires removed.configPath != settings.globalConfigPath
    ensures removed.configPath !in PostDelete(reg, removed, settings, disk, failing)
  {
  }

  /** A failing removal leaves every file, the combined one included, as it was. */
  lemma PostDeleteRemoveFails(reg: Registry, removed: AppConfig, settings: Settings, disk: Disk, failing: set<string>)
    requires removed.configPath != "" && removed.configPath in disk && removed.configPath in failing
    ensures PostDelete(reg, removed, settings, disk, failing) == disk
  {
  }

  /** Deleting the last active record leaves the previous combined file in place. */
  lemma PostDeleteLastActiveLeavesStale(reg: Registry, removed: AppConfig, settings: Settings, disk: Disk, failing: set<string>)
    requires forall a :: a in reg ==> !a.isActive
    requires removed.configPath != settings.globalConfigPath
    ensures Agree(PostDelete(reg, removed, settings, disk, failing), disk, settings.globalConfigPath)
  {
  }

  /** After deleting a record from a well-formed registry, the regenerated
      combined file is the remaining active apps rendered together, and none
      of its locations proxies the deleted record's path. */
  lemma DeleteForgetsRoute(reg: Registry, id: nat, settings: Settings, disk: Disk, failing: set<string>)
    requires WellFormed(reg) && Remove(reg, id).Ok?
    requires settings.globalConfigPath !in failing
    requires var (reg', removed) := Remove(reg, id).value;
      ActiveApps(reg') != [] && (removed.configPath in disk ==> removed.configPath !in failing)
    ensures var (reg', removed) := Remove(reg, id).value;
      var act := ActiveApps(reg');
      var d := PostDelete(reg', removed, settings, disk, failing);
      && settings.globalConfigPath in d
      && d[settings.globalConfigPath] == Render(act[0], settings, Some(act))
      && NoProxyTo(RenderNodes(act[0], settings, Some(act)), removed.path)
  {
    var (reg', removed) := Remove(reg, id).value;
    var act := ActiveApps(reg');
    PostDeleteGlobalFile(reg', removed, settings, disk, failing);
    forall a | a in ActiveApps(act) ensures a.path != removed.path {
      assert a in reg' && a in reg && a != removed;
      DistinctPaths(reg, a, removed);
    }
    RenderedProxies(act[0], settings, act, removed.path);
  }

  /** Two different rows of a well-formed registry serve different paths. */
  lemma DistinctPaths(reg: Registry, a: AppConfig, b: AppConfig)
    requires WellFormed(reg) && a in reg && b in reg && a != b
    ensures a.path != b.path
  {
    var x :| 0 <= x < |reg| && reg[x] == a;
    var y :| 0 <= y < |reg| && reg[y] == b;
    assert x != y;
    if x < y { assert reg[x].path != reg[y].path; } else { assert reg[y].path != reg[x].path; }
  }

  /** A delete whose removal does not fail rewrites the combined file from the
      remaining active apps, when there are any. */
  lemma PostDeleteGlobalFile(reg: Registry, removed: AppConfig, settings: Settings, disk: Disk, failing: set<string>)
    requires ActiveApps(reg) != [] && settings.globalConfigPath !in failing
    requires removed.configPath in disk ==> removed.configPath !in failing
    ensures var act := ActiveApps(reg);
      var d := PostDelete(reg, removed, settings, disk, failing);
      settings.globalConfigPath in d && d[settings.globalConfigPath] == Render(act[0], settings, Some(act))
  {
    var p := removed.configPath;
    var base := if p != "" && p in disk then disk - {p} else disk;
    assert PostDelete(reg, removed, settings, disk, failing) == GlobalConfig(reg, settings, base, failing);
  }

  /** No location of `nodes` that proxies is the route of `path`. */
  predicate NoProxyTo(nodes: seq<Node>, path: string) {
    var locs := LocationsIn(nodes);
    forall j :: 0 <= j < |locs| && Lookup(locs[j].body, "proxy_pass").Some? ==>
      locs[j].args != ["/" + path + "/"]
  }

  /** The only proxying locations of a rendering are the routes of its active apps. */
  lemma RenderedProxies(self: AppConfig, settings: Settings, apps: seq<AppConfig>, path: string)
    requires forall a :: a in ActiveApps(apps) ==> a.path != path
    ensures NoProxyTo(RenderNodes(self, settings, Some(apps)), path)
  {
    var locs := LocationsIn(RenderNodes(self, settings, Some(apps)));
    RenderedLocations(self, settings, apps);
    ShapedNoProxy(locs, ActiveApps(apps), path);
  }

  /** Locations laid out as three per app followed by the dot-file rule. */
  predicate Shaped(locs: seq<Node>, act: seq<AppConfig>) {
    && |locs| == 3 * |act| + 1
    && (forall i :: 0 <= i < |act| ==> ServesApp(locs[3 * i], locs[3 * i + 1], locs[3 * i + 2], View(act[i])))
    && DeniesDotFiles(locs[3 * |act|])
  }

  lemma ShapedNoProxy(locs: seq<Node>, act: seq<AppConfig>, path: string)
    requires Shaped(locs, act)
    requires forall k :: 0 <= k < |locs| ==> IsLocation(locs[k])
    requires forall a :: a in act ==> a.path != path
    ensures forall j :: 0 <= j < |locs| && locs[j].Block? && Lookup(locs[j].body, "proxy_pass").Some? ==>
      locs[j].args != ["/" + path + "/"]
  {
    forall j | 0 <= j < |locs| && locs[j].Block? && Lookup(locs[j].body, "proxy_pass").Some?
      ensures locs[j].args != ["/" + path + "/"]
    {
      if j < 3 * |act| {
        ShapedProxyAt(locs, act, j);
        assert act[j / 3] in act;
        SlashedDiffers(act[j / 3].path, path);
      }
    }
  }

  /** In a shaped list, a proxying location before the deny rule is the first of its app's three. */
  lemma ShapedProxyAt(locs: seq<Node>, act: seq<AppConfig>, j: nat)
    requires Shaped(locs, act)
    requires j < 3 * |act|
    requires locs[j].Block? && Lookup(locs[j].body, "proxy_pass").Some?
    ensures j / 3 < |act| && locs[j].args == ["/" + act[j / 3].path + "/"]
  {
    var i := j / 3;
    assert 3 * i <= j < 3 * i + 3;
    assert ServesApp(locs[3 * i], locs[3 * i + 1], locs[3 * i + 2], View(act[i]));
    assert j != 3 * i + 1 && j != 3 * i + 2;
  }

  lemma SlashedDiffers(a: string, b: string)
    requires a != b
    ensures ["/" + a + "/"] != ["/" + b + "/"]
  {
    var sa, sb := "/" + a + "/", "/" + b + "/";
    assert sa[1..|sa| - 1] == a;
    assert sb[1..|sb| - 1] == b;
    assert [sa][0] == sa;
  }

  // ---- properties of regenerate_all_configs ----

  lemma {:induction false} WriteAllOrStopOverlay(apps: seq<AppConfig>, settings: Settings, disk: Disk, failing: set<string>)
    ensures var (o, d) := WriteAllOrStop(apps, settings, disk, failing);
      var (o0, d0) := WriteAllOrStop(apps, settings, map[], failing);
      o == o0 && d == disk + d0
    decreases |apps|
  {
    if apps == [] {
      assert disk + map[] == disk;
    } else {
      var a := apps[0];
      if !(a.configPath == "" || a.configPath in failing) {
        var w := map[a.configPath := OwnConfig(a, settings)];
        assert disk[a.configPath := OwnConfig(a, settings)] == disk + w;
        assert map[][a.configPath := OwnConfig(a, settings)] == w;
        WriteAllOrStopOverlay(apps[1..], settings, disk + w, failing);
        WriteAllOrStopOverlay(apps[1..], settings, w, failing);
        var rest := WriteAllOrStop(apps[1..], settings, map[], failing).1;
        assert (disk + w) + rest == disk + (w + rest);
      } else {
        assert disk + map[] == disk;
      }
    }
  }

  /** The run stops exactly when some active app has an empty or failing path. */
  lemma {:induction false} WriteAllOrStopOutcome(apps: seq<AppConfig>, settings: Settings, disk: Disk, failing: set<string>)
    ensures var (o, _) := WriteAllOrStop(apps, settings, disk, failing);
      o.Some? <==> exists a :: a in apps && (a.configPath == "" || a.configPath in failing)
    ensures var (o, _) := WriteAllOrStop(apps, settings, disk, failing);
      o.Some? ==> o.value == "" || o.value in failing
    decreases |apps|
  {
    if apps != [] {
      var a := apps[0];
      if !(a.configPath == "" || a.configPath in failing) {
        WriteAllOrStopOutcome(apps[1..], settings, disk[a.configPath := OwnConfig(a, settings)], failing);
        assert forall b :: b in apps ==> b == a || b in apps[1..];
      }
    }
  }

  /** Regenerating twice with no registry change leaves the same files as once. */
  lemma RegenerateIdempotent(reg: Registry, settings: Settings, disk: Disk, failing: set<string>)
    ensures var once := RegenerateAll(reg, settings, disk, failing);
      RegenerateAll(reg, settings, once.1, failing) == once
  {
    var act := ActiveApps(reg);
    var g := GlobalConfig(reg, settings, map[], failing);
    var w := WriteAllOrStop(act, settings, map[], failing).1;
    GlobalConfigOverlay(reg, settings, disk, failing);
    WriteAllOrStopOverlay(act, settings, disk + g, failing);
    var once := (disk + g) + w;
    GlobalConfigOverlay(reg, settings, once, failing);
    WriteAllOrStopOverlay(act, settings, once + g, failing);
    OverlayTwice(disk, g, w);
  }

  /** A run with no failing path reports success and leaves every active app
      whose path is its own with its own rendering. */
  lemma RegenerateWritesEveryApp(reg: Registry, i: nat, settings: Settings, disk: Disk, failing: set<string>)
    requires var act := ActiveApps(reg);
      && i < |act|
      && (forall a :: a in act ==> a.configPath != "" && a.configPath !in failing)
      && forall j :: 0 <= j < |act| && j != i ==> act[j].configPath != act[i].configPath
    ensures var act := ActiveApps(reg);
      var (o, d) := RegenerateAll(reg, settings, disk, failing);
      o.None? && act[i].configPath in d && d[act[i].configPath] == OwnConfig(act[i], settings)
  {
    var act := ActiveApps(reg);
    var g := GlobalConfig(reg, settings, disk, failing);
    WriteAllOrStopOutcome(act, settings, g, failing);
    WriteAllOrStopOwn(act, i, settings, g, failing);
  }

  lemma {:induction false} WriteAllOrStopOwn(apps: seq<AppConfig>, i: nat, settings: Settings, disk: Disk, failing: set<string>)
    requires i < |apps|
    requires forall a :: a in apps ==> a.configPath != "" && a.configPath !in failing
    requires forall j :: 0 <= j < |apps| && j != i ==> apps[j].configPath != apps[i].configPath
    ensures var d := WriteAllOrStop(apps, settings, disk, failing).1;
      apps[i].configPath in d && d[apps[i].configPath] == OwnConfig(apps[i], settings)
    decreases |apps|
  {
    var a := apps[0];
    var disk' := disk[a.configPath := OwnConfig(a, settings)];
    WriteAllOrStopStep(apps, settings, disk, failing);
    if i == 0 {
      WriteAllOrStopFirst(apps, settings, disk, failing);
    } else {
      TailKeepsDistinct(apps, i);
      WriteAllOrStopOwn(apps[1..], i - 1, settings, disk', failing);
    }
  }

  /** The first app's file, once written, is left alone by the apps after it. */
  lemma WriteAllOrStopFirst(apps: seq<AppConfig>, settings: Settings, disk: Disk, failing: set<string>)
    requires apps != []
    requires forall a :: a in apps ==> a.configPath != "" && a.configPath !in failing
    requires forall j :: 0 < j < |apps| ==> apps[j].configPath != apps[0].configPath
    ensures var d := WriteAllOrStop(apps, settings, disk, failing).1;
      apps[0].configPath in d && d[apps[0].configPath] == OwnConfig(apps[0], settings)
  {
    var disk' := disk[apps[0].configPath := OwnConfig(apps[0], settings)];
    WriteAllOrStopStep(apps, settings, disk, failing);
    TailPathsDiffer(apps);
    WriteAllOrStopFrame(apps[1..], settings, disk', failing, apps[0].configPath);
  }

  /** One step of the write loop over an app whose path is usable. */
  lemma WriteAllOrStopStep(apps: seq<AppConfig>, settings: Settings, disk: Disk, failing: set<string>)
    requires apps != []
    requires forall a :: a in apps ==> a.configPath != "" && a.configPath !in failing
    ensures WriteAllOrStop(apps, settings, disk, failing)
      == WriteAllOrStop(apps[1..], settings, disk[apps[0].configPath := OwnConfig(apps[0], settings)], failing)
    ensures forall b :: b in apps[1..] ==> b.configPath != "" && b.configPath !in failing
  {
    assert apps[0] in apps;
    assert forall b :: b in apps[1..] ==> b in apps;
  }

  /** Distinct paths around position `i` stay distinct around `i - 1` in the tail. */
  lemma TailKeepsDistinct(apps: seq<AppConfig>, i: nat)
    requires 0 < i < |apps|
    requires forall j :: 0 <= j < |apps| && j != i ==> apps[j].configPath != apps[i].configPath
    ensures apps[1..][i - 1] == apps[i]
    ensures forall j :: 0 <= j < |apps[1..]| && j != i - 1 ==> apps[1..][j].configPath != apps[1..][i - 1].configPath
  {
    forall j | 0 <= j < |apps[1..]| && j != i - 1 ensures apps[1..][j].configPath != apps[1..][i - 1].configPath {
      assert apps[1..][j] == apps[j + 1];
    }
  }

  /** When the first app's path differs from every other's, no later app writes it. */
  lemma TailPathsDiffer(apps: seq<AppConfig>)
    requires |apps| > 0
    requires forall j :: 0 < j < |apps| ==> apps[j].configPath != apps[0].configPath
    ensures forall b :: b in apps[1..] ==> b.configPath != apps[0].configPath
  {
    forall b | b in apps[1..] ensures b.configPath != apps[0].configPath {
      var j :| 0 <= j < |apps[1..]| && apps[1..][j] == b;
      assert apps[j + 1] == b;
    }
  }

  lemma {:induction false} WriteAllOrStopFrame(apps: seq<AppConfig>, settings: Settings, disk: Disk, failing: set<string>, p: string)
    requires forall a :: a in apps ==> a.configPath != p
    ensures Agree(WriteAllOrStop(apps, settings, disk, failing).1, disk, p)
    decreases |apps|
  {
    if apps != [] {
      var a := apps[0];
      if !(a.configPath == "" || a.configPath in failing) {
        WriteAllOrStopFrame(apps[1..], settings, disk[a.configPath := OwnConfig(a, settings)], failing, p);
      }
    }
  }

  /** Unlike the post-save handler, the run stops at the first failing app:
      a later app's file is left untouched. */
  lemma RegenerateStopsAtFailure(reg: Registry, k: nat, settings: Settings, disk: Disk, failing: set<string>, p: string)
    requires var act := ActiveApps(reg);
      && k < |act| && (act[k].configPath == "" || act[k].configPath in failing)
      && p != settings.globalConfigPath
      && forall j :: 0 <= j <= k ==> act[j].configPath != p
    ensures Agree(RegenerateAll(reg, settings, disk, failing).1, disk, p)
  {
    var act := ActiveApps(reg);
    WriteAllOrStopPrefix(act, k, settings, GlobalConfig(reg, settings, disk, failing), failing, p);
  }

  lemma {:induction false} WriteAllOrStopPrefix(apps: seq<AppConfig>, k: nat, settings: Settings, disk: Disk, failing: set<string>, p: string)
    requires k < |apps| && (apps[k].configPath == "" || apps[k].configPath in failing)
    requires forall j :: 0 <= j <= k ==> apps[j].configPath != p
    ensures Agree(WriteAllOrStop(apps, settings, disk, failing).1, disk, p)
    decreases |apps|
  {
    var a := apps[0];
    if k > 0 && !(a.configPath == "" || a.configPath in failing) {
      assert apps[1..][k - 1] == apps[k];
      WriteAllOrStopPrefix(apps[1..], k - 1, settings, disk[a.configPath := OwnConfig(a, settings)], failing, p);
    }
  }
}

=== FILE: text.dfy ===
/** Python string primitives the rest of the model is written in terms of:
    `strip`, `startswith`, `in`, `split(ch, 1)[0]`, `lower`, `os.path.join`,
    `str(int)` and `int(str)`. */
module Text {
  import opened Wrappers

  /** Every character of `t` is one of `cs`. */
  predicate AllIn(t: string, cs: set<char>) {
    forall i :: 0 <= i < |t| ==> t[i] in cs
  }

  /** Neither end of `t` is one of `cs` (vacuously true of the empty string). */
  predicate Unpadded(t: string, cs: set<char>) {
    t == [] || (t[0] !in cs && t[|t| - 1] !in cs)
  }

  /** Python's `s.startswith(p)`. */
  predicate StartsWith(s: string, p: string) {
    p <= s
  }

  /** Python's `s.endswith(p)`. */
  predicate EndsWith(s: string, p: string) {
    |p| <= |s| && s[|s| - |p|..] == p
  }

  /** Python's `t in s` on strings: `t` occurs somewhere in `s`. */
  predicate Contains(s: string, t: string) {
    exists i :: 0 <= i <= |s| - |t| && t <= s[i..]
  }

  /** `s.lstrip(cs)`: the longest suffix of `s` that does not start with a character of `cs`. */
  function StripLeft(s: string, cs: set<char>): (r: string)
    ensures |r| <= |s| && r == s[|s| - |r|..]
    ensures AllIn(s[..|s| - |r|], cs)
    ensures r == [] || r[0] !in cs
    decreases |s|
  {
    if |s| > 0 && s[0] in cs then
      var r := StripLeft(s[1..], cs);
      assert s[..|s| - |r|] == [s[0]] + s[1..][..|s| - 1 - |r|];
      r
    else
      s
  }

  /** `s.rstrip(cs)`: the longest prefix of `s` that does not end with a character of `cs`. */
  function StripRight(s: string, cs: set<char>): (r: string)
    ensures |r| <= |s| && r == s[..|r|]
    ensures AllIn(s[|r|..], cs)
    ensures r == [] || r[|r| - 1] !in cs
    decreases |s|
  {
    if |s| > 0 && s[|s| - 1] in cs then
      var r := StripRight(s[..|s| - 1], cs);
      assert s[|r|..] == s[..|s| - 1][|r|..] + [s[|s| - 1]];
      r
    else
      s
  }

  /** Python's `s.strip(cs)`: cut every character of `cs` from both ends. */
  function Strip(s: string, cs: set<char>): (r: string)
    ensures |r| <= |s|
    ensures Unpadded(r, cs)
  {
    var l := StripLeft(s, cs);
    var r := StripRight(l, cs);
    assert r == [] || r[0] == l[0];
    r
  }

  /** A string is its stripped core between two runs of `cs`. */
  lemma StripParts(s: string, cs: set<char>) returns (pre: string, post: string)
    ensures s == pre + Strip(s, cs) + post
    ensures AllIn(pre, cs) && AllIn(post, cs)
  {
    var l := StripLeft(s, cs);
    var r := StripRight(l, cs);
    pre := LeftPart(s, cs);
    post := RightPart(l, cs);
    assert Strip(s, cs) == r;
    Assoc(pre, r, post);
  }

  lemma Assoc(a: string, b: string, c: string)
    ensures a + (b + c) == a + b + c
  {
  }

  lemma LeftPart(s: string, cs: set<char>) returns (pre: string)
    ensures s == pre + StripLeft(s, cs) && AllIn(pre, cs)
  {
    var l := StripLeft(s, cs);
    pre := s[..|s| - |l|];
    assert l == s[|s| - |l|..];
  }

  lemma RightPart(l: string, cs: set<char>) returns (post: string)
    ensures l == StripRight(l, cs) + post && AllIn(post, cs)
  {
    var r := StripRight(l, cs);
    post := l[|r|..];
    assert r == l[..|r|];
  }

  lemma {:induction false} StripLeftOfPadded(p: string, t: string, cs: set<char>)
    requires AllIn(p, cs) && (t == [] || t[0] !in cs)
    ensures StripLeft(p + t, cs) == t
    decreases |p|
  {
    if p != [] {
      assert (p + t)[1..] == p[1..] + t;
      StripLeftOfPadded(p[1..], t, cs);
    }
  }

  lemma {:induction false} StripRightOfPadded(t: string, q: string, cs: set<char>)
    requires AllIn(q, cs) && (t == [] || t[|t| - 1] !in cs)
    ensures StripRight(t + q, cs) == t
    decreases |q|
  {
    if q != [] {
      assert (t + q)[..|t + q| - 1] == t + q[..|q| - 1];
      StripRightOfPadded(t, q[..|q| - 1], cs);
    }
  }

  /** The stripped string is determined by the padding it is cut from: whatever
      runs of `cs` surround an unpadded core, stripping yields exactly that core. */
  lemma StripOfPadded(p: string, m: string, q: string, cs: set<char>)
    requires AllIn(p, cs) && AllIn(q, cs) && Unpadded(m, cs)
    ensures Strip(p + m + q, cs) == m
  {
    if m == [] {
      assert p + m + q == p + q + [];
      assert AllIn(p + q, cs);
      StripLeftOfPadded(p + q, [], cs);
    } else {
      assert p + m + q == p + (m + q);
      StripLeftOfPadded(p, m + q, cs);
      StripRightOfPadded(m, q, cs);
    }
  }

  /** Extra runs of `cs` around a string do not change what stripping it yields. */
  lemma StripIgnoresPadding(p: string, s: string, q: string, cs: set<char>)
    requires AllIn(p, cs) && AllIn(q, cs)
    ensures Strip(p + s + q, cs) == Strip(s, cs)
  {
    var m := Strip(s, cs);
    var pre, post := StripParts(s, cs);
    Regroup(p, pre, m, post, q);
    AllInAppend(p, pre, cs);
    AllInAppend(post, q, cs);
    StripOfPadded(p + pre, m, post + q, cs);
  }

  lemma Regroup(p: string, a: string, m: string, b: string, q: string)
    ensures p + (a + m + b) + q == (p + a) + m + (b + q)
  {
  }

  lemma AllInExcludes(t: string, cs: set<char>, c: char)
    requires AllIn(t, cs) && c !in cs
    ensures c !in t
  {
  }

  lemma AllInAppend(a: string, b: string, cs: set<char>)
    requires AllIn(a, cs) && AllIn(b, cs)
    ensures AllIn(a + b, cs)
  {
    assert forall i :: 0 <= i < |a + b| ==> (a + b)[i] == if i < |a| then a[i] else b[i - |a|];
  }

  /** Stripping only removes characters: one absent from `s` is absent from the result. */
  lemma StripKeepsOut(s: string, cs: set<char>, c: char)
    requires c !in s
    ensures c !in Strip(s, cs)
  {
    var pre, post := StripParts(s, cs);
  }

  /** `(m + q).strip()` of an unpadded `m` followed by whitespace is `m`. */
  lemma TrimTrailing(m: string, q: string)
    requires Unpadded(m, Whitespace) && AllIn(q, Whitespace)
    ensures Trim(m + q) == m
  {
    assert [] + m + q == m + q;
    StripOfPadded([], m, q, Whitespace);
  }

  /** Stripping twice is stripping once. */
  lemma StripIdempotent(s: string, cs: set<char>)
    ensures Strip(Strip(s, cs), cs) == Strip(s, cs)
  {
    StripUnpadded(Strip(s, cs), cs);
  }

  /** A string with nothing to strip at either end is left as it is. */
  lemma StripUnpadded(m: string, cs: set<char>)
    requires Unpadded(m, cs)
    ensures Strip(m, cs) == m
  {
    assert StripLeft(m, cs) == m;
    assert StripRight(m, cs) == m;
  }

  /** The characters Python's `str.isspace` accepts, which `str.strip()` removes. */
  const Whitespace: set<char> := {
    '\t', '\n', '\U{0B}', '\U{0C}', '\r', '\U{1C}', '\U{1D}', '\U{1E}', '\U{1F}', ' ',
    '\U{85}', '\U{A0}', '\U{1680}', '\U{2000}', '\U{2001}', '\U{2002}', '\U{2003}',
    '\U{2004}', '\U{2005}', '\U{2006}', '\U{2007}', '\U{2008}', '\U{2009}', '\U{200A}',
    '\U{2028}', '\U{2029}', '\U{202F}', '\U{205F}', '\U{3000}'
  }

  /** Python's `s.strip()` with no argument. */
  function Trim(s: string): string {
    Strip(s, Whitespace)
  }

  /** Python's `s.split(ch, 1)[0]`: everything before the first `ch`, or all of `s`. */
  function BeforeFirst(s: string, ch: char): (r: string)
    ensures r <= s
    ensures ch !in r
    ensures |r| < |s| ==> s[|r|] == ch
  {
    if s == [] || s[0] == ch then [] else [s[0]] + BeforeFirst(s[1..], ch)
  }

  /** ASCII lower-casing of one character. */
  function LowerChar(c: char): char {
    if 'A' <= c <= 'Z' then (c as int - 'A' as int + 'a' as int) as char else c
  }

  /** ASCII lower-casing of a string. */
  function Lower(s: string): (r: string)
    ensures |r| == |s|
    ensures forall i :: 0 <= i < |s| ==> r[i] == LowerChar(s[i])
  {
    seq(|s|, i requires 0 <= i < |s| => LowerChar(s[i]))
  }

  /** A path is absolute when it starts with `/`. */
  predicate Absolute(p: string) {
    |p| > 0 && p[0] == '/'
  }

  /** `os.path.join(a, b)` on POSIX: an absolute `b` replaces `a`; otherwise `b`
      is appended to `a`, with one `/` inserted unless `a` is empty or already ends in one. */
  function PathJoin(a: string, b: string): (r: string)
    ensures EndsWith(r, b)
    ensures Absolute(b) ==> r == b
    ensures !Absolute(b) ==> a <= r && (r[|a|..] == b || r[|a|..] == "/" + b)
    ensures !Absolute(b) && a != [] && a[|a| - 1] != '/' ==> r[|a|..] == "/" + b
  {
    if Absolute(b) then b
    else if a == [] || a[|a| - 1] == '/' then a + b
    else a + "/" + b
  }

  // ---- identifiers ----

  predicate IsLetter(c: char) {
    'A' <= c <= 'Z' || 'a' <= c <= 'z'
  }

  /** Python's `str.isidentifier` on ASCII: a letter or `_`, then letters, digits or `_`. */
  predicate IsIdentifier(s: string) {
    && |s| > 0
    && (IsLetter(s[0]) || s[0] == '_')
    && forall i :: 0 < i < |s| ==> IsLetter(s[i]) || IsDigit(s[i]) || s[i] == '_'
  }

  /** An identifier holds no `=`, space or `-`, and does not start with `#`. */
  lemma IdentifierChars(s: string)
    requires IsIdentifier(s)
    ensures '=' !in s && ' ' !in s && '-' !in s && '\n' !in s && '#' != s[0]
  {
  }

  /** An identifier has no surrounding whitespace, so stripping keeps it whole. */
  lemma IdentifierTrimmed(s: string)
    requires IsIdentifier(s)
    ensures Unpadded(s, Whitespace) && Trim(s) == s
  {
    assert [] + s + [] == s;
    StripOfPadded([], s, [], Whitespace);
  }

  // ---- decimal integers ----

  predicate IsDigit(c: char) {
    '0' <= c <= '9'
  }

  predicate AllDigits(s: string) {
    forall i :: 0 <= i < |s| ==> IsDigit(s[i])
  }

  function DigitChar(d: nat): (c: char)
    requires d < 10
    ensures IsDigit(c) && c as int - '0' as int == d
  {
    ('0' as int + d) as char
  }

  /** The value of a string of decimal digits (leading zeros allowed). */
  function DigitsValue(s: string): nat
    requires AllDigits(s)
  {
    if s == [] then 0 else DigitsValue(s[..|s| - 1]) * 10 + (s[|s| - 1] as int - '0' as int)
  }

  /** Python's `str(n)` for a natural number: canonical decimal, no leading zero. */
  function NatToString(n: nat): (r: string)
    ensures |r| > 0 && AllDigits(r)
    ensures |r| > 1 ==> r[0] != '0'
    decreases n
  {
    if n < 10 then [DigitChar(n)] else NatToString(n / 10) + [DigitChar(n % 10)]
  }

  /** Python's `str(i)` for an integer. */
  function IntToString(i: int): (r: string)
    ensures |r| > 0 && IsDigit(r[|r| - 1])
    ensures r[0] == '-' <==> i < 0
  {
    if i < 0 then "-" + NatToString(-i) else NatToString(i)
  }

  /** Python's `int(s)` on a string: surrounding whitespace, then an optional
      sign, then one or more ASCII digits; anything else is a `ValueError` (`None`). */
  function ParseInt(s: string): Option<int> {
    ParseNumeral(TrimEnd(TrimStart(s)))
  }

  /** `s.lstrip()`, written without a contract so that unfolding `int()` stays
      cheap; `TrimStartIsStripLeft` shows it is `StripLeft` on whitespace. */
  function TrimStart(s: string): string
    decreases |s|
  {
    if |s| > 0 && s[0] in Whitespace then TrimStart(s[1..]) else s
  }

  /** `s.rstrip()`, the counterpart of `TrimStart`. */
  function TrimEnd(s: string): string
    decreases |s|
  {
    if |s| > 0 && s[|s| - 1] in Whitespace then TrimEnd(s[..|s| - 1]) else s
  }

  lemma {:induction false} TrimStartIsStripLeft(s: string)
    ensures TrimStart(s) == StripLeft(s, Whitespace)
    decreases |s|
  {
    if |s| > 0 && s[0] in Whitespace {
      TrimStartIsStripLeft(s[1..]);
    }
  }

  lemma {:induction false} TrimEndIsStripRight(s: string)
    ensures TrimEnd(s) == StripRight(s, Whitespace)
    decreases |s|
  {
    if |s| > 0 && s[|s| - 1] in Whitespace {
      TrimEndIsStripRight(s[..|s| - 1]);
    }
  }

  /** `int()` strips exactly what `strip()` strips. */
  lemma ParseIntStrips(s: string)
    ensures ParseInt(s) == ParseNumeral(Trim(s))
  {
    TrimStartIsStripLeft(s);
    TrimEndIsStripRight(TrimStart(s));
  }

  /** An optional sign followed by one or more ASCII digits. */
  function ParseNumeral(t: string): Option<int> {
    if |t| > 1 && (t[0] == '-' || t[0] == '+') && AllDigits(t[1..]) then
      var v: int := DigitsValue(t[1..]);
      Some(if t[0] == '-' then -v else v)
    else if |t| > 0 && AllDigits(t) then
      Some(DigitsValue(t))
    else
      None
  }

  lemma {:induction false} DigitsValueOfNatToString(n: nat)
    ensures DigitsValue(NatToString(n)) == n
    decreases n
  {
    if n >= 10 {
      var s := NatToString(n);
      assert s[..|s| - 1] == NatToString(n / 10);
      DigitsValueOfNatToString(n / 10);
    }
  }

  /** `int(str(i)) == i`: the decimal rendering of an integer parses back to it. */
  lemma ParseIntOfIntToString(i: int)
    ensures ParseInt(IntToString(i)) == Some(i)
  {
    var s := IntToString(i);
    assert s[0] !in Whitespace && s[|s| - 1] !in Whitespace;
    assert TrimEnd(TrimStart(s)) == s;
    if i < 0 {
      var d := NatToString(-i);
      assert s == "-" + d && s[1..] == d;
      DigitsValueOfNatToString(-i);
      assert ParseNumeral(s) == Some(i);
    } else {
      DigitsValueOfNatToString(i);
      assert ParseNumeral(s) == Some(i);
    }
  }

  /** A string with `t` at its end contains `t`. */
  lemma ContainsSuffix(s: string, t: string)
    ensures Contains(s + t, t)
  {
    assert (s + t)[|s|..] == t;
  }
}

=== FILE: urls.dfy ===
/** The project's URL configuration helper `prefixed_path`: every route is
    mounted under the deployment's `BASE_URL`, whatever slashes that setting
    carries at either end. Only the route string is modelled; the view and
    the name are passed through to Django untouched. */
module Urls {
  import opened Text

  const Slash: set<char> := {'/'}

  /** The route `prefixed_path(route, view, BASE_URL)` registers: `BASE_URL`
      stripped of slashes, then `/`, then the route; the route alone when
      nothing but slashes is left of `BASE_URL`. */
  function PrefixedRoute(baseUrl: string, route: string): (r: string)
    ensures EndsWith(r, route)
    ensures r == route <==> AllIn(baseUrl, Slash)
    ensures r != route ==> |r| > |route| && r[|r| - |route| - 1] == '/'
    ensures r != route ==> var prefix := r[..|r| - |route| - 1];
      prefix != [] && Unpadded(prefix, Slash)
  {
    var stripped := Strip(baseUrl, Slash);
    StripEmptyIffSlashes(baseUrl);
    if stripped == [] then route
    else
      var r := stripped + "/" + route;
      assert r[|r| - |route|..] == route;
      assert r[..|r| - |route| - 1] == stripped;
      r
  }

  /** A setting strips to nothing exactly when it is made only of slashes. */
  lemma StripEmptyIffSlashes(s: string)
    ensures Strip(s, Slash) == [] <==> AllIn(s, Slash)
  {
    var pre, post := StripParts(s, Slash);
    if Strip(s, Slash) == [] {
      assert s == pre + post;
      AllInAppend(pre, post, Slash);
    }
    if AllIn(s, Slash) {
      assert [] + [] + s == s;
      StripOfPadded([], [], s, Slash);
    }
  }

  /** Slashes around `BASE_URL` do not matter: `/x/`, `x` and `//x` mount a
      route at the same place. */
  lemma PrefixIgnoresSlashes(before: string, baseUrl: string, after: string, route: string)
    requires AllIn(before, Slash) && AllIn(after, Slash)
    ensures PrefixedRoute(before + baseUrl + after, route) == PrefixedRoute(baseUrl, route)
  {
    StripIgnoresPadding(before, baseUrl, after, Slash);
  }

  /** The spellings `/x/`, `x` and `//x` of one base URL agree. */
  lemma SpellingsAgree(x: string, route: string)
    ensures PrefixedRoute("/" + x + "/", route) == PrefixedRoute(x, route)
    ensures PrefixedRoute("//" + x, route) == PrefixedRoute(x, route)
  {
    assert AllIn("/", Slash) && AllIn("//", Slash) && AllIn("", Slash);
    PrefixIgnoresSlashes("/", x, "/", route);
    assert "//" + x == "//" + x + "";
    PrefixIgnoresSlashes("//", x, "", route);
  }

  /** A base URL with inner slashes keeps them: only the outer ones go, and
      exactly one slash separates the base from the route. */
  lemma InteriorSlashesKept(core: string, route: string)
    requires core != [] && Unpadded(core, Slash)
    ensures PrefixedRoute("/" + core + "/", route) == core + "/" + route
  {
    StripOfPadded("/", core, "/", Slash);
  }

  /** Mounting is inverted by cutting the base off again: the route can be
      read back from the mounted string, given the base it was mounted under. */
  lemma RouteRecoverable(baseUrl: string, route: string)
    ensures var r := PrefixedRoute(baseUrl, route);
      var cut := if AllIn(baseUrl, Slash) then 0 else |Strip(baseUrl, Slash)| + 1;
      cut <= |r| && r[cut..] == route
  {
    StripEmptyIffSlashes(baseUrl);
    var r := PrefixedRoute(baseUrl, route);
    if !AllIn(baseUrl, Slash) {
      var s := Strip(baseUrl, Slash);
      assert r == s + "/" + route;
      assert r[|s| + 1..] == route;
    }
  }
}

=== FILE: wrappers.dfy ===
/** Failure-carrying values shared by the other modules. */
module Wrappers {

  /** A value that may be absent: Python's `None` versus a present value. */
  datatype Option<+T> = None | Some(value: T)

  /** Either a computed value or the error that stopped the computation. */
  datatype Result<+T, +E> = Ok(value: T) | Err(error: E)
}
